=== FILE: README.md ===
# NeuroNest back office, modelled in Dafny

This project models the decision logic of NeuroNest, a real-estate back-office application. It has three layers:

- **Route handlers.** The handlers for bots, properties, inquiries, users, teams, maintenance and authentication authenticate a bearer token, validate the JSON body, look rows up in the store, and answer with a status and a JSON body.
- **Bot service.** It picks an e-mail "flow" from the inquiry count, assembles the prompt for the completion service, and tags the parsed reply as a success or a failure.
- **Client state.** This covers the dashboard page's handlers (likes, comments, new posts, record updates, vendor assignment, navigation, routing of a generated bot response), the social feed's composer and comment drafts, and the assistant form that validates its inputs and builds the bot request. It also covers the list screens' filters (properties, maintenance requests, inquiries, and the matchmaking client and property searches) and the three matchmaking verdicts.

How JavaScript is represented:

- JavaScript values are the datatype `Js.Value`: `undefined`, `null`, `NaN`, booleans, numbers, strings, arrays and objects. Truthiness, `||`, `!== undefined`, property access, `String(v)`, `Number(v)`, the relational comparisons and `parseInt` are written out on it; `Number(v)` gives a real number or an infinity (`Js.Numeric`), so fractions, exponents and `Infinity` compare as JavaScript compares them. This keeps the difference between a fallback on any falsy value and a fallback on `undefined` only explicit.
- Rows and request bodies are `map<string, Value>` records, so a spread or a projection is a map update.

How the handlers are modelled:

- A table is a sequence of rows in scan order (`Store`), because the list queries return rows in order.
- Every handler is a pure function from the authentication outcome, the request and the tables to a response. It also returns the row it would write, or the prompt it would send.
- Outside services are function parameters with no interpretation: the completion service, `JSON.parse`, `JSON.stringify`, JWT signing and verification, bcrypt hashing and comparison, the clock, and the repositories' create and update calls.

Module map:

| module | models |
|---|---|
| `Js`, `Text`, `Seqs`, `Search`, `Wrappers` | JavaScript values and string operations; sequence helpers; substring search ignoring the case of ASCII letters |
| `Store`, `Http`, `Access`, `Merge` | the table scans the repositories run; response and role helpers; the shared 401/404/403 guard; partial-update merges |
| `BotService` | `botService.ts` |
| `Bots`, `Properties`, `Inquiries`, `Users`, `Teams`, `Maintenance`, `Auth` | the route handlers of the same names |
| `PropertyList`, `MaintenanceList`, `InquiryList`, `Matchmaking` | the list screens' filters and the matchmaking verdicts |
| `Page`, `Social`, `BotGenerator` | `page.tsx`, `Social.tsx`, `BotResponseGenerator.tsx` |

Two modelling choices follow the code closely:

- Every sales or lease prompt carries the first-contact survey line, the second-contact survey line and the viewing line; only the flow word changes (`BotService.EmailTextListsBothSurveys`).
- Statuses are strings: the screens use values the record types lack (maintenance `IN_PROGRESS`).

## Model

| member | source | states |
|---|---|---|
| Auth.ExtractToken | auth.ts:35-39 | the token is the second space-separated field of the Authorization header; a missing header, a header without a space and an empty second field all give no token, and a token never holds a space |
| Auth.BearerToken | auth.ts:35 | `<scheme> <token>` yields exactly `<token>`, whatever the scheme word is and whatever follows a further space |
| Auth.DoubleSpaceIsNoToken | auth.ts:35-39 | two spaces after the scheme leave an empty second field, which counts as no token |
| Auth.Authenticate | auth.ts:25-47 | no token gives "No token provided"; a token the verifier rejects gives "Invalid token"; otherwise the decoded payload is the user, and an authenticated user is never falsy |
| Auth.TokenPayload | auth.ts:13-19 | a token carries exactly the user's id, e-mail, role and team |
| Auth.GenerateToken | auth.ts:13-21 | the token is the signer's output for the payload of the four fields; `Auth.TokenIgnoresOtherFields` and `Auth.IssuedTokenAuthenticates` state what follows from it |
| Auth.TokenIgnoresOtherFields | auth.ts:13-21 | changing any column of the user other than id, e-mail, role and team (the password hash, say) leaves the token unchanged |
| Auth.IssuedTokenAuthenticates | auth.ts:13-47 | a token the server signed, sent under any scheme word, authenticates as its user whenever verification gives back the signed fields, whatever it adds to them (such as `iat` and `exp`); the caller then reads that user's id, e-mail, role and team |
| Auth.SessionUser | auth.ts:95-101 | the user object returned holds exactly id, e-mail, full name, role and team, read from the stored row |
| Auth.NewUser | auth.ts:76-82 | the stored row holds the hash in place of the password, and a falsy team becomes undefined |
| Auth.Register | auth.ts:50-107 | an unreadable body is a 500; a missing field, then an e-mail already in use, is a 400 and nothing is written; a row is written exactly when the body is complete, the e-mail is new and hashing succeeds, and the answer is then a 201 with a token for the stored user |
| Auth.RegistrationHidesPassword | auth.ts:91-102 | the registration answer's user never carries the password or its hash |
| Auth.Login | auth.ts:110-157 | an unreadable body is a 500 and a missing e-mail or password a 400; the answer is 200 exactly when the e-mail is known and the password matches its hash, and then carries a token and the session user |
| Auth.InvalidCredentialsIndistinguishable | auth.ts:126-135 | an unknown e-mail and a wrong password get the very same 401 response |
| Auth.GetCurrentUser | auth.ts:160-196 | an unauthenticated call is a 401 with the authentication message; an id with no row is a 404; otherwise the answer is the row's public profile |
| Auth.CurrentUserIsTokenUser | auth.ts:174-191 | the current user's profile omits the password hash and has the id the token names |
| BotService.Failed | botService.ts:68-75 | a bot's failure object has a false, falsy `success` and the bot's fixed message |
| BotService.Run | botService.ts:47-67 | a run succeeds exactly when the service answers with non-empty content that parses, and then holds `success: true` and the parsed answer under the bot's field; otherwise `success` is false and the message is the bot's fixed failure text |
| BotService.EmptyAnswerFails | botService.ts:57-60 | an answer that is null or empty is a failure with "Empty response from OpenAI", whatever the parser would do |
| BotService.SelectFlow | botService.ts:16-21 | the second flow is chosen exactly for the number 2, the third exactly for any other count that `>= 3` accepts (after converting an array to its text and the text with `Number`), and the first for everything else |
| BotService.FlowOfNumber | botService.ts:16-21 | on numbers the flow is 2 → second, 3 and above → third, anything else → first |
| BotService.FlowOfText | botService.ts:16-21 | a count sent as the text "2" gets the first flow (strict equality fails) while "3" gets the third (the comparison converts it) |
| BotService.FlowOfHex | botService.ts:16-21 | the text count "0x10" is read as 16 and gets the third flow |
| BotService.FlowOfExponent | botService.ts:16-21 | the text count "1e3" is read as 1000 and gets the third flow |
| BotService.FlowOfInfinity | botService.ts:16-21 | the text count "Infinity" gets the third flow |
| BotService.FlowOfArray | botService.ts:16-21 | the array count `[5]` is compared through its text "5" and gets the third flow |
| BotService.FlowOfFraction | botService.ts:16-21 | the text count "2.5" is neither `=== 2` nor `>= 3` and gets the first flow |
| BotService.EmailTextContents | botService.ts:24-45 | the e-mail assistant's prompt names the property, states the selected flow and carries the e-mail verbatim between triple quotes |
| BotService.EmailText | botService.ts:24-45 | the sales and lease prompt template; what it contains is stated by `EmailTextContents`, `EmailTextInjective` and `EmailTextListsBothSurveys` |
| BotService.EmailTextInjective | botService.ts:24-45 | two different e-mails never give the same prompt: nothing of the e-mail is lost |
| BotService.EmailTextListsBothSurveys | botService.ts:33-39 | both survey links are in every e-mail prompt, whichever flow was selected |
| BotService.CaseStudyText | botService.ts:153-176 | the case-study prompt template; what it contains is stated by `CaseStudyNamesClient`, `CaseStudyNamesProperty`, `CaseStudyListsPastInquiries` and `CaseStudyCarriesSurvey` |
| BotService.CaseStudyNamesClient | botService.ts:153-157 | the case-study prompt names the client |
| BotService.CaseStudyNamesProperty | botService.ts:153-157 | the case-study prompt names the property |
| BotService.CaseStudyListsPastInquiries | botService.ts:158 | the case-study prompt carries the past-inquiries line |
| BotService.CaseStudyCarriesSurvey | botService.ts:160-161 | the case-study prompt carries the survey responses under their heading |
| BotService.DescriptionText | botService.ts:218-240 | the description prompt template; what it contains is stated by `DescriptionNamesProperty`, `DescriptionCarriesLocation` and `DescriptionCarriesImages` |
| BotService.DescriptionNamesProperty | botService.ts:218-221 | the description prompt names the property |
| BotService.DescriptionCarriesLocation | botService.ts:223 | the description prompt carries the location details under their label |
| BotService.DescriptionCarriesImages | botService.ts:224 | the description prompt carries the image sentence on a line of its own |
| BotService.EmailBot | botService.ts:13-142 | the sales and lease assistants render e-mail, address and count as a template literal does, choose the flow by the count, and report the outcome of running that prompt with their own failure message |
| BotService.PastInquiriesText | botService.ts:158 | the past-inquiries line is the inquiries joined by ", ", or "None" exactly when that join is empty |
| BotService.PastInquiriesOfTexts | botService.ts:158 | for a list of texts, "None" stands exactly for no inquiry or a single empty one |
| BotService.CaseStudyBot | botService.ts:145-207 | the service is called exactly when the past inquiries are an array; a non-array makes `join` throw and the bot fails with "Error generating case study" without calling it |
| BotService.ImagesLineCases | botService.ts:224 | any image array, even an empty one, is reported with its length; no images gives "No property images available" |
| BotService.DescriptionBot | botService.ts:210-271 | the description prompt carries the address, the stringified features, the location and the image sentence, and the outcome is that prompt's run with the description failure message |
| Bots.Relay | bots.ts:28-38 | a successful assistant run is relayed as 200 with its payload; a failed one as 500 with the assistant's message, or the route's default when that is falsy |
| Bots.RelayedFailureMessage | bots.ts:28-33 | a failed run always carries the assistant's own non-empty message, so the route's default message is never used |
| Bots.ProcessEmail | bots.ts:8-81 | an unauthenticated call is a 401 and nothing is sent; the assistant is asked exactly when the caller is authenticated, the body is readable and both e-mail and address are truthy, and then with the address, the e-mail and the flow chosen from the count or 1 |
| Bots.ProcessEmailReplies | bots.ts:21-38 | once the caller is known, a missing e-mail or address is a 400, and otherwise the answer is the assistant's verdict, relayed |
| Bots.CountDefaultIsInert | bots.ts:26 | replacing a falsy inquiry count with 1 never changes the flow the assistant chooses |
| Bots.SameFlowRule | bots.ts:26-64 | the sales and the lease route choose the same flow from the same body |
| Bots.FullAddress | bots.ts:116 | the address line, suburb and state joined by ", "; `Bots.FullAddressParts` shows the parts are recovered by splitting at the commas |
| Bots.FullAddressParts | bots.ts:116 | the full address splits at its commas back into the address line, suburb and state when none of them holds a comma |
| Bots.GenerateCaseStudy | bots.ts:84-156 | as written: an unauthenticated call is a 401; no answer is ever a 200; the assistant is asked only after every field is present and both client and property exist |
| Bots.CaseStudyChecks | bots.ts:86-113 | the checks run in the route's order: 401, then an unreadable body (500), then 400 for a missing client, property or survey, then 404 exactly when the client or the property is unknown; on success the two rows found |
| Bots.CaseStudyCall | bots.ts:116-122 | the case-study assistant runs on the client's full name, the full address, the survey responses and the past inquiries or `[]`; `Bots.NoPastInquiries` shows the `[]` default reads "None" in the prompt |
| Bots.NoPastInquiries | botService.ts:158 | without past inquiries the case-study prompt says "None" |
| Bots.GenerateCaseStudyIntended | bots.ts:124-151 | as evidently intended: the same prompt is sent, and the answer is 200 with the case study exactly when the run succeeds with a non-null case study |
| Bots.CaseStudySuccessIsLost | bots.ts:132 | a run the intended route answers with 200 ends in a 500 "Server error" in the route as written |
| Bots.Features | bots.ts:189-191 | with no features text the defaults (3 bedrooms, 2 bathrooms, 1 parking) are used; with one, the route goes on exactly when the text parses |
| Bots.LocationDetails | bots.ts:195 | a truthy location is used as given, and otherwise "Located in <suburb>, <state>" |
| Bots.DescriptionChecks | bots.ts:161-186 | 401, then an unreadable body (500), then 400 without a property id, then 404 exactly when the property is unknown; on success the property row |
| Bots.GenerateDescription | bots.ts:159-235 | an unauthenticated call is a 401; the assistant is asked exactly when the checks pass and the features parse, with the full address, the features, the location details and the image sentence; a features text that does not parse is a 500; a failed run answers 500 with the assistant's message or the route's default; a successful run answers 200 with the description, unless the description is null, which throws into a 500 |
| Bots.DescriptionReplies | bots.ts:197-229 | once the property is found and its features read, a completion that parses to a non-null value is answered 200 with exactly that description, one that parses to null with "Server error", and a missing, empty or unparsable one with the assistant's failure message |
| Store.Where | repositories.ts:223-236 | a `WHERE column = ?` query returns, in scan order, exactly the rows whose cell SQL-equals the key; a NULL, undefined or NaN key matches nothing |
| Store.FindFirst | repositories.ts:215-220 | a `.first()` lookup returns a matching row of the table, and nothing exactly when no row matches |
| Store.Rows | properties.ts:59 | the rows returned as JSON are the table's rows, one object each, in order |
| Merge.Pick | properties.ts:177-184 | `given || stored` keeps the stored value exactly for a falsy input, and `given !== undefined ? given : stored` exactly for a missing one |
| Merge.Apply | properties.ts:175-185 | the merged record has the stored fields plus the merged ones; fields without a rule keep their stored value, and each ruled field is picked from the body and the stored value |
| Merge.OtherFieldsUnchanged | properties.ts:176 | a field outside the rules is never changed by the body |
| Merge.EmptyBodyKeepsAll | properties.ts:175-185 | a body that names none of the fields changes nothing that can be read |
| Merge.ApplyIdempotent | properties.ts:175-185 | applying the same body twice gives the same record as applying it once |
| Merge.TruthyInputWins | properties.ts:177-184 | a truthy value in the body always wins, under either rule |
| Merge.RulesDiffer | properties.ts:177-184 | the two rules disagree exactly when the input is falsy but present and differs from the stored value |
| Access.Guard | properties.ts:148-169 | 401 first, then 404 for an unknown id, then 403 exactly when the caller is neither STAFF nor DIRECTOR nor the record's owner; on success the caller and the record found |
| Access.NotFoundPrecedesForbidden | properties.ts:160-169 | for an unknown id every signed-in caller gets the same answer, whatever their role |
| Seqs.FilterMultiplicity | properties.ts:36-40 | a filter keeps every passing row as many times as the table holds it and drops every failing row entirely |
| Properties.SuburbFilter | properties.ts:36-40 | the suburb filter keeps, in order, exactly the rows whose suburb contains the term once ASCII capitals are lowered, and throws exactly when a row's suburb is not a string |
| Properties.Candidates | properties.ts:29-56 | before the suburb filter, a non-admin gets their own listings (with the status asked for), and an admin the rows with the status asked for, or none without one |
| Properties.Listing | properties.ts:26-57 | the listing keeps the table's order and holds exactly the scoped rows in the suburb asked for; it throws exactly when a suburb is given and a scoped row's suburb is not a string |
| Properties.GetProperties | properties.ts:8-64 | 401 first; then the listing as a 200, or a 500 when the suburb filter throws |
| Properties.ListedPropertiesMatch | properties.ts:26-59 | every property in a listing is a stored row that satisfies the filters asked for and is scoped to the caller |
| Properties.AdminWithoutStatusSeesNothing | properties.ts:52-56 | STAFF and DIRECTOR callers who give no status get an empty list, whatever the table holds |
| Access.Fetch | properties.ts:67-91 | a signed-out caller gets 401; a signed-in one gets 200 exactly when some row has the id, and the record returned is a row of the table with that id; otherwise the given 404 |
| Properties.GetPropertyById | properties.ts:67-91 | any signed-in caller reads a property, whoever listed it: 200 exactly when some property has the id, with a stored property of that id; otherwise 404 "Property not found"; signed out, 401 |
| Properties.NewProperty | properties.ts:120-129 | a new property has the address fields and features as given, the caller as lister, and FOR_SALE unless a truthy status is given |
| Properties.CreateProperty | properties.ts:94-143 | 401 first; a 400 exactly for a readable body without address line, suburb or state; a property is written exactly when they are present, and the answer is then a 201 with the written property and its new id |
| Properties.CreatorOwnsProperty | properties.ts:120-169 | a property created by a non-admin is one they may later update, and one their own unfiltered listing returns |
| Properties.PropertyMergeFalsy | properties.ts:177-182 | the address line, suburb, state and status fall back to the stored value on any falsy input |
| Properties.PropertyMergeUndefined | properties.ts:178-184 | the second address line, postcode and features fall back only on a missing input |
| Properties.PropertyMergeKeeps | properties.ts:176 | the lister, the id and every other stored field are never changed by the body |
| Properties.UpdateProperty | properties.ts:146-203 | the shared guard's failure is the answer; an unreadable body after the guard is a 500 "Server error"; a merged property is written exactly when the guard passes and the body is readable, the answer is then 200 exactly when the store reports success, and a 200 carries the merged property |
| Properties.UnknownPropertyIsNotFound | properties.ts:160-163 | an update of an unknown property is a 404 for every signed-in caller |
| Properties.UpdateKeepsOwner | properties.ts:175-185 | an update never moves a property to another lister |
| Properties.NewDescription | properties.ts:242-247 | the description records the route's property, the text, the caller as author, and is the current version unless the body says otherwise |
| Properties.CreatePropertyDescription | properties.ts:206-262 | the shared guard's failure is the answer; then 400 exactly when the text is missing, and 201 with the description exactly when it is present |
| Js.ParseIntOfHex | inquiries.ts:34-39 | an id parameter written in hexadecimal after `0x` is read by `parseInt` as that base-16 number, so `?client_id=0x10` selects client 16 |
| Js.ToPrimitive | botService.ts:19 | before a comparison an array or object becomes its `String` form and every other value stays as it is |
| Js.NumberOfDigits | botService.ts:19 | `Number` reads a run of decimal digits as its value |
| Js.NumberOfRendered | botService.ts:19 | `Number(String(n))` is `n` for every integer, negative ones included |
| Js.NumberOfHex | botService.ts:19 | `Number` reads an unsigned `0x` literal in base 16 |
| Js.NumberOfExponent | botService.ts:19 | `Number` reads digits, `e` and an unsigned exponent as the digits times that power of ten |
| Js.ArrayComparedAsString | Matchmaking.tsx:298 | an array against a string compares as two strings, so `["b"] > "a"` holds |
| Inquiries.NarrowById | inquiries.ts:34-39 | an id filter keeps, in order, exactly the rows whose column strictly equals `parseInt` of the parameter; a parameter that is not a number matches nothing |
| Inquiries.Candidates | inquiries.ts:29-54 | a non-admin starts from the inquiries assigned to them, narrowed by every id given; an admin from the inquiries of the client asked for, failing that of the property asked for, and otherwise none |
| Inquiries.Listing | inquiries.ts:27-59 | the listing keeps the table's order and holds exactly the scoped inquiries with the status asked for |
| Inquiries.GetInquiries | inquiries.ts:8-66 | 401 first; otherwise the listing as a 200 |
| Inquiries.ListedInquiriesMatch | inquiries.ts:30-42 | every inquiry listed to a non-admin is a stored inquiry assigned to them that satisfies every filter asked for |
| Inquiries.ClientFilterPrecedes | inquiries.ts:45-49 | for an admin who gives a client, the property filter makes no difference |
| Inquiries.GetInquiryById | inquiries.ts:69-99 | the shared guard's failure (401, 404, 403) is the answer; otherwise 200 with the inquiry exactly when the guard passes |
| Inquiries.NewInquiry | inquiries.ts:128-140 | a new inquiry copies the body's fields, is assigned to the caller unless a truthy assignee is given, is OPEN and MEDIUM unless a truthy status and urgency are given, and is received at the given time |
| Inquiries.CreateInquiry | inquiries.ts:102-154 | 401 first; 400 exactly for a readable body without an e-mail body; an inquiry is written exactly when it has one, and the answer is then a 201 with the written inquiry and its new id |
| Inquiries.CreatorMayEditUnassigned | inquiries.ts:135-180 | an inquiry created without an assignee can afterwards be read and updated by its creator |
| Inquiries.InquiryMergeFalsy | inquiries.ts:191-196 | classification, status and urgency fall back to the stored value on any falsy input |
| Inquiries.InquiryMergeUndefined | inquiries.ts:188-194 | the ids, subject, sub-category, assignee and do-not-contact flag fall back only on a missing input |
| Inquiries.InquiryMergeKeeps | inquiries.ts:187 | the e-mail body, the received time and the id are never changed by an update |
| Inquiries.UpdateInquiry | inquiries.ts:157-215 | the shared guard's failure is the answer; an unreadable body after the guard is a 500 "Server error"; a merged inquiry is written exactly when the guard passes and the body is readable, the answer is then 200 exactly when the store reports success, and a 200 carries the merged inquiry |
| Inquiries.ReassignmentLocksOut | inquiries.ts:177-193 | a non-admin who hands an inquiry to someone else can no longer update it |
| Users.PublicProfile | users.ts:84-95 | a profile holds exactly id, e-mail, full name, role, team, phone and plan, read from the row with `user_id` as `id`, and never the password hash |
| Users.ProfileIgnoresOtherFields | users.ts:84-95 | changing any stored field outside the seven copied ones, the password hash included, leaves the profile unchanged |
| Users.Profiles | users.ts:41-49 | the listing maps each user, in order, to its profile |
| Users.GetUsers | users.ts:8-56 | 401 first; 403 for a caller who is not STAFF or DIRECTOR; otherwise the profiles of the team's members |
| Users.TeamMembers | users.ts:30-38 | without a team parameter the list is empty; with one, the list holds, in table order, exactly the stored users whose team equals `parseInt` of the parameter |
| Users.TeamUserIsListed | users.ts:30-49 | every stored user of the requested team appears in the admin's listing, as their profile |
| Users.ListedUsersBelongToTeam | users.ts:31-51 | every user listed for a team belongs to that team and carries no password hash |
| Users.GetUserById | users.ts:59-100 | 401 first; 403 exactly when the caller is neither an admin nor that user, decided before any lookup; 404 exactly for an unknown user; a 200 carries the profile |
| Users.MergeUser | users.ts:132-143 | as written: name, phone, plan and team are merged from the body, the role only from an admin's truthy input, and nothing else changes |
| Users.NonAdminChangesTeam | users.ts:137-141 | an AGENT who sends a new team id is moved to that team |
| Users.MergeUserIntended | users.ts:140-143 | as the comment says: only an admin changes the role or the team, and every other field merges as written |
| Users.UpdateUser | users.ts:103-169 | 401, then 403 unless the caller is an admin or that user, then 404; an unreadable body is then a 500 "Server error"; the merged user is written exactly when the user exists and the body is readable, and a 200 carries its profile |
| Maintenance.ListRequests | maintenance.ts:8-36 | 401 first; every signed-in caller gets an empty list, whatever the filters |
| Maintenance.GetRequestById | maintenance.ts:39-60 | 401 first; every signed-in caller gets a 404 "Maintenance request not found" |
| Maintenance.NewRequest | maintenance.ts:101-108 | a new request copies the inquiry, property and vendor, is PLUMBING and OPEN unless a truthy category and status are given, and has an assignment time exactly when a vendor is given |
| Maintenance.CreateRequest | maintenance.ts:63-123 | 401 first; 403 exactly for a signed-in caller who is not STAFF, DIRECTOR or PM; 400 exactly for a readable body without a property; 404 exactly for an unknown property; a 201 carries the new request |
| Maintenance.CreateSucceeds | maintenance.ts:84-118 | a property manager who names a stored property always gets a 201 |
| Maintenance.UpdateRequest | maintenance.ts:126-152 | 401 first; 403 for a caller who is not a property manager; otherwise a 404 |
| Teams.GetTeams | teams.ts:8-29 | 401 first; otherwise every team, in table order |
| Teams.GetTeamById | teams.ts:32-56 | signed out, 401; signed in, 200 exactly when some team has the id, returning a stored team row, and otherwise 404 "Team not found" |
| Teams.CreateTeam | teams.ts:59-104 | 401 first; 403 for a caller who is not STAFF or DIRECTOR; 400 exactly when the team name is missing; a team is written exactly when it is present, holding the name and company, and the answer is then 201 with it and its new id |
| Teams.TeamMerge | teams.ts:136-140 | the team name falls back to the stored one on any falsy input, the company only on a missing input, and nothing else changes |
| Teams.UpdateTeam | teams.ts:107-158 | 401, then 403 for a non-admin, then 404 exactly for an unknown team; an unreadable body is then a 500 "Server error"; the merged team is written exactly when the team exists and the body is readable, the answer is 200 exactly when the store reports success, and a 200 carries the merged team |
| Teams.RoleCheckPrecedesLookup | teams.ts:115-129 | a non-admin gets the same answer whatever the teams table holds |
| Search.NarrowerTermMatchesLess | PropertyList.tsx:21-23 | typing more into a search box never lets a field match that did not match before |
| PropertyList.Filtered | PropertyList.tsx:20-29 | the shown properties keep the list's order and are exactly those that match the search in address or suburb, ignoring the case of ASCII letters, and both drop-downs |
| PropertyList.NoFiltersKeepAll | PropertyList.tsx:16-29 | with every control at its initial "all" value the list is shown unchanged |
| PropertyList.AddressFindsProperty | PropertyList.tsx:21-22 | each property is found by searching for its own address |
| PropertyList.NarrowingNeverAdds | PropertyList.tsx:20-29 | typing more into the search or setting a drop-down that was "all" never adds a property and never reorders the list |
| PropertyList.Suburbs | PropertyList.tsx:32 | the suburb options hold every suburb of the list, each exactly once |
| PropertyList.SuburbsInFirstOccurrenceOrder | PropertyList.tsx:32 | the suburb options come in the order the suburbs first appear in the list |
| PropertyList.LetterMissingHides | PropertyList.tsx:21-23 | a property whose address and suburb both lack one of the term's letters, in either ASCII case, is hidden by a search for it |
| PropertyList.SuburbPrefixFinds | PropertyList.tsx:23 | a property whose suburb starts with the term is found by a search for it |
| PropertyList.SearchSurry | PropertyList.test.tsx:75-93 | searching "Surry" among the two sample properties shows only the Surry Hills one |
| PropertyList.StatusForRent | PropertyList.test.tsx:95-112 | the status filter FOR_RENT shows only the rental |
| PropertyList.SearchNonexistent | PropertyList.test.tsx:146-162 | searching "nonexistent" shows no property |
| MaintenanceList.Filtered | MaintenanceList.tsx:20-29 | the shown requests keep the list's order and are exactly those that match the search in address or vendor, ignoring the case of ASCII letters, and both drop-downs |
| MaintenanceList.NoFiltersKeepAll | MaintenanceList.tsx:20-29 | with every control at "all" the list is shown unchanged |
| MaintenanceList.VendorFindsRequest | MaintenanceList.tsx:23 | a request with a vendor is found by searching for the vendor's name |
| MaintenanceList.NoVendorSearchesAddress | MaintenanceList.tsx:21-23 | for a request without a vendor, a search matches exactly when the address contains the term |
| MaintenanceList.NarrowingNeverAdds | MaintenanceList.tsx:20-29 | narrowing the search, status or category never adds a request and never reorders the list |
| InquiryList.Filtered | InquiryList.tsx:20-28 | the shown inquiries keep the list's order and are exactly those that match the search in subject or client name, ignoring the case of ASCII letters, and the status drop-down |
| InquiryList.NoFiltersKeepAll | InquiryList.tsx:20-28 | with both controls at "all" the list is shown unchanged |
| InquiryList.ClientNameFindsInquiry | InquiryList.tsx:23 | each inquiry is found by searching for its client's name |
| InquiryList.NarrowingNeverAdds | InquiryList.tsx:20-28 | narrowing the search or the status never adds an inquiry and never reorders the list |
| Matchmaking.FilteredClients | Matchmaking.tsx:32-36 | the shown clients keep the list's order and are exactly those whose name or e-mail contains the term, ignoring the case of ASCII letters |
| Matchmaking.FilteredListings | Matchmaking.tsx:39-43 | the shown properties keep the list's order and are exactly those whose address or suburb contains the term, ignoring the case of ASCII letters |
| Matchmaking.EmptySearchShowsAll | Matchmaking.tsx:32-43 | an empty search box shows its whole list |
| Matchmaking.NarrowerSearchShowsLess | Matchmaking.tsx:32-43 | typing more into either search box never adds to its list and never reorders it |
| Matchmaking.SelectedClient | Matchmaking.tsx:46 | the selected client is one whose id renders as the selected text, and there is none exactly when no client's id does |
| Matchmaking.SelectedListing | Matchmaking.tsx:47 | the selected property is one whose id renders as the selected text, and there is none exactly when no property's id does |
| Matchmaking.NatToStringInjective | Matchmaking.tsx:46-47 | two different ids never render as the same text, so `toString()` comparison identifies one id |
| Matchmaking.RadioSelectsItsRow | Matchmaking.tsx:46-90 | when ids are distinct, clicking a row's radio button selects exactly that client, and likewise that property |
| Matchmaking.CreateMatch | Matchmaking.tsx:50-55 | a match is reported exactly when both a client and a property are selected, and the note is then cleared; otherwise the note is kept |
| Matchmaking.SelectedPairIsReported | Matchmaking.tsx:50-90 | after selecting a client and a property by their radio buttons, creating the match reports exactly their two ids as numbers |
| Matchmaking.AboveBudget | Matchmaking.tsx:298 | the `&&` chain of the budget verdict; `BudgetVerdictOnNumbers` and `MissingFigureIsWithinBudget` state it: the comparison on non-zero numbers, and within budget whenever a figure is missing |
| Matchmaking.BudgetVerdictOnNumbers | Matchmaking.tsx:298-300 | for non-zero numeric price and budget, the property is reported above budget exactly when the price is greater |
| Matchmaking.MissingFigureIsWithinBudget | Matchmaking.tsx:298-300 | a missing or zero price or budget, or no selection, reads as "within the client's budget" |
| Matchmaking.Includes | Matchmaking.tsx:303 | `includes` is membership for an array, a substring test for a string, and throws for anything else |
| Matchmaking.OutsidePreferredSuburbs | Matchmaking.tsx:303-305 | the verdict expression on its own throws exactly when the property has a suburb and the client's suburb list is a truthy value without `includes` (neither an array nor a string) |
| Matchmaking.SuburbsLine | Matchmaking.tsx:227-231 | the card's suburb line joins an array list with ", ", is absent for a falsy list, and throws exactly for a truthy list that is not an array |
| Matchmaking.SuburbVerdictShown | Matchmaking.tsx:210-305 | the Create Match card fails to render exactly when the client's suburb list is truthy and not an array, because the suburb line comes first; otherwise it shows the verdict expression's answer |
| Matchmaking.TextSuburbListBreaksCard | Matchmaking.tsx:227-305 | a suburb list written as one string passes the verdict expression (a string has `includes`) but breaks the card (it has no `join`) |
| Matchmaking.SuburbVerdictOnNames | Matchmaking.tsx:303-305 | with a list of suburb names, the property is outside the preferred suburbs exactly when its suburb is not in the list |
| Matchmaking.MissingSuburbListIsPreferred | Matchmaking.tsx:303-305 | no client suburb list, no property or a property without a suburb reads as "in one of the preferred suburbs" |
| Matchmaking.FewerBedrooms | Matchmaking.tsx:308 | the `&&` chain of the bedroom verdict; `BedroomVerdictOnNumbers` states it is the comparison on non-zero numbers |
| Matchmaking.BedroomVerdictOnNumbers | Matchmaking.tsx:308-310 | for non-zero numeric counts, "fewer bedrooms" is reported exactly when the property has fewer than the client prefers |
| Matchmaking.SearchJane | Matchmaking.test.tsx:92-111 | searching the two sample clients for "Jane" shows only Jane Smith |
| Matchmaking.SearchPark | Matchmaking.test.tsx:113-132 | searching the two sample properties for "Park" shows only 456 Park Ave |
| Matchmaking.MainStreetWithinJohnsBudget | Matchmaking.test.tsx:134-163 | 123 Main St at 950000 is within John Doe's budget of 1000000 |
| Matchmaking.FirstRadiosReportOneOne | Matchmaking.test.tsx:165-192 | selecting the first client and the first property and creating the match reports (1, 1) |
| Social.CreatePost | Social.tsx:43-50 | a post is sent exactly when the text is not all white space, as typed (untrimmed) and with the picked image, and the composer is then cleared; otherwise nothing changes |
| Social.PostingTwiceSendsOnce | Social.tsx:43-50 | pressing "Post" again straight after a post sends nothing |
| Social.VisibleTextIsPosted | Social.tsx:44-45 | text that starts with a visible character is posted as typed, with the picked image |
| Social.NewPostExample | Social.test.tsx:88-109 | the text "This is a new post" without an image is posted as it is, with no image |
| Social.EditDraft | Social.tsx:52-57 | editing a post's comment draft replaces that draft and keeps every other one |
| Social.SubmitComment | Social.tsx:59-67 | a comment is sent exactly when the post has a draft that is not all white space, untrimmed and for that post; only that draft is then emptied |
| Social.TypeThenSubmit | Social.tsx:52-67 | typing a visible comment under a post and submitting it sends exactly that text for that post, empties its draft, leaves every other draft alone, and a second submit sends nothing |
| Social.UntouchedPostSendsNothing | Social.tsx:60 | a post nobody has typed under has nothing to submit |
| Social.CountLabel | Social.tsx:173-182 | for any integer count, negative ones included, the label reads back with `parseInt` as the count, starts with the count, a space and the noun, and adds an "s" exactly when the count is not one |
| Social.PluralUnlessOne | Social.tsx:173-182 | the label ends in "s" exactly when the count is not one |
| Social.FiveLikes | Social.test.tsx:76 | five likes read "5 Likes" |
| Social.OneComment | Social.test.tsx:81 | one comment reads "1 Comment" |
| Social.NoComments | Social.test.tsx:82 | no comments read "0 Comments" |
| Social.MinusOneLikes | Social.tsx:173 | a post unliked from zero likes shows "-1 Likes" |
| Page.Toggled | page.tsx:304-308 | a toggled post flips its liked flag, moves its count down by one if it was liked and up by one otherwise, and keeps every other field |
| Page.LikePost | page.tsx:296-311 | every post with the id is toggled and every other post is kept, in place |
| Page.LikeTwiceRestores | page.tsx:296-311 | liking the same post twice restores the feed |
| Page.LikeKeepsOthersCount | page.tsx:304-308 | the count without one's own like never changes: it moves with the liked flag, by exactly one |
| Page.CommentPost | page.tsx:313-333 | every post with the id gets exactly one comment by "You" appended, after its earlier comments; nothing else changes |
| Page.CommentAddsOne | page.tsx:313-333 | with distinct post ids, commenting changes only the one post, whose comments gain the new one at the end |
| Page.CreatePost | page.tsx:274-294 | the new post goes in front of the feed, numbered one past the current count, by "You", with no likes and no comments, and has an image address exactly when an image was picked |
| Page.CreateKeepsNumbering | page.tsx:279-292 | a feed numbered 1..n, as the initial one is, is numbered 1..n+1 after a post, and the new number was not in use |
| Page.UpdateRequestStatus | page.tsx:232-243 | every request with the id gets the status, keeping every other field; the other requests are kept |
| Page.LastStatusWins | page.tsx:232-243 | setting two statuses in a row leaves the second |
| Page.UpdateProperty | page.tsx:205-216 | every property with the id gets the data's fields over its own and keeps the rest; the other properties are kept |
| Page.UpdatePropertyIdempotent | page.tsx:205-216 | applying the same edit twice is applying it once, as long as it does not renumber the property |
| Page.Assigned | page.tsx:256-262 | an assigned request has the vendor id and the found vendor's name, phone and e-mail (undefined without one), and keeps every other field |
| Page.AssignVendor | page.tsx:245-265 | the request with the id gets the first vendor with the vendor id; the other requests are kept |
| Page.AssignedVendorDetails | page.tsx:250-262 | with distinct vendor ids, the assigned contact details are the chosen vendor's |
| Page.UnknownVendorBlanksDetails | page.tsx:250-262 | an unknown vendor id still sets the vendor id and blanks the contact details |
| Page.ViewChange | page.tsx:174-183 | a view change shows the view, selects the id or clears the selection, and pushes exactly `/?view=<view>` without an id and `/?view=<view>&id=<id>` with one |
| Page.QueryEffectAsWritten | page.tsx:163-171 | destructuring the router's `query` throws exactly when it is null or undefined; otherwise a truthy `view` switches the view, a truthy `id` is read with `parseInt`, and falsy ones change nothing |
| Page.MountThrows | page.tsx:163-171 | with a router that has no `query` property, as the `next/navigation` router has not, the navigation effect throws whatever the page shows |
| Page.PairValue | page.tsx:163-171 | a parameter is found exactly when some `k=v` pair is named by it, and its value is everything after the first `=` of the first such pair, as `URLSearchParams.get` gives |
| Page.QueryParam | page.tsx:163-171 | an address without the `/?` prefix has no parameters; otherwise the parameter is looked up among its `&`-separated pairs |
| Page.QueryEffect | page.tsx:163-171 | the intended effect of the address: a non-empty `view` parameter switches the view and a non-empty `id` is read with `parseInt`; absent or empty ones change nothing |
| Page.ReadBackWithId | page.tsx:163-183 | reading the `view` and `id` parameters back out of the address a view change with an id pushed leaves the page exactly where the view change put it |
| Page.ReadBackWithoutId | page.tsx:163-183 | reading back the address a view change without an id pushed switches to that view and keeps the cleared selection |
| Page.DescriptionText | page.tsx:356 | reading the generated description throws exactly when the response or its description is null or undefined |
| Page.UseBotResponse | page.tsx:341-363 | the sales and lease views go back to inquiries, the case-study view to matchmaking, the description view without a selection to properties, any other view stays; it throws exactly for a description view with a selected property and no description |
| Page.DescriptionOpensUpdatedProperty | page.tsx:352-358 | using a description for a selected property opens that property, whose description is now the generated text, and leaves the other properties untouched |
| Page.SelectedZeroGoesToList | page.tsx:354 | a selected id of 0 is falsy, so the description is not saved and the page goes to the property list |
| BotGenerator.PastInquiries | BotResponseGenerator.tsx:69-71 | a blank list gives no names; otherwise one name per comma-separated piece, each with its surrounding white space removed |
| BotGenerator.PastInquiriesRoundTrip | BotResponseGenerator.tsx:69-71 | names without commas or surrounding white space, joined with commas, read back as exactly those names in order |
| BotGenerator.BuildRequest | BotResponseGenerator.tsx:41-84 | sales and lease: refused exactly when the e-mail is blank, otherwise the e-mail, property id and `parseInt` of the count; case study: refused when the survey is blank or not JSON, each with its own message, otherwise client, property, parsed survey and trimmed past inquiries; description: always the property id and location text |
| BotGenerator.EmailRequest | BotResponseGenerator.tsx:48-52 | the sales and lease request the form sends never carries a property address |
| BotGenerator.HandleReply | BotResponseGenerator.tsx:86-95 | a reply is forwarded exactly when it is an object with a truthy `success`; an unsuccessful reply shows its message or the default; a rejected call shows the generic error |
| BotGenerator.Generate | BotResponseGenerator.tsx:34-99 | nothing is sent exactly when the request is refused, and then the refusal message is shown; otherwise what is shown is the outcome of the reply to that request |
| BotGenerator.BlankEmailIsRejected | BotResponseGenerator.test.tsx:56-72 | a blank e-mail sends nothing and asks for the e-mail content |
| BotGenerator.VisibleEmailIsSent | BotResponseGenerator.tsx:42-52 | an e-mail starting with a visible character is sent as typed, with the count field read back as its number |
| BotGenerator.SalesRequestExample | BotResponseGenerator.test.tsx:74-104 | the sales example sends the e-mail, property 1 and an inquiry count of 1 |
| BotGenerator.EmailFormNeverReachesBot | BotResponseGenerator.tsx:48-52 | whatever the form sends for sales or lease, the route answers 400 and the assistant is never asked, even for a signed-in caller |
| BotGenerator.EmailRequestIntended | BotResponseGenerator.tsx:48-52 | the corrected request is refused exactly when the written one is, and otherwise adds the property address to the same fields |
| BotGenerator.RequestCarriesBoth | bots.ts:21-23 | with a visible e-mail and a non-empty address, the corrected request carries both fields the route demands |
| BotGenerator.IntendedEmailFormReachesBot | bots.ts:21-26 | with the address added, a signed-in caller's sales or lease request reaches the assistant |

## Left out

- The completion service call, its model name and response format, and `JSON.parse` of its answer are parameters with no interpretation; what is proved holds for every completion and parser.
- JWT signing and verification and bcrypt hashing and comparison are parameters. The secret, expiry and hash cost are not modelled.
- The repositories' SQL over the database is modelled as scans of a sequence of rows, not as a map from id to row, because the list queries return rows in scan order. Repository calls are parameters: `create` takes the new row and returns its id (the insert's `last_row_id`), and `update` takes the merged row and returns whether the write succeeded.
- Store.SqlEquals: SQL `=` is equality of values. SQLite's column affinity is not modelled, so a text key `"5"` does not find the INTEGER row 5 here (the database would find it). Binding `undefined` is modelled as matching nothing, where the database driver throws and the route answers 500.
- Store.Where: inherits the SQL equality above; no affinity conversion and no throw on an `undefined` key.
- Store.FindFirst: inherits the SQL equality above; no affinity conversion and no throw on an `undefined` key.
- Text.LowerChar: lowers the ASCII capitals A-Z only. JavaScript's `toLowerCase` folds every Unicode capital, so in the application a search for "é" also finds "É", which the model does not promise.
- Properties.SuburbFilter: ignores the case of ASCII letters only; other capitals are compared as they are (see Text.LowerChar).
- PropertyList.Filtered: ignores the case of ASCII letters only (see Text.LowerChar).
- MaintenanceList.Filtered: ignores the case of ASCII letters only (see Text.LowerChar).
- InquiryList.Filtered: ignores the case of ASCII letters only (see Text.LowerChar).
- Matchmaking.FilteredClients: ignores the case of ASCII letters only (see Text.LowerChar).
- Matchmaking.FilteredListings: ignores the case of ASCII letters only (see Text.LowerChar).
- Js.ToNumber: a number is an exact real; rounding to the nearest double, and the overflow of a literal such as `1e400` to `Infinity`, are not modelled.
- Js.Greater: strings are compared character by character, where JavaScript compares UTF-16 code units; the two orders differ only for characters outside the Basic Multilingual Plane. The same holds for Js.GreaterOrEqual.
- Js.StrictEquals: two arrays or two objects are strictly equal here when their contents are equal, where `===` compares references; the routes compare only primitive values with it.
- Js.ParseInt: digits beyond the range of a double are not rounded. Leading white space (the whole ECMAScript white-space and line-terminator set), the sign, decimal and `0x` hexadecimal input are modelled.
- Js.LengthOf: the length of a string is its number of characters, where JavaScript counts UTF-16 code units; the two differ only for characters outside the Basic Multilingual Plane.
- Page.QueryParam: percent-escapes and `+` are not decoded, and empty pairs are not skipped; the read-back lemmas only use names free of `&` and `=`.
- Numbers stored in records are mathematical integers; fractional prices or counts in the data, the over-budget percentage `toFixed`, `parseFloat` and `toLocaleString` are not modelled.
- Query-string values that arrive as arrays are not modelled; each query parameter is a single optional string.
- Timestamps (`new Date().toISOString()`, `Date.now`), `Math.random`, mock data generation and `URL.createObjectURL` are parameters or left out. The page's initial mock data is not modelled; every handler takes the current state as its input.
- Presentational components are not part of this model: the dashboard, analytics, tables, form inputs, header, layouts, detail screens, white-label settings and the bot response display. They only render. The bot page's `fetch` and the application context's storage and mock login are I/O, and are also left out.
- The social feed's image preview through `FileReader` is left out; the composer only stores the picked file and an optional preview string.
- `page.tsx` breaks off after line 406. The view rendering after that point, and handlers only reached from there, are not modelled.
- Handlers that only log to the console are not modelled: sharing a post, and creating an inquiry from the page. Neither are the view-client and view-property callbacks, which only switch views.
- Matchmaking: the match-note text area and the Cancel button are not modelled. Client and property ids are natural numbers, as the radio values are their decimal renderings.
- Maintenance: the repository has no maintenance methods. The handlers' stubbed answers are modelled as written: an empty list, a 404 on lookup, and a 404 on update after the role guard.
- The case-study and description versions the bot routes would store are not modelled beyond the failure the missing repository method causes (see Findings). Creating a description document through the properties route is modelled.
- Async scheduling, React re-rendering and concurrency are not modelled; each handler is one atomic step.

## Findings

| source | as written | input that shows it | evidently intended | confidence | as-written member | corrected member |
|---|---|---|---|---|---|---|
| bots.ts:132 | a successful case study calls `getCaseStudyRepository`, which the repository factory does not define, so the call throws and the catch answers 500 "Server error" | an authenticated case-study request for an existing client and property whose completion parses | the case study is stored and returned with status 200 | high, not executed | Bots.CaseStudySuccessIsLost | Bots.GenerateCaseStudyIntended |
| users.ts:137-141 | `team_id` falls back only on `undefined`, so any caller allowed to update a user can move them to another team | caller id 7 with role AGENT updates user 7, whose team is 1, with body `{team_id: 2}`; the stored team becomes 2 | only an administrator changes a user's role or team, as the comment at line 140 says | high, not executed | Users.NonAdminChangesTeam | Users.MergeUserIntended |
| page.tsx:163-171 | the page takes `useRouter` from `next/navigation` (line 4), whose router has no `query`; `const { view, id } = router.query` destructures `undefined` and throws when the page mounts | mounting the page at any address, for example `/?view=properties` | the effect reads `view` and `id` from the address's search parameters, so a pushed address restores its view and selection | high, not executed | Page.MountThrows | Page.ReadBackWithId |
| BotResponseGenerator.tsx:48-52 | the sales and lease request carries no `property_address`, which bots.ts:21-23 requires | a signed-in caller types a visible e-mail in the sales form; the route answers 400 and the assistant is never asked | the form sends the property's address with the e-mail, so that the route accepts the request | medium, not executed | BotGenerator.EmailFormNeverReachesBot | BotGenerator.IntendedEmailFormReachesBot |

The handlers `Bots.GenerateCaseStudy`, `Users.UpdateUser` and `BotGenerator.BuildRequest`, and the effect `Page.QueryEffectAsWritten`, model the code as written. The corrected definitions `Bots.GenerateCaseStudyIntended`, `Users.MergeUserIntended`, `BotGenerator.EmailRequestIntended` and `Page.QueryEffect` with `Page.QueryParam` state the intended behaviour, and their lemmas prove it.

=== FILE: access.dfy ===
/** The checks the handlers for one stored record share: the caller must be
    signed in, the record must exist, and then the caller must be an admin or
    the user the record names in its owner column (the lister of a property,
    the assignee of an inquiry). */
module Access {
  import opened Wrappers
  import opened Js
  import opened Http
  import opened Store

  /** Admins may act on any record; anyone else only on one whose owner
      column holds, by strict equality, the id in their token. */
  predicate MayEdit(caller: Value, row: Record, ownerColumn: string) {
    IsAdmin(RoleOf(caller)) || StrictEquals(Get(row, ownerColumn), IdOf(caller))
  }

  /** 401, then 404 (with `notFound`) for an unknown id, then 403 unless the
      caller may edit the record; on success the caller and the record. */
  function Guard(auth: AuthResult, t: Table, idColumn: string, id: Value, ownerColumn: string,
                 notFound: string): (r: Result<(Value, Record), Response>)
    ensures auth.Unauthenticated? ==> r == Failure(Unauthorized(auth.message))
    ensures auth.Authenticated? && FindFirst(t, idColumn, id).None? ==> r == Failure(Error(404, notFound))
    ensures r.Failure? && r.error.status == 403 <==>
      auth.Authenticated? && FindFirst(t, idColumn, id).Some? &&
      !MayEdit(auth.user, FindFirst(t, idColumn, id).value, ownerColumn)
    ensures r.Success? <==>
      auth.Authenticated? && FindFirst(t, idColumn, id).Some? &&
      MayEdit(auth.user, FindFirst(t, idColumn, id).value, ownerColumn)
    ensures r.Success? ==> r.value == (auth.user, FindFirst(t, idColumn, id).value)
  {
    match auth
    case Unauthenticated(message) => Failure(Unauthorized(message))
    case Authenticated(caller) =>
      match FindFirst(t, idColumn, id)
      case None => Failure(Error(404, notFound))
      case Some(row) =>
        if !MayEdit(caller, row, ownerColumn) then Failure(Error(403, "Unauthorized"))
        else Success((caller, row))
  }

  /** A signed-in read of one record: 401, then 404 (with `notFound`) when no
      row has the id, then the first row with that id under `key`. */
  function Fetch(auth: AuthResult, t: Table, idColumn: string, id: Value, notFound: string, key: string): (r: Response)
    requires key != "success"
    ensures auth.Unauthenticated? ==> r == Unauthorized(auth.message)
    ensures r.status == 200 <==> auth.Authenticated? && exists i :: 0 <= i < |t| && SqlEquals(Get(t[i], idColumn), id)
    ensures auth.Authenticated? && r.status != 200 ==> r == Error(404, notFound)
    ensures r.status == 200 ==>
      Field(r, key).Obj? && Field(r, key).fields in t && SqlEquals(Get(Field(r, key).fields, idColumn), id)
  {
    match auth
    case Unauthenticated(message) => Unauthorized(message)
    case Authenticated(_) =>
      match FindFirst(t, idColumn, id)
      case None => Error(404, notFound)
      case Some(row) => Ok(200, map[key := Obj(row)])
  }

  /** Existence is checked before ownership: for an unknown id every signed-in
      caller gets the same 404, whatever their role. */
  lemma NotFoundPrecedesForbidden(caller: Value, other: Value, t: Table, idColumn: string, id: Value,
                                  ownerColumn: string, notFound: string)
    requires FindFirst(t, idColumn, id).None?
    ensures Guard(Authenticated(caller), t, idColumn, id, ownerColumn, notFound) ==
            Guard(Authenticated(other), t, idColumn, id, ownerColumn, notFound)
  {
  }
}

=== FILE: auth.dfy ===
/** Authentication: the bearer token in the `Authorization` header, the token
    payload, registration, login and the current user. Signing and verifying
    tokens (JWT) and hashing and comparing passwords (bcrypt) are parameters. */
module Auth {
  import opened Wrappers
  import opened Js
  import opened Text
  import opened Http
  import opened Store
  import Users

  // ------------------------------------------------------------------ tokens

  /** `request.headers.get('Authorization')?.split(' ')[1]`, where a missing
      header, a missing second field and an empty one all count as no token.
      The first field, the scheme, is never looked at. */
  function ExtractToken(header: Option<string>): (r: Option<string>)
    ensures r.Some? ==> r.value != "" && ' ' !in r.value
    ensures header.Some? && ' ' !in header.value ==> r.None?
  {
    match header
    case None => None
    case Some(h) =>
      var fields := Split(h, ' ');
      if ' ' !in h then
        SplitNoSeparator(h, ' ');
        None
      else if |fields| < 2 || fields[1] == "" then None
      else Some(fields[1])
  }

  /** The token of `<scheme> <token>`, whatever the scheme word, and whatever
      follows a further space. */
  lemma BearerToken(scheme: string, token: string, tail: string)
    requires ' ' !in scheme && ' ' !in token && token != ""
    requires tail == "" || tail[0] == ' '
    ensures ExtractToken(Some(scheme + " " + token + tail)) == Some(token)
  {
    var h := scheme + " " + token + tail;
    assert h == scheme + [' '] + (token + tail);
    SplitAfterPiece(scheme, token + tail, ' ');
    if tail == "" {
      assert token + tail == token;
      SplitNoSeparator(token, ' ');
    } else {
      assert token + tail == token + [' '] + tail[1..];
      SplitAfterPiece(token, tail[1..], ' ');
    }
    assert h[|scheme|] == ' ';
  }

  /** Two spaces after the scheme leave an empty second field: no token. */
  lemma DoubleSpaceIsNoToken(scheme: string, rest: string)
    requires ' ' !in scheme
    ensures ExtractToken(Some(scheme + "  " + rest)) == None
  {
    var h := scheme + "  " + rest;
    assert h == scheme + [' '] + ("" + [' '] + rest);
    SplitAfterPiece(scheme, "" + [' '] + rest, ' ');
    SplitAfterPiece("", rest, ' ');
    assert h[|scheme|] == ' ';
  }

  /** `authenticate`: no token, a token the verifier rejects (`null` or any
      other falsy result), or the decoded payload. */
  function Authenticate(header: Option<string>, verify: string -> Value): (r: AuthResult)
    ensures ExtractToken(header).None? ==> r == Unauthenticated("No token provided")
    ensures ExtractToken(header).Some? ==>
      if Truthy(verify(ExtractToken(header).value)) then r == Authenticated(verify(ExtractToken(header).value))
      else r == Unauthenticated("Invalid token")
    ensures r.Authenticated? ==> Truthy(r.user)
  {
    match ExtractToken(header)
    case None => Unauthenticated("No token provided")
    case Some(token) =>
      var decoded := verify(token);
      if !Truthy(decoded) then Unauthenticated("Invalid token") else Authenticated(decoded)
  }

  /** What a token carries: the user's id, e-mail, role and team, and nothing else. */
  function TokenPayload(user: Record): (p: Record)
    ensures p.Keys == {"id", "email", "role", "team_id"}
    ensures p["id"] == Get(user, "user_id") && p["email"] == Get(user, "email")
    ensures p["role"] == Get(user, "role") && p["team_id"] == Get(user, "team_id")
  {
    map["id" := Get(user, "user_id"), "email" := Get(user, "email"), "role" := Get(user, "role"),
        "team_id" := Get(user, "team_id")]
  }

  /** `generateToken`. */
  function GenerateToken(user: Record, sign: Value -> string): string {
    sign(Obj(TokenPayload(user)))
  }

  /** The token depends on the four signed fields only: the password hash
      or any other column of the user never changes it. */
  lemma TokenIgnoresOtherFields(user: Record, k: string, v: Value, sign: Value -> string)
    requires k !in {"user_id", "email", "role", "team_id"}
    ensures GenerateToken(user[k := v], sign) == GenerateToken(user, sign)
  {
    assert TokenPayload(user[k := v]) == TokenPayload(user);
  }

  /** The decoded token carries every field of the payload signed; the
      verifier may add its own (`iat`, `exp`). */
  predicate CarriesPayload(decoded: Value, user: Record) {
    decoded.Obj? && forall k :: k in TokenPayload(user) ==> k in decoded.fields && decoded.fields[k] == TokenPayload(user)[k]
  }

  /** A token the server issued authenticates its user, with the id, e-mail,
      role and team the handlers then read, provided verification gives back
      the signed fields (whatever it adds) and the signed text is one
      non-empty field. */
  lemma IssuedTokenAuthenticates(user: Record, scheme: string, sign: Value -> string, verify: string -> Value)
    requires ' ' !in scheme
    requires var t := GenerateToken(user, sign); t != "" && ' ' !in t && CarriesPayload(verify(t), user)
    ensures var r := Authenticate(Some(scheme + " " + GenerateToken(user, sign)), verify);
      r == Authenticated(verify(GenerateToken(user, sign))) &&
      RoleOf(r.user) == Get(user, "role") && IdOf(r.user) == Get(user, "user_id") &&
      Prop(r.user, "email") == Get(user, "email") && Prop(r.user, "team_id") == Get(user, "team_id")
  {
    var t := GenerateToken(user, sign);
    BearerToken(scheme, t, "");
    assert scheme + " " + t + "" == scheme + " " + t;
    var p := TokenPayload(user);
    assert "id" in p && "role" in p && "email" in p && "team_id" in p;
  }

  // ------------------------------------------------------- register / login

  /** The user object `register` and `login` return. */
  function SessionUser(row: Record): (r: Record)
    ensures r.Keys == {"id", "email", "full_name", "role", "team_id"}
    ensures r["id"] == Get(row, "user_id")
    ensures forall k :: k in {"email", "full_name", "role", "team_id"} ==> r[k] == Get(row, k)
  {
    map["id" := Get(row, "user_id"), "email" := Get(row, "email"), "full_name" := Get(row, "full_name"),
        "role" := Get(row, "role"), "team_id" := Get(row, "team_id")]
  }

  /** The new user's row: the hash in place of the password, and a falsy team
      stored as no team. */
  function NewUser(body: Value, hash: string): (r: Record)
    ensures r.Keys == {"email", "password_hash", "full_name", "role", "team_id"}
    ensures r["password_hash"] == Str(hash) && r["team_id"] == Or(Prop(body, "team_id"), Undefined)
    ensures forall k :: k in {"email", "full_name", "role"} ==> r[k] == Prop(body, k)
  {
    map["email" := Prop(body, "email"), "password_hash" := Str(hash), "full_name" := Prop(body, "full_name"),
        "role" := Prop(body, "role"), "team_id" := Or(Prop(body, "team_id"), Undefined)]
  }

  predicate RegistrationComplete(body: Value) {
    Truthy(Prop(body, "email")) && Truthy(Prop(body, "password")) &&
    Truthy(Prop(body, "full_name")) && Truthy(Prop(body, "role"))
  }

  /** `register`: an unreadable body is a 500; a missing field, then an e-mail
      already in use, a 400, and neither reaches hashing or `create`; a hash
      that throws is a 500. Otherwise the new row is created and the answer is
      201 with a token for it. */
  function Register(body: Value, users: Table, hash: Value -> Option<string>, create: Record -> Value,
                    sign: Value -> string): (h: Handled)
    ensures Nullish(body) ==> h == Handled(ServerError(), None)
    ensures !Nullish(body) && !RegistrationComplete(body) ==> h == Handled(Error(400, "Missing required fields"), None)
    ensures !Nullish(body) && RegistrationComplete(body) && FindFirst(users, "email", Prop(body, "email")).Some? ==>
      h == Handled(Error(400, "User already exists"), None)
    ensures h.written.Some? <==>
      !Nullish(body) && RegistrationComplete(body) && FindFirst(users, "email", Prop(body, "email")).None? &&
      hash(Prop(body, "password")).Some?
    ensures h.written.Some? ==>
      var row := h.written.value;
      var stored := row["user_id" := create(row)];
      row == NewUser(body, hash(Prop(body, "password")).value) &&
      h.response == Ok(201, map["message" := Str("User registered successfully"),
                                "token" := Str(GenerateToken(stored, sign)),
                                "user" := Obj(SessionUser(stored))])
  {
    if Nullish(body) then Handled(ServerError(), None)
    else if !RegistrationComplete(body) then Handled(Error(400, "Missing required fields"), None)
    else if FindFirst(users, "email", Prop(body, "email")).Some? then Handled(Error(400, "User already exists"), None)
    else match hash(Prop(body, "password"))
      case None => Handled(ServerError(), None)
      case Some(hashed) =>
        var row := NewUser(body, hashed);
        var stored := row["user_id" := create(row)];
        Handled(Ok(201, map["message" := Str("User registered successfully"),
                            "token" := Str(GenerateToken(stored, sign)),
                            "user" := Obj(SessionUser(stored))]), Some(row))
  }

  /** The registration answer never carries the password or its hash. */
  lemma RegistrationHidesPassword(body: Value, users: Table, hash: Value -> Option<string>,
                                  create: Record -> Value, sign: Value -> string)
    requires Register(body, users, hash, create, sign).written.Some?
    ensures var user := Field(Register(body, users, hash, create, sign).response, "user");
      user.Obj? && "password_hash" !in user.fields && "password" !in user.fields
  {
  }

  /** `login`: an unreadable body is a 500, a missing e-mail or password a 400;
      an unknown e-mail and a wrong password get the same 401; a comparison
      that throws is a 500; a match is 200 with a token and the user. */
  function Login(body: Value, users: Table, compare: (Value, Value) -> Option<bool>,
                 sign: Value -> string): (r: Response)
    ensures Nullish(body) ==> r == ServerError()
    ensures !Nullish(body) && (!Truthy(Prop(body, "email")) || !Truthy(Prop(body, "password"))) ==>
      r == Error(400, "Email and password are required")
    ensures r.status == 200 <==>
      !Nullish(body) && Truthy(Prop(body, "email")) && Truthy(Prop(body, "password")) &&
      var user := FindFirst(users, "email", Prop(body, "email"));
      user.Some? && compare(Prop(body, "password"), Get(user.value, "password_hash")) == Some(true)
    ensures r.status == 200 ==>
      var user := FindFirst(users, "email", Prop(body, "email")).value;
      r == Ok(200, map["message" := Str("Login successful"), "token" := Str(GenerateToken(user, sign)),
                       "user" := Obj(SessionUser(user))])
  {
    if Nullish(body) then ServerError()
    else if !Truthy(Prop(body, "email")) || !Truthy(Prop(body, "password")) then
      Error(400, "Email and password are required")
    else match FindFirst(users, "email", Prop(body, "email"))
      case None => Error(401, "Invalid credentials")
      case Some(user) =>
        match compare(Prop(body, "password"), Get(user, "password_hash"))
        case None => ServerError()
        case Some(false) => Error(401, "Invalid credentials")
        case Some(true) =>
          Ok(200, map["message" := Str("Login successful"), "token" := Str(GenerateToken(user, sign)),
                      "user" := Obj(SessionUser(user))])
  }

  /** A caller cannot tell an unknown e-mail from a wrong password: both get
      the very same response. */
  lemma InvalidCredentialsIndistinguishable(body: Value, unknown: Table, known: Table,
                                            compare: (Value, Value) -> Option<bool>, sign: Value -> string)
    requires !Nullish(body) && Truthy(Prop(body, "email")) && Truthy(Prop(body, "password"))
    requires FindFirst(unknown, "email", Prop(body, "email")).None?
    requires var user := FindFirst(known, "email", Prop(body, "email"));
      user.Some? && compare(Prop(body, "password"), Get(user.value, "password_hash")) == Some(false)
    ensures Login(body, unknown, compare, sign) == Login(body, known, compare, sign)
    ensures Login(body, unknown, compare, sign).status == 401
  {
  }

  /** `getCurrentUser`: 401, then 404 when the token's id has no row, then the
      password-free profile of that row. */
  function GetCurrentUser(auth: AuthResult, users: Table): (r: Response)
    ensures auth.Unauthenticated? ==> r == Unauthorized(auth.message)
    ensures auth.Authenticated? ==>
      match FindFirst(users, "user_id", IdOf(auth.user))
      case None => r == Error(404, "User not found")
      case Some(row) => r == Ok(200, map["user" := Obj(Users.PublicProfile(row))])
  {
    match auth
    case Unauthenticated(message) => Unauthorized(message)
    case Authenticated(caller) =>
      match FindFirst(users, "user_id", IdOf(caller))
      case None => Error(404, "User not found")
      case Some(row) => Ok(200, map["user" := Obj(Users.PublicProfile(row))])
  }

  /** The current user's profile omits the password hash, and is the user the
      token names. */
  lemma CurrentUserIsTokenUser(caller: Value, users: Table)
    requires GetCurrentUser(Authenticated(caller), users).status == 200
    ensures var user := Field(GetCurrentUser(Authenticated(caller), users), "user");
      user.Obj? && "password_hash" !in user.fields && Get(user.fields, "id") == IdOf(caller)
  {
  }
}

=== FILE: bot_generator.dfy ===
/** The assistant form: it checks its inputs, builds the request for the
    assistant chosen, sends it, and either forwards a successful response or
    shows an error. */
module BotGenerator {
  import opened Wrappers
  import opened Js
  import opened Text
  import opened Http
  import opened BotService
  import Bots

  /** Which assistant the form drives. */
  datatype BotType = SalesBot | LeaseBot | CaseStudyBot | DescriptionBot

  /** The form's text fields as typed; `inquiryCount` starts as "1". */
  datatype Form = Form(email: string, inquiryCount: string, survey: string, pastInquiries: string,
                       locationInfo: string)

  /** `pastInquiries.trim() ? pastInquiries.split(',').map(item => item.trim()) : []`. */
  function PastInquiries(s: string): (r: seq<string>)
    ensures Blank(s) ==> r == []
    ensures !Blank(s) ==> |r| == |Split(s, ',')| && forall i :: 0 <= i < |r| ==> r[i] == Trim(Split(s, ',')[i])
  {
    if Trim(s) == "" then []
    else
      var pieces := Split(s, ',');
      seq(|pieces|, i requires 0 <= i < |pieces| => Trim(pieces[i]))
  }

  /** A comma-separated list of trimmed names reads back as those names. */
  lemma PastInquiriesRoundTrip(xs: seq<string>)
    requires |xs| >= 1 && xs[0] != ""
    requires forall i :: 0 <= i < |xs| ==> ',' !in xs[i] && Trim(xs[i]) == xs[i]
    ensures PastInquiries(Join(xs, ",")) == xs
  {
    var joined := Join(xs, ",");
    SplitJoined(xs, ',');
    assert !Blank(joined) by {
      assert Trim(xs[0])[0] == xs[0][0];
      JoinStartsWithFirst(xs, ",");
    }
    var r := PastInquiries(joined);
    assert |r| == |xs|;
    forall i | 0 <= i < |xs|
      ensures r[i] == xs[i]
    {
    }
  }

  lemma JoinStartsWithFirst(xs: seq<string>, sep: string)
    requires |xs| >= 1 && xs[0] != ""
    ensures |Join(xs, sep)| > 0 && Join(xs, sep)[0] == xs[0][0]
  {
    if |xs| > 1 {
      assert Join(xs, sep) == xs[0] + (sep + Join(xs[1..], sep));
    }
  }

  /** `handleGenerateResponse` up to the request: the error it shows, or the
      request it sends. `propertyId` and `clientId` are the component's props
      (`undefined` when not given); `parse` is `JSON.parse`. */
  function BuildRequest(bot: BotType, form: Form, propertyId: Value, clientId: Value, parse: Parser): (r: Result<Value, string>)
    ensures (bot == SalesBot || bot == LeaseBot) ==>
      (r.Failure? <==> Blank(form.email)) &&
      (r.Failure? ==> r.error == "Email content is required") &&
      (r.Success? ==> r.value == Obj(map["email_content" := Str(form.email), "property_id" := propertyId,
                                         "inquiry_count" := ParseInt(form.inquiryCount)]))
    ensures bot == CaseStudyBot ==>
      (r.Failure? <==> Blank(form.survey) || parse(form.survey).Failure?) &&
      (Blank(form.survey) ==> r == Failure("Survey responses are required")) &&
      (!Blank(form.survey) && parse(form.survey).Failure? ==> r == Failure("Survey responses must be valid JSON")) &&
      (r.Success? ==> r.value == Obj(map["client_id" := clientId, "property_id" := propertyId,
                                         "survey_responses" := parse(form.survey).value,
                                         "past_inquiries" := Arr(Strs(PastInquiries(form.pastInquiries)))]))
    ensures bot == DescriptionBot ==>
      r == Success(Obj(map["property_id" := propertyId, "location_info" := Str(form.locationInfo)]))
  {
    match bot
    case SalesBot => EmailRequest(form, propertyId)
    case LeaseBot => EmailRequest(form, propertyId)
    case CaseStudyBot =>
      if Trim(form.survey) == "" then Failure("Survey responses are required")
      else
        (match parse(form.survey)
         case Failure(_) => Failure("Survey responses must be valid JSON")
         case Success(survey) =>
           Success(Obj(map["client_id" := clientId, "property_id" := propertyId, "survey_responses" := survey,
                           "past_inquiries" := Arr(Strs(PastInquiries(form.pastInquiries)))])))
    case DescriptionBot =>
      Success(Obj(map["property_id" := propertyId, "location_info" := Str(form.locationInfo)]))
  }

  /** The sales and lease request, as written: e-mail, property id and count. */
  function EmailRequest(form: Form, propertyId: Value): (r: Result<Value, string>)
    ensures r.Success? ==> r.value.Obj? && "property_address" !in r.value.fields
  {
    if Trim(form.email) == "" then Failure("Email content is required")
    else Success(Obj(map["email_content" := Str(form.email), "property_id" := propertyId,
                         "inquiry_count" := ParseInt(form.inquiryCount)]))
  }

  /** What the form shows after a request: the response forwarded to the page,
      or an error message. */
  datatype Shown = Forwarded(response: Value) | ErrorShown(message: Value)

  /** The rest of `handleGenerateResponse`: `reply` is what `onGenerateResponse`
      resolved to, `None` when it rejected. A truthy `success` forwards the
      response; otherwise its message (or a default) is shown; a rejection, or
      a reply with no fields to read, shows the generic error. */
  function HandleReply(reply: Option<Value>): (r: Shown)
    ensures r.Forwarded? <==> reply.Some? && !Nullish(reply.value) && Truthy(Prop(reply.value, "success"))
    ensures r.Forwarded? ==> r.response == reply.value
    ensures reply.Some? && !Nullish(reply.value) && !Truthy(Prop(reply.value, "success")) ==>
      r == ErrorShown(Or(Prop(reply.value, "message"), Str("Error generating response")))
    ensures reply.None? || Nullish(reply.value) ==>
      r == ErrorShown(Str("An error occurred while generating the response"))
  {
    if reply.None? || Nullish(reply.value) then ErrorShown(Str("An error occurred while generating the response"))
    else if Truthy(Prop(reply.value, "success")) then Forwarded(reply.value)
    else ErrorShown(Or(Prop(reply.value, "message"), Str("Error generating response")))
  }

  /** One press of "Generate": the request sent, if any, and what is shown. */
  datatype Generated = Generated(request: Option<Value>, shown: Shown)

  function Generate(bot: BotType, form: Form, propertyId: Value, clientId: Value, parse: Parser,
                    send: Value -> Option<Value>): (g: Generated)
    ensures g.request.None? <==> BuildRequest(bot, form, propertyId, clientId, parse).Failure?
    ensures g.request.None? ==> g.shown == ErrorShown(Str(BuildRequest(bot, form, propertyId, clientId, parse).error))
    ensures g.request.Some? ==> g.shown == HandleReply(send(g.request.value))
  {
    match BuildRequest(bot, form, propertyId, clientId, parse)
    case Failure(message) => Generated(None, ErrorShown(Str(message)))
    case Success(request) => Generated(Some(request), HandleReply(send(request)))
  }

  /** A blank e-mail sends nothing and asks for the e-mail content. */
  lemma BlankEmailIsRejected(bot: BotType, form: Form, propertyId: Value, clientId: Value, parse: Parser,
                             send: Value -> Option<Value>)
    requires bot == SalesBot || bot == LeaseBot
    requires Blank(form.email)
    ensures Generate(bot, form, propertyId, clientId, parse, send) ==
      Generated(None, ErrorShown(Str("Email content is required")))
  {
  }

  /** An e-mail that starts with a visible character is sent, with the count read by `parseInt`. */
  lemma VisibleEmailIsSent(bot: BotType, email: string, countText: string, count: nat, propertyId: Value,
                           clientId: Value, parse: Parser)
    requires bot == SalesBot || bot == LeaseBot
    requires |email| > 0 && !IsSpace(email[0]) && countText == NatToString(count)
    ensures BuildRequest(bot, Form(email, countText, "", "", ""), propertyId, clientId, parse) ==
      Success(Obj(map["email_content" := Str(email), "property_id" := propertyId, "inquiry_count" := Num(count)]))
  {
    ParseIntOfRendered(count);
  }

  /** The e-mail of the sales example in the form's tests, written in two halves. */
  const ExampleEmail := "I am interested in this property." + " Can you tell me more about it?"

  lemma SalesRequestExample(parse: Parser)
    ensures BuildRequest(SalesBot, Form(ExampleEmail, "1", "", "", ""), Num(1), Undefined, parse) ==
      Success(Obj(map["email_content" := Str(ExampleEmail), "property_id" := Num(1), "inquiry_count" := Num(1)]))
  {
    assert ExampleEmail[0] == 'I';
    assert NatToString(1) == "1";
    VisibleEmailIsSent(SalesBot, ExampleEmail, "1", 1, Num(1), Undefined, parse);
  }

  // ------------------------------------------------- the form and the route

  function KindOf(bot: BotType): EmailBotKind
    requires bot == SalesBot || bot == LeaseBot
  {
    if bot == SalesBot then Sales else Lease
  }

  /** The defect: the form's sales and lease request never carries a property
      address, which the route requires, so even an authenticated caller gets
      a 400 and the assistant is never asked. */
  lemma EmailFormNeverReachesBot(bot: BotType, form: Form, propertyId: Value, clientId: Value, parse: Parser,
                                 user: Value, complete: Completer, botParse: Parser)
    requires bot == SalesBot || bot == LeaseBot
    requires BuildRequest(bot, form, propertyId, clientId, parse).Success?
    ensures var o := Bots.ProcessEmail(KindOf(bot), Authenticated(user),
                                       BuildRequest(bot, form, propertyId, clientId, parse).value, complete, botParse);
      o.sent.None? && o.response.status == 400
  {
    var request := BuildRequest(bot, form, propertyId, clientId, parse).value;
    assert Prop(request, "property_address") == Undefined;
    Bots.ProcessEmailReplies(KindOf(bot), user, request, complete, botParse);
  }

  /** The sales and lease request as the route expects it: the same fields and
      the property's address. */
  function EmailRequestIntended(form: Form, propertyId: Value, address: string): (r: Result<Value, string>)
    ensures r.Failure? <==> EmailRequest(form, propertyId).Failure?
    ensures r.Failure? ==> r == EmailRequest(form, propertyId)
    ensures r.Success? ==>
      (r.value.Obj? && r.value.fields == EmailRequest(form, propertyId).value.fields["property_address" := Str(address)])
  {
    match EmailRequest(form, propertyId)
    case Failure(message) => Failure(message)
    case Success(request) => Success(Obj(request.fields["property_address" := Str(address)]))
  }

  lemma RequestCarriesBoth(form: Form, propertyId: Value, address: string)
    requires !Blank(form.email) && address != ""
    ensures EmailRequestIntended(form, propertyId, address).Success?
    ensures var request := EmailRequestIntended(form, propertyId, address).value;
      Truthy(Prop(request, "email_content")) && Truthy(Prop(request, "property_address"))
  {
    assert form.email != "";
  }

  /** With the address added, an authenticated caller with a visible e-mail
      and a non-empty address gets the assistant's answer. */
  lemma IntendedEmailFormReachesBot(bot: BotType, form: Form, propertyId: Value, address: string, user: Value,
                                    complete: Completer, botParse: Parser)
    requires bot == SalesBot || bot == LeaseBot
    requires !Blank(form.email) && address != ""
    ensures EmailRequestIntended(form, propertyId, address).Success?
    ensures Bots.ProcessEmail(KindOf(bot), Authenticated(user), EmailRequestIntended(form, propertyId, address).value,
                              complete, botParse).sent.Some?
  {
    var request := EmailRequestIntended(form, propertyId, address).value;
    RequestCarriesBoth(form, propertyId, address);
    assert Truthy(Prop(request, "email_content")) && Truthy(Prop(request, "property_address"));
  }
}

=== FILE: bot_service.dfy ===
/** The four AI assistants: each builds a prompt from its inputs, sends it to
    the completion service, parses the answer as JSON and tags the outcome with
    `success`. The completion service and `JSON.parse`/`JSON.stringify` are
    parameters: the model fixes what is sent and how each answer is tagged, not
    what the service says.

    A prompt is kept as the values it is built from (`Prompt`); `Render` spells
    out the exact text of the system message that carries it. */
module BotService {
  import opened Wrappers
  import opened Js
  import opened Text

  // ------------------------------------------------------------------ prompts

  /** Which reply the e-mail assistant is asked for, by how often the client has written. */
  datatype Flow = First | Second | Third

  /** The two e-mail assistants, which differ only in wording. */
  datatype EmailBotKind = Sales | Lease

  /** What each assistant puts into its prompt, already rendered as text. */
  datatype Prompt =
    | EmailPrompt(kind: EmailBotKind, address: string, flow: Flow, email: string)
    | CaseStudyPrompt(client: string, address: string, past: string, survey: string)
    | DescriptionPrompt(address: string, features: string, location: string, images: string)

  // ------------------------------------------------------------------ oracles

  /** One call to the completion service: it throws (with its error message), or
      answers with the first choice's message content, which may be `null`. */
  datatype Completion = CallFailed(reason: string) | Answered(content: Option<string>)

  /** The completion service, as a function of the prompt it is sent. */
  type Completer = Prompt -> Completion

  /** `JSON.parse`: the parsed value, or the `SyntaxError` message. */
  type Parser = string -> Result<Value, string>

  /** `JSON.stringify(v, null, 2)`. */
  type Stringifier = Value -> string

  /** What one bot run did: the prompt it sent (`None` when it failed before
      calling the service) and the object it returned. */
  datatype BotCall = BotCall(prompt: Option<Prompt>, result: Record)

  // ---------------------------------------------------------------- tagging

  /** The field that carries a successful bot's parsed answer. */
  datatype Payload = BotResponse | CaseStudy | Description

  function PayloadKey(p: Payload): (k: string)
    ensures k != "success" && k != "message"
  {
    match p
    case BotResponse => "bot_response"
    case CaseStudy => "case_study"
    case Description => "description"
  }

  /** The object a bot returns from its `catch`. */
  function Failed(message: string, error: string): (r: Record)
    ensures Get(r, "success") == Bool(false) && !Truthy(Get(r, "success"))
    ensures Get(r, "message") == Str(message)
  {
    map["success" := Bool(false), "message" := Str(message), "error" := Str(error)]
  }

  /** The message thrown when the service answers with no content. */
  const EmptyResponse := "Empty response from OpenAI"

  /** Send `prompt`, reject an empty answer, parse it and tag the result: the
      parsed value under the payload's field on success, the bot's fixed
      `failure` message otherwise. */
  function Run(prompt: Prompt, complete: Completer, parse: Parser, payload: Payload, failure: string): (r: Record)
    ensures Get(r, "success") == Bool(true) || Get(r, "success") == Bool(false)
    ensures Get(r, "success") == Bool(true) <==>
      (match complete(prompt)
       case Answered(Some(c)) => |c| > 0 && parse(c).Success?
       case _ => false)
    ensures Get(r, "success") == Bool(true) ==>
      r == map["success" := Bool(true), PayloadKey(payload) := parse(complete(prompt).content.value).value]
    ensures Get(r, "success") == Bool(false) ==> Get(r, "message") == Str(failure)
  {
    match complete(prompt)
    case CallFailed(reason) => Failed(failure, reason)
    case Answered(content) =>
      if content.None? || |content.value| == 0 then Failed(failure, EmptyResponse)
      else
        match parse(content.value)
        case Failure(e) => Failed(failure, e)
        case Success(v) => map["success" := Bool(true), PayloadKey(payload) := v]
  }

  /** An answer the service leaves empty is a failure, whatever the parser does. */
  lemma EmptyAnswerFails(prompt: Prompt, complete: Completer, parse: Parser, payload: Payload, failure: string)
    requires complete(prompt) == Answered(None) || complete(prompt) == Answered(Some(""))
    ensures Run(prompt, complete, parse, payload, failure) == Failed(failure, EmptyResponse)
  {
  }

  // ------------------------------------------------------------ flow choice

  function FlowWord(f: Flow): string {
    match f
    case First => "first"
    case Second => "second"
    case Third => "third"
  }

  /** The flow rule shared by the sales and the lease assistant: exactly the
      number 2 (`===`) selects the second flow; anything `>= 3` the third; every
      other count, including 1, 0, negatives and non-numbers, the first. */
  function SelectFlow(count: Value): (f: Flow)
    ensures f == Second <==> count == Num(2)
    ensures f == Third <==> count != Num(2) && GreaterOrEqual(count, Num(3))
  {
    if StrictEquals(count, Num(2)) then Second
    else if GreaterOrEqual(count, Num(3)) then Third
    else First
  }

  /** On numbers the rule reads as a plain case split. */
  lemma FlowOfNumber(n: int)
    ensures SelectFlow(Num(n)) == (if n == 2 then Second else if n >= 3 then Third else First)
  {
  }

  /** A count other than the number 2 takes the third flow exactly when it
      converts to a number at least 3. */
  lemma FlowOfConverted(count: Value, x: Numeric)
    requires count != Num(2) && ToNumber(ToPrimitive(count)) == Some(x)
    ensures SelectFlow(count) == (if x == Finite(3.0) || NumericGreater(x, Finite(3.0)) then Third else First)
  {
  }

  /** A count that arrives as text only ever reaches the third flow: `"2"` is not
      `=== 2`, while `"3" >= 3` converts the text to a number. */
  lemma FlowOfText()
    ensures SelectFlow(Str("2")) == First
    ensures SelectFlow(Str("3")) == Third
  {
    TextCountNumber("2", 2);
    FlowOfConverted(Str("2"), Finite(2.0));
    TextCountNumber("3", 3);
    FlowOfConverted(Str("3"), Finite(3.0));
  }

  /** A count written in hexadecimal is read as such: `"0x10" >= 3`. */
  lemma FlowOfHex()
    ensures SelectFlow(Str("0x10")) == Third
  {
    HexCountNumber();
    FlowOfConverted(Str("0x10"), Finite(16.0));
  }

  lemma HexCountNumber()
    ensures ToNumber(ToPrimitive(Str("0x10"))) == Some(Finite(16.0))
  {
    assert "0x10" == "0x" + "10";
    HexTenValue();
    NumberOfHex("10");
  }

  /** A count with an exponent is read as its value: `"1e3" >= 3`. */
  lemma FlowOfExponent()
    ensures SelectFlow(Str("1e3")) == Third
  {
    ExponentCountNumber();
    FlowOfConverted(Str("1e3"), Finite(1000.0));
  }

  lemma ExponentCountNumber()
    ensures ToNumber(ToPrimitive(Str("1e3"))) == Some(Finite(1000.0))
  {
    assert "1e3" == "1" + "e" + "3";
    OneDigitValue("1", 1);
    OneDigitValue("3", 3);
    assert Pow10(3) == 1000;
    NumberOfExponent("1", "3");
  }

  /** `"Infinity" >= 3`. */
  lemma FlowOfInfinity()
    ensures SelectFlow(Str("Infinity")) == Third
  {
    InfinityCountNumber();
    FlowOfConverted(Str("Infinity"), PosInf);
  }

  lemma InfinityCountNumber()
    ensures ToNumber(ToPrimitive(Str("Infinity"))) == Some(PosInf)
  {
    TrimOfUnspaced("Infinity");
    assert PrefixRadix("Infinity") == 0;
  }

  /** An array count is compared through its `String` form: `[5] >= 3`. */
  lemma FlowOfArray()
    ensures SelectFlow(Arr([Num(5)])) == Third
  {
    assert ToDisplay(Arr([Num(5)])) == "5" by {
      assert NatToString(5) == "5";
      assert Join(["5"], ",") == "5";
    }
    OneDigitValue("5", 5);
    NumberOfDigits("5");
    FlowOfConverted(Arr([Num(5)]), Finite(5.0));
  }

  /** A fractional count between 2 and 3 is neither `=== 2` nor `>= 3`. */
  lemma FlowOfFraction()
    ensures SelectFlow(Str("2.5")) == First
  {
    FractionCountNumber();
    FlowOfConverted(Str("2.5"), Finite(2.5));
  }

  lemma FractionCountNumber()
    ensures ToNumber(ToPrimitive(Str("2.5"))) == Some(Finite(2.5))
  {
    var t := "2.5";
    assert IsDigit(t[0]) && IsDigit(t[|t| - 1]) && t[1] == '.';
    FractionDecimal();
    NumberOfUnsigned(t, 2.5);
  }

  lemma FractionDecimal()
    ensures UnsignedDecimal("2.5") == Some(2.5)
  {
    var t := "2.5";
    FirstOfNone(t, 'e', 'E');
    assert t[..3] == t;
    FractionMantissa();
    assert Pow10(1) == 10;
  }

  lemma FractionMantissa()
    ensures Mantissa("2.5") == Some((25, 1))
  {
    var t := "2.5";
    FirstOfAt(t, '.', '.', 1);
    assert t[..1] + t[2..] == "25";
    assert DigitsValue("25") == 25 by {
      assert "25"[..1] == "2" && "2"[..0] == "";
    }
  }


  lemma OneDigitValue(s: string, n: nat)
    requires |s| == 1 && IsDigit(s[0]) && s[0] as int - '0' as int == n
    ensures DigitsValue(s) == n
  {
    assert s[..0] == "";
  }

  /** A one-digit count written as text converts to its digit. */
  lemma TextCountNumber(s: string, n: nat)
    requires |s| == 1 && IsDigit(s[0]) && s[0] as int - '0' as int == n
    ensures ToNumber(ToPrimitive(Str(s))) == Some(Finite(n as real))
  {
    OneDigitValue(s, n);
    NumberOfDigits(s);
  }

  // ------------------------------------------------- e-mail assistants' text

  /** The text of the prompt up to the property address. */
  function Intro(kind: EmailBotKind): string {
    match kind
    case Sales => "\nYou are a professional real estate sales assistant responding to an inquiry about "
    case Lease => "\nYou are a professional real estate leasing assistant responding to an inquiry about renting "
  }

  function FlowLine(f: Flow): string {
    "This is the " + FlowWord(f) + " time this client has inquired.\n"
  }

  const EmailLabel := "\nThe client's email is:\n"

  /** Everything before the e-mail block. */
  function Head(kind: EmailBotKind, address: string, f: Flow): string {
    Intro(kind) + address + ".\n" + FlowLine(f) + EmailLabel
  }

  const OpenQuote := "\"\"\"\n"
  const CloseQuote := "\n\"\"\""

  /** The client's e-mail between triple-quote delimiters, unescaped. */
  function Quoted(email: string): string {
    OpenQuote + email + CloseQuote
  }

  const FirstSurvey := "https://xbt2ggc0jum.typeform.com/to/rM0mzI2I"
  const SecondSurvey := "https://forms.gle/ZCENeL8bSyqTqtHi6"

  /** The instructions from the end of the e-mail block up to the first survey link. */
  function BeforeSurveys(kind: EmailBotKind): string {
    match kind
    case Sales =>
      "\n\nPlease analyze the email and:\n1. Determine the main category of inquiry (Price Information, Property Features, Inspection Times, etc.)\n2. Create a professional, helpful response that addresses their specific questions\n3. Include relevant details about the property if needed\n4. If this is their first inquiry, include a link to a survey: "
    case Lease =>
      "\n\nPlease analyze the email and:\n1. Determine the main category of inquiry (Rental Price, Lease Terms, Inspection Times, etc.)\n2. Create a professional, helpful response that addresses their specific questions\n3. Include relevant details about the property if needed\n4. If this is their first inquiry, include a link to a survey: "
  }

  const BetweenSurveys := "\n5. If this is their second inquiry, include a different survey link: "

  /** The instructions after the second survey link. */
  function AfterSurveys(kind: EmailBotKind): string {
    match kind
    case Sales =>
      "\n6. If this is their third or more inquiry, suggest scheduling a viewing\n\nFormat your response as a JSON object with the following fields:\n- email_body: The complete email response\n- category: The main category of the inquiry\n- survey_link: The appropriate survey link if applicable\n"
    case Lease =>
      "\n6. If this is their third or more inquiry, suggest scheduling a viewing or application process\n\nFormat your response as a JSON object with the following fields:\n- email_body: The complete email response\n- category: The main category of the inquiry\n- survey_link: The appropriate survey link if applicable\n"
  }

  /** The instructions after the e-mail. They carry both survey links and the
      viewing suggestion for every flow, whichever flow was selected. */
  function Instructions(kind: EmailBotKind): string {
    BeforeSurveys(kind) + FirstSurvey + BetweenSurveys + SecondSurvey + AfterSurveys(kind)
  }

  /** The text of the sales or lease assistant's prompt. */
  function EmailText(kind: EmailBotKind, address: string, f: Flow, email: string): string {
    Head(kind, address, f) + Quoted(email) + Instructions(kind)
  }

  /** The prompt names the property, states the flow, and carries the e-mail
      verbatim between the delimiters. */
  lemma EmailTextContents(kind: EmailBotKind, address: string, f: Flow, email: string)
    ensures Contains(EmailText(kind, address, f, email), address)
    ensures Contains(EmailText(kind, address, f, email), FlowLine(f))
    ensures Contains(EmailText(kind, address, f, email), Quoted(email))
  {
    var head := Head(kind, address, f);
    ContainsInMiddle(Intro(kind), address, ".\n");
    ContainsAppend(Intro(kind) + address + ".\n", FlowLine(f), address);
    ContainsAppend(Intro(kind) + address + ".\n" + FlowLine(f), EmailLabel, address);
    ContainsAppend(head, Quoted(email), address);
    ContainsAppend(head + Quoted(email), Instructions(kind), address);

    ContainsInMiddle(Intro(kind) + address + ".\n", FlowLine(f), EmailLabel);
    ContainsAppend(head, Quoted(email), FlowLine(f));
    ContainsAppend(head + Quoted(email), Instructions(kind), FlowLine(f));

    ContainsInMiddle(head, Quoted(email), Instructions(kind));
  }

  /** Different e-mails give different prompts: nothing in the e-mail is lost. */
  lemma EmailTextInjective(kind: EmailBotKind, address: string, f: Flow, e1: string, e2: string)
    requires EmailText(kind, address, f, e1) == EmailText(kind, address, f, e2)
    ensures e1 == e2
  {
    CancelAround(Head(kind, address, f), Quoted(e1), Quoted(e2), Instructions(kind));
    CancelAround(OpenQuote, e1, e2, CloseQuote);
  }

  /** Both survey links are in every prompt, whichever flow was selected. */
  lemma EmailTextListsBothSurveys(kind: EmailBotKind, address: string, f: Flow, email: string)
    ensures Contains(EmailText(kind, address, f, email), FirstSurvey)
    ensures Contains(EmailText(kind, address, f, email), SecondSurvey)
  {
    var pre := Head(kind, address, f) + Quoted(email);
    ContainsInMiddle(BeforeSurveys(kind), FirstSurvey, BetweenSurveys);
    ContainsAppend(BeforeSurveys(kind) + FirstSurvey + BetweenSurveys, SecondSurvey, FirstSurvey);
    ContainsAppend(BeforeSurveys(kind) + FirstSurvey + BetweenSurveys + SecondSurvey, AfterSurveys(kind), FirstSurvey);
    ContainsPrepend(pre, Instructions(kind), FirstSurvey);

    ContainsInMiddle(BeforeSurveys(kind) + FirstSurvey + BetweenSurveys, SecondSurvey, AfterSurveys(kind));
    ContainsPrepend(pre, Instructions(kind), SecondSurvey);
  }

  // ------------------------------------------- case-study assistant's text

  function CaseStudyOpening(): string {
    "\nYou are a professional real estate case study generator. Create a detailed case study for a client interested in a property.\n\nClient: "
  }

  /** The sections and fields the case study is asked for, after the survey responses. */
  function CaseStudyRequest(): string {
    "\n\nPlease generate a comprehensive case study with the following sections:\n1. Buyer Profile: A brief description of the client and their needs\n2. Property Journey: How the client discovered this property and their journey so far\n3. What They Love: Features of the property that align with the client's preferences\n4. Differences: Areas where the property differs from the client's ideal preferences\n5. Agent Brief: Suggestions for the listing agent on how to approach this client\n\nFormat your response as a JSON object with the following fields:\n- buyer_profile_text: Text for the Buyer Profile section\n- property_journey_text: Text for the Property Journey section\n- what_they_love_text: Text for the What They Love section\n- differences_text: Text for the Differences section\n- agent_brief_text: Text for the Agent Brief section\n"
  }

  function PastLine(past: string): string {
    "\nPast Inquiries: " + past
  }

  function SurveyBlock(survey: string): string {
    "\n\nSurvey Responses:\n" + survey
  }

  function CaseStudyText(client: string, address: string, past: string, survey: string): string {
    CaseStudyOpening() + client + "\nProperty: " + address + PastLine(past) + SurveyBlock(survey) + CaseStudyRequest()
  }

  /** Where each part of a case-study prompt sits, whatever the fixed text around it. */
  lemma CaseStudyShape(opening: string, client: string, sep: string, address: string,
                       pastLine: string, surveyBlock: string, request: string)
    ensures Contains(opening + client + sep + address + pastLine + surveyBlock + request, client)
    ensures Contains(opening + client + sep + address + pastLine + surveyBlock + request, address)
    ensures Contains(opening + client + sep + address + pastLine + surveyBlock + request, pastLine)
    ensures Contains(opening + client + sep + address + pastLine + surveyBlock + request, surveyBlock)
  {
    var a := opening + client;
    var b := a + sep + address;
    var c := b + pastLine;
    var d := c + surveyBlock;
    ContainsInMiddle(opening, client, sep);
    ContainsAppend(a + sep, address, client);
    ContainsAppend(b, pastLine, client);
    ContainsAppend(c, surveyBlock, client);
    ContainsAppend(d, request, client);

    ContainsInMiddle(a + sep, address, pastLine);
    ContainsAppend(c, surveyBlock, address);
    ContainsAppend(d, request, address);

    ContainsInMiddle(b, pastLine, surveyBlock);
    ContainsAppend(d, request, pastLine);

    ContainsInMiddle(c, surveyBlock, request);
  }

  /** The case-study prompt names the client. */
  lemma CaseStudyNamesClient(client: string, address: string, past: string, survey: string)
    ensures Contains(CaseStudyText(client, address, past, survey), client)
  {
    CaseStudyShape(CaseStudyOpening(), client, "\nProperty: ", address, PastLine(past), SurveyBlock(survey),
                   CaseStudyRequest());
  }

  /** The case-study prompt names the property. */
  lemma CaseStudyNamesProperty(client: string, address: string, past: string, survey: string)
    ensures Contains(CaseStudyText(client, address, past, survey), address)
  {
    CaseStudyShape(CaseStudyOpening(), client, "\nProperty: ", address, PastLine(past), SurveyBlock(survey),
                   CaseStudyRequest());
  }

  /** The case-study prompt carries the past-inquiries line. */
  lemma CaseStudyListsPastInquiries(client: string, address: string, past: string, survey: string)
    ensures Contains(CaseStudyText(client, address, past, survey), PastLine(past))
  {
    CaseStudyShape(CaseStudyOpening(), client, "\nProperty: ", address, PastLine(past), SurveyBlock(survey),
                   CaseStudyRequest());
  }

  /** The case-study prompt carries the survey responses under their heading. */
  lemma CaseStudyCarriesSurvey(client: string, address: string, past: string, survey: string)
    ensures Contains(CaseStudyText(client, address, past, survey), SurveyBlock(survey))
  {
    CaseStudyShape(CaseStudyOpening(), client, "\nProperty: ", address, PastLine(past), SurveyBlock(survey),
                   CaseStudyRequest());
  }

  // ------------------------------------------ description assistant's text

  function DescriptionOpening(): string {
    "\nYou are a professional real estate copywriter. Create a compelling property description for marketing purposes.\n\nProperty Address: "
  }

  /** What the description should achieve and the fields it is asked for, after the image sentence. */
  function DescriptionRequest(): string {
    "\n\nPlease generate a professional, engaging property description that:\n1. Has an attention-grabbing headline\n2. Highlights the key features of the property\n3. Describes the location and its benefits\n4. Creates emotional appeal for potential buyers\n5. Includes a call to action\n\nThe description should be approximately 300-400 words and use professional real estate language.\n\nFormat your response as a JSON object with the following fields:\n- headline: An attention-grabbing headline for the property\n- description_text: The full property description\n- key_features: Array of 3-5 key selling points\n- seo_keywords: Array of 5-8 SEO keywords for this property\n"
  }

  function FeaturesLine(features: string): string {
    "\nProperty Features: " + features
  }

  function LocationLine(location: string): string {
    "\nLocation Information: " + location
  }

  function ImagesBlock(images: string): string {
    "\n" + images
  }

  function DescriptionText(address: string, features: string, location: string, images: string): string {
    DescriptionOpening() + address + FeaturesLine(features) + LocationLine(location) + ImagesBlock(images) +
    DescriptionRequest()
  }

  /** Where each part of a description prompt sits, whatever the fixed text around it. */
  lemma DescriptionShape(opening: string, address: string, featuresLine: string, locationLine: string,
                         imagesBlock: string, request: string)
    ensures Contains(opening + address + featuresLine + locationLine + imagesBlock + request, address)
    ensures Contains(opening + address + featuresLine + locationLine + imagesBlock + request, locationLine)
    ensures Contains(opening + address + featuresLine + locationLine + imagesBlock + request, imagesBlock)
  {
    var a := opening + address;
    var b := a + featuresLine;
    var c := b + locationLine;
    var d := c + imagesBlock;
    ContainsInMiddle(opening, address, featuresLine);
    ContainsAppend(b, locationLine, address);
    ContainsAppend(c, imagesBlock, address);
    ContainsAppend(d, request, address);

    ContainsInMiddle(b, locationLine, imagesBlock);
    ContainsAppend(d, request, locationLine);

    ContainsInMiddle(c, imagesBlock, request);
  }

  /** The description prompt names the property. */
  lemma DescriptionNamesProperty(address: string, features: string, location: string, images: string)
    ensures Contains(DescriptionText(address, features, location, images), address)
  {
    DescriptionShape(DescriptionOpening(), address, FeaturesLine(features), LocationLine(location),
                     ImagesBlock(images), DescriptionRequest());
  }

  /** The description prompt carries the location details under their label. */
  lemma DescriptionCarriesLocation(address: string, features: string, location: string, images: string)
    ensures Contains(DescriptionText(address, features, location, images), LocationLine(location))
  {
    DescriptionShape(DescriptionOpening(), address, FeaturesLine(features), LocationLine(location),
                     ImagesBlock(images), DescriptionRequest());
  }

  /** The description prompt carries the image sentence on a line of its own. */
  lemma DescriptionCarriesImages(address: string, features: string, location: string, images: string)
    ensures Contains(DescriptionText(address, features, location, images), ImagesBlock(images))
  {
    DescriptionShape(DescriptionOpening(), address, FeaturesLine(features), LocationLine(location),
                     ImagesBlock(images), DescriptionRequest());
  }

  /** The system message sent for a prompt. */
  function Render(p: Prompt): string {
    match p
    case EmailPrompt(kind, address, f, email) => EmailText(kind, address, f, email)
    case CaseStudyPrompt(client, address, past, survey) => CaseStudyText(client, address, past, survey)
    case DescriptionPrompt(address, features, location, images) => DescriptionText(address, features, location, images)
  }

  // -------------------------------------------------------- the assistants

  function EmailFailure(kind: EmailBotKind): string {
    match kind
    case Sales => "Error processing sales inquiry"
    case Lease => "Error processing lease inquiry"
  }

  /** `salesBot` / `leaseBot`: the e-mail, address and count are rendered into
      the prompt as a template literal renders them. */
  function EmailBot(kind: EmailBotKind, email: Value, address: Value, count: Value,
                    complete: Completer, parse: Parser): (c: BotCall)
    ensures c.prompt == Some(EmailPrompt(kind, ToDisplay(address), SelectFlow(count), ToDisplay(email)))
    ensures c.result == Run(c.prompt.value, complete, parse, BotResponse, EmailFailure(kind))
  {
    var prompt := EmailPrompt(kind, ToDisplay(address), SelectFlow(count), ToDisplay(email));
    BotCall(Some(prompt), Run(prompt, complete, parse, BotResponse, EmailFailure(kind)))
  }

  /** The past-inquiries line: the inquiries joined by ", ", or "None" when that join is empty. */
  function PastInquiriesText(items: seq<Value>): (r: string)
    ensures r == "None" || r == JoinValues(items, ", ")
    ensures JoinValues(items, ", ") != "" ==> r == JoinValues(items, ", ")
    ensures JoinValues(items, ", ") == "" ==> r == "None"
  {
    var joined := JoinValues(items, ", ");
    if joined == "" then "None" else joined
  }

  /** For a list of texts, "None" stands exactly for no inquiry or one empty one. */
  lemma PastInquiriesOfTexts(xs: seq<string>)
    ensures PastInquiriesText(Strs(xs)) ==
      (if |xs| == 0 || (|xs| == 1 && xs[0] == "") then "None" else Join(xs, ", "))
  {
    JoinStrs(xs, ", ");
    JoinEmpty(xs, ", ");
  }

  const CaseStudyFailure := "Error generating case study"

  /** The `TypeError` raised by calling `join` on something that is not an array. */
  const JoinNotAFunction := "pastInquiries.join is not a function"

  /** `caseStudyBot`. Past inquiries that are not an array make `join` throw
      inside the bot, which then fails without calling the service. */
  function CaseStudyBot(client: string, address: string, survey: Value, past: Value,
                        complete: Completer, parse: Parser, stringify: Stringifier): (c: BotCall)
    ensures c.prompt.Some? <==> past.Arr?
    ensures past.Arr? ==>
      c.prompt == Some(CaseStudyPrompt(client, address, PastInquiriesText(past.items), stringify(survey))) &&
      c.result == Run(c.prompt.value, complete, parse, CaseStudy, CaseStudyFailure)
    ensures !past.Arr? ==> c.result == Failed(CaseStudyFailure, JoinNotAFunction)
  {
    if past.Arr? then
      var prompt := CaseStudyPrompt(client, address, PastInquiriesText(past.items), stringify(survey));
      BotCall(Some(prompt), Run(prompt, complete, parse, CaseStudy, CaseStudyFailure))
    else BotCall(None, Failed(CaseStudyFailure, JoinNotAFunction))
  }

  /** The image sentence: any truthy image list, an empty array included,
      reports its `length`. */
  function ImagesLine(images: Value): string {
    if Truthy(images) then "Property has " + ToDisplay(LengthOf(images)) + " images available"
    else "No property images available"
  }

  /** With an image array of any length, even zero, the prompt reports that
      length; with none it says there are no images. */
  lemma ImagesLineCases(items: seq<Value>)
    ensures ImagesLine(Arr(items)) == "Property has " + NatToString(|items|) + " images available"
    ensures ImagesLine(Undefined) == "No property images available"
    ensures ImagesLine(Null) == "No property images available"
  {
  }

  const DescriptionFailure := "Error generating property description"

  /** `propertyDescriptionBot`. */
  function DescriptionBot(address: string, features: Value, location: string, images: Value,
                          complete: Completer, parse: Parser, stringify: Stringifier): (c: BotCall)
    ensures c.prompt == Some(DescriptionPrompt(address, stringify(features), location, ImagesLine(images)))
    ensures c.result == Run(c.prompt.value, complete, parse, Description, DescriptionFailure)
  {
    var prompt := DescriptionPrompt(address, stringify(features), location, ImagesLine(images));
    BotCall(Some(prompt), Run(prompt, complete, parse, Description, DescriptionFailure))
  }
}

=== FILE: bots.dfy ===
/** The four assistant routes: authenticate, read the body, validate it, look
    up the client and property, call the assistant and turn its result into a
    response. Each route reports the prompt it had sent to the completion
    service, so that "the assistant was not called" can be stated. */
module Bots {
  import opened Wrappers
  import opened Js
  import opened Text
  import opened Http
  import opened Store
  import opened BotService

  /** A route's response and the prompt it sent, if any. */
  datatype Outcome = Outcome(response: Response, sent: Option<Prompt>)

  /** A request body that is `null` (or not JSON at all) makes the destructuring
      or `request.json()` throw, which the route's `catch` turns into a 500. */
  predicate Unreadable(body: Value) {
    Nullish(body)
  }

  /** The response to a failed or successful assistant run: the assistant's
      message (or the route's default) with 500, or the payload with 200. */
  function Relay(result: Record, payload: Payload, fallback: string): (r: Response)
    ensures Truthy(Get(result, "success")) ==>
      r == Ok(200, map[PayloadKey(payload) := Get(result, PayloadKey(payload))])
    ensures !Truthy(Get(result, "success")) ==>
      r == Fail(500, Or(Get(result, "message"), Str(fallback)))
  {
    if !Truthy(Get(result, "success")) then Fail(500, Or(Get(result, "message"), Str(fallback)))
    else Ok(200, map[PayloadKey(payload) := Get(result, PayloadKey(payload))])
  }

  /** A failed run always carries the assistant's own message, so the route's
      default message is never used. */
  lemma RelayedFailureMessage(prompt: Prompt, complete: Completer, parse: Parser, payload: Payload,
                              failure: string, fallback: string)
    requires failure != ""
    requires !Truthy(Get(Run(prompt, complete, parse, payload, failure), "success"))
    ensures Relay(Run(prompt, complete, parse, payload, failure), payload, fallback) == Fail(500, Str(failure))
  {
  }

  // ---------------------------------------------------------- sales / lease

  function RouteFailure(kind: EmailBotKind): string {
    match kind
    case Sales => "Error processing with Sales Bot"
    case Lease => "Error processing with Lease Bot"
  }

  /** `processSalesBot` / `processLeaseBot`. */
  function ProcessEmail(kind: EmailBotKind, auth: AuthResult, body: Value,
                        complete: Completer, parse: Parser): (o: Outcome)
    ensures auth.Unauthenticated? ==> o == Outcome(Unauthorized(auth.message), None)
    ensures o.sent.Some? <==>
      auth.Authenticated? && !Unreadable(body) &&
      Truthy(Prop(body, "email_content")) && Truthy(Prop(body, "property_address"))
    ensures o.sent.Some? ==>
      o.sent.value == EmailPrompt(kind, ToDisplay(Prop(body, "property_address")),
                                  SelectFlow(Or(Prop(body, "inquiry_count"), Num(1))),
                                  ToDisplay(Prop(body, "email_content")))
  {
    match auth
    case Unauthenticated(message) => Outcome(Unauthorized(message), None)
    case Authenticated(_) =>
      if Unreadable(body) then Outcome(ServerError(), None)
      else
        var email := Prop(body, "email_content");
        var address := Prop(body, "property_address");
        if !Truthy(email) || !Truthy(address) then
          Outcome(Error(400, "Email content and property address are required"), None)
        else
          var call := EmailBot(kind, email, address, Or(Prop(body, "inquiry_count"), Num(1)), complete, parse);
          Outcome(Relay(call.result, BotResponse, RouteFailure(kind)), call.prompt)
  }

  /** The route's replies once the caller is known: 400 for a missing e-mail
      or address, and otherwise the assistant's verdict, relayed. */
  lemma ProcessEmailReplies(kind: EmailBotKind, user: Value, body: Value, complete: Completer, parse: Parser)
    requires !Unreadable(body)
    ensures var o := ProcessEmail(kind, Authenticated(user), body, complete, parse);
      if !Truthy(Prop(body, "email_content")) || !Truthy(Prop(body, "property_address")) then
        o.response.status == 400
      else
        o.response == Relay(Run(o.sent.value, complete, parse, BotResponse, EmailFailure(kind)),
                            BotResponse, RouteFailure(kind))
  {
  }

  /** Replacing a falsy inquiry count with 1 changes nothing: every falsy
      count already selects the first flow. */
  lemma CountDefaultIsInert(count: Value)
    ensures SelectFlow(Or(count, Num(1))) == SelectFlow(count)
  {
    if !Truthy(count) {
      assert SelectFlow(Num(1)) == First;
      match count
      case Str(s) =>
        assert s == "";
        assert Trim(s) == "";
      case _ =>
    }
  }

  /** The sales and the lease route choose the flow by the same rule from the
      same body. */
  lemma SameFlowRule(user: Value, body: Value, complete: Completer, parse: Parser)
    requires ProcessEmail(Sales, Authenticated(user), body, complete, parse).sent.Some?
    ensures ProcessEmail(Lease, Authenticated(user), body, complete, parse).sent.Some?
    ensures ProcessEmail(Sales, Authenticated(user), body, complete, parse).sent.value.flow ==
            ProcessEmail(Lease, Authenticated(user), body, complete, parse).sent.value.flow
  {
  }

  // ---------------------------------------------------------------- addresses

  /** `${address_line_1}, ${suburb}, ${state}`. */
  function FullAddress(property: Record): string {
    ToDisplay(Get(property, "address_line_1")) + ", " + ToDisplay(Get(property, "suburb")) + ", " +
    ToDisplay(Get(property, "state"))
  }

  /** Splitting the full address at its commas gives back the three parts
      (the later two after their separating space) when no part has a comma. */
  lemma FullAddressParts(line: string, suburb: string, state: string)
    requires ',' !in line && ',' !in suburb && ',' !in state
    ensures Split(FullAddress(map["address_line_1" := Str(line), "suburb" := Str(suburb), "state" := Str(state)]), ',')
         == [line, " " + suburb, " " + state]
  {
    var p := map["address_line_1" := Str(line), "suburb" := Str(suburb), "state" := Str(state)];
    assert FullAddress(p) == line + [','] + (" " + suburb + [','] + (" " + state));
    SplitAfterPiece(line, " " + suburb + [','] + (" " + state), ',');
    SplitAfterPiece(" " + suburb, " " + state, ',');
    SplitNoSeparator(" " + state, ',');
  }

  // ------------------------------------------------------------- case study

  /** `generateCaseStudy` as written: the repository factory has no
      `getCaseStudyRepository`, so the call after a successful run throws
      and the route answers 500 "Server error". */
  function GenerateCaseStudy(auth: AuthResult, body: Value, clients: Table, properties: Table,
                             complete: Completer, parse: Parser, stringify: Stringifier): (o: Outcome)
    ensures auth.Unauthenticated? ==> o == Outcome(Unauthorized(auth.message), None)
    ensures o.response.status != 200
    ensures o.sent.Some? ==>
      auth.Authenticated? && !Unreadable(body) &&
      Truthy(Prop(body, "client_id")) && Truthy(Prop(body, "property_id")) &&
      Truthy(Prop(body, "survey_responses")) &&
      FindFirst(clients, "client_id", Prop(body, "client_id")).Some? &&
      FindFirst(properties, "property_id", Prop(body, "property_id")).Some?
  {
    match CaseStudyChecks(auth, body, clients, properties)
    case Failure(r) => Outcome(r, None)
    case Success(found) =>
      var call := CaseStudyCall(body, found.0, found.1, complete, parse, stringify);
      if !Truthy(Get(call.result, "success")) then
        Outcome(Relay(call.result, CaseStudy, CaseStudyRouteFailure), call.prompt)
      else Outcome(ServerError(), call.prompt)
  }

  const CaseStudyRouteFailure := "Error generating case study"

  /** The checks before the case-study assistant runs, in the route's order:
      401, an unreadable body, 400 for a missing field, 404 for an unknown
      client or property. On success, the client and property rows. */
  function CaseStudyChecks(auth: AuthResult, body: Value, clients: Table, properties: Table)
    : (r: Result<(Record, Record), Response>)
    ensures auth.Unauthenticated? ==> r == Failure(Unauthorized(auth.message))
    ensures auth.Authenticated? && Unreadable(body) ==> r == Failure(ServerError())
    ensures (auth.Authenticated? && !Unreadable(body) &&
             (!Truthy(Prop(body, "client_id")) || !Truthy(Prop(body, "property_id")) ||
              !Truthy(Prop(body, "survey_responses")))) ==>
      r.Failure? && r.error.status == 400
    ensures r.Failure? && r.error.status == 404 <==>
      auth.Authenticated? && !Unreadable(body) &&
      Truthy(Prop(body, "client_id")) && Truthy(Prop(body, "property_id")) &&
      Truthy(Prop(body, "survey_responses")) &&
      (FindFirst(clients, "client_id", Prop(body, "client_id")).None? ||
       FindFirst(properties, "property_id", Prop(body, "property_id")).None?)
    ensures r.Success? ==>
      auth.Authenticated? && !Unreadable(body) &&
      Truthy(Prop(body, "client_id")) && Truthy(Prop(body, "property_id")) &&
      Truthy(Prop(body, "survey_responses")) &&
      Some(r.value.0) == FindFirst(clients, "client_id", Prop(body, "client_id")) &&
      Some(r.value.1) == FindFirst(properties, "property_id", Prop(body, "property_id"))
  {
    match auth
    case Unauthenticated(message) => Failure(Unauthorized(message))
    case Authenticated(_) =>
      if Unreadable(body) then Failure(ServerError())
      else if !Truthy(Prop(body, "client_id")) || !Truthy(Prop(body, "property_id")) ||
              !Truthy(Prop(body, "survey_responses")) then
        Failure(Error(400, "Client ID, property ID, and survey responses are required"))
      else
        var client := FindFirst(clients, "client_id", Prop(body, "client_id"));
        var property := FindFirst(properties, "property_id", Prop(body, "property_id"));
        if client.None? || property.None? then Failure(Error(404, "Client or property not found"))
        else Success((client.value, property.value))
  }

  /** The case-study assistant's run for a client and a property: the client's
      name, the full address, the survey, and the past inquiries or `[]`. */
  function CaseStudyCall(body: Value, client: Record, property: Record,
                         complete: Completer, parse: Parser, stringify: Stringifier): BotCall
  {
    CaseStudyBot(ToDisplay(Get(client, "full_name")), FullAddress(property),
                 Prop(body, "survey_responses"), Or(Prop(body, "past_inquiries"), Arr([])),
                 complete, parse, stringify)
  }

  /** Without past inquiries the prompt says "None". */
  lemma NoPastInquiries(body: Value, client: Record, property: Record,
                        complete: Completer, parse: Parser, stringify: Stringifier)
    requires !Truthy(Prop(body, "past_inquiries"))
    ensures CaseStudyCall(body, client, property, complete, parse, stringify).prompt.value.past == "None"
  {
  }

  /** `generateCaseStudy` as evidently intended: a successful run answers 200
      with the case study, unless the parsed case study is `null`, whose
      fields cannot be read. */
  function GenerateCaseStudyIntended(auth: AuthResult, body: Value, clients: Table, properties: Table,
                                     complete: Completer, parse: Parser, stringify: Stringifier): (o: Outcome)
    ensures o.sent == GenerateCaseStudy(auth, body, clients, properties, complete, parse, stringify).sent
    ensures o.response.status == 200 <==>
      o.sent.Some? &&
      var result := Run(o.sent.value, complete, parse, CaseStudy, CaseStudyFailure);
      Get(result, "success") == Bool(true) && !Nullish(Get(result, "case_study"))
    ensures o.response.status == 200 ==>
      o.response == Ok(200, map["case_study" := Get(Run(o.sent.value, complete, parse, CaseStudy, CaseStudyFailure), "case_study")])
  {
    match CaseStudyChecks(auth, body, clients, properties)
    case Failure(r) => Outcome(r, None)
    case Success(found) =>
      var call := CaseStudyCall(body, found.0, found.1, complete, parse, stringify);
      if !Truthy(Get(call.result, "success")) then
        Outcome(Relay(call.result, CaseStudy, CaseStudyRouteFailure), call.prompt)
      else if Nullish(Get(call.result, "case_study")) then Outcome(ServerError(), call.prompt)
      else Outcome(Relay(call.result, CaseStudy, CaseStudyRouteFailure), call.prompt)
  }

  /** The defect: a run the assistant reports as a success still ends in 500,
      where the intended route answers 200. */
  lemma CaseStudySuccessIsLost(auth: AuthResult, body: Value, clients: Table, properties: Table,
                               complete: Completer, parse: Parser, stringify: Stringifier)
    requires GenerateCaseStudyIntended(auth, body, clients, properties, complete, parse, stringify).response.status == 200
    ensures GenerateCaseStudy(auth, body, clients, properties, complete, parse, stringify).response == ServerError()
  {
  }

  // ------------------------------------------------------------ description

  /** The features used when the property has no features JSON. */
  function DefaultFeatures(): Value {
    Obj(map["bedrooms" := Num(3), "bathrooms" := Num(2), "parking" := Num(1)])
  }

  /** `property_features_json` parsed, or the default features; a stored text
      that does not parse makes the route throw (`None`). */
  function Features(property: Record, parse: Parser): (r: Option<Value>)
    ensures !Truthy(Get(property, "property_features_json")) ==> r == Some(DefaultFeatures())
    ensures Truthy(Get(property, "property_features_json")) ==>
      (r.Some? <==> parse(ToDisplay(Get(property, "property_features_json"))).Success?)
  {
    var stored := Get(property, "property_features_json");
    if !Truthy(stored) then Some(DefaultFeatures())
    else match parse(ToDisplay(stored))
      case Success(v) => Some(v)
      case Failure(_) => None
  }

  /** `location_info`, or "Located in <suburb>, <state>". */
  function LocationDetails(info: Value, property: Record): (r: string)
    ensures Truthy(info) ==> r == ToDisplay(info)
    ensures !Truthy(info) ==>
      r == "Located in " + ToDisplay(Get(property, "suburb")) + ", " + ToDisplay(Get(property, "state"))
  {
    ToDisplay(Or(info, Str("Located in " + ToDisplay(Get(property, "suburb")) + ", " + ToDisplay(Get(property, "state")))))
  }

  /** The checks before the description assistant runs: 401, an unreadable
      body, 400 without a property id, 404 for an unknown property. */
  function DescriptionChecks(auth: AuthResult, body: Value, properties: Table): (r: Result<Record, Response>)
    ensures auth.Unauthenticated? ==> r == Failure(Unauthorized(auth.message))
    ensures auth.Authenticated? && Unreadable(body) ==> r == Failure(ServerError())
    ensures auth.Authenticated? && !Unreadable(body) && !Truthy(Prop(body, "property_id")) ==>
      r.Failure? && r.error.status == 400
    ensures r.Failure? && r.error.status == 404 <==>
      auth.Authenticated? && !Unreadable(body) && Truthy(Prop(body, "property_id")) &&
      FindFirst(properties, "property_id", Prop(body, "property_id")).None?
    ensures r.Success? ==>
      auth.Authenticated? && !Unreadable(body) && Truthy(Prop(body, "property_id")) &&
      Some(r.value) == FindFirst(properties, "property_id", Prop(body, "property_id"))
  {
    match auth
    case Unauthenticated(message) => Failure(Unauthorized(message))
    case Authenticated(_) =>
      if Unreadable(body) then Failure(ServerError())
      else if !Truthy(Prop(body, "property_id")) then Failure(Error(400, "Property ID is required"))
      else
        var property := FindFirst(properties, "property_id", Prop(body, "property_id"));
        if property.None? then Failure(Error(404, "Property not found"))
        else Success(property.value)
  }

  const DescriptionRouteFailure := "Error generating property description"

  /** `generatePropertyDescription`. A stored features text that does not parse
      throws before the assistant is called; a successful run whose parsed
      description is `null` throws when its `description_text` is read. */
  function GenerateDescription(auth: AuthResult, body: Value, properties: Table,
                               complete: Completer, parse: Parser, stringify: Stringifier): (o: Outcome)
    ensures auth.Unauthenticated? ==> o == Outcome(Unauthorized(auth.message), None)
    ensures o.sent.Some? <==>
      DescriptionChecks(auth, body, properties).Success? &&
      Features(DescriptionChecks(auth, body, properties).value, parse).Some?
    ensures o.sent.Some? ==>
      var property := DescriptionChecks(auth, body, properties).value;
      o.sent.value == DescriptionPrompt(FullAddress(property),
                                        stringify(Features(property, parse).value),
                                        LocationDetails(Prop(body, "location_info"), property),
                                        ImagesLine(Prop(body, "property_images")))
    ensures o.response.status == 200 ==>
      o.sent.Some? && !Nullish(Get(Run(o.sent.value, complete, parse, Description, DescriptionFailure), "description"))
    ensures DescriptionChecks(auth, body, properties).Success? && o.sent.None? ==> o.response == ServerError()
    ensures o.sent.Some? ==>
      var result := Run(o.sent.value, complete, parse, Description, DescriptionFailure);
      (!Truthy(Get(result, "success")) ==>
         o.response == Fail(500, Or(Get(result, "message"), Str(DescriptionRouteFailure)))) &&
      (Truthy(Get(result, "success")) && Nullish(Get(result, "description")) ==> o.response == ServerError()) &&
      (Truthy(Get(result, "success")) && !Nullish(Get(result, "description")) ==>
         o.response == Ok(200, map["description" := Get(result, "description")]))
  {
    match DescriptionChecks(auth, body, properties)
    case Failure(r) => Outcome(r, None)
    case Success(property) =>
      match Features(property, parse)
      case None => Outcome(ServerError(), None)
      case Some(features) =>
        var call := DescriptionBot(FullAddress(property), features,
                                   LocationDetails(Prop(body, "location_info"), property),
                                   Prop(body, "property_images"), complete, parse, stringify);
        if !Truthy(Get(call.result, "success")) then
          Outcome(Relay(call.result, Description, DescriptionRouteFailure), call.prompt)
        else if Nullish(Get(call.result, "description")) then Outcome(ServerError(), call.prompt)
        else Outcome(Relay(call.result, Description, DescriptionRouteFailure), call.prompt)
  }
  /** Once the route has found the property and read its features, a
      completion that parses to a non-null value is answered with exactly that
      description; a failed completion is answered 500 with the assistant's
      own message. */
  lemma DescriptionReplies(auth: AuthResult, body: Value, properties: Table, complete: Completer, parse: Parser,
                           stringify: Stringifier)
    requires DescriptionChecks(auth, body, properties).Success?
    requires Features(DescriptionChecks(auth, body, properties).value, parse).Some?
    ensures var o := GenerateDescription(auth, body, properties, complete, parse, stringify);
      o.sent.Some? &&
      match complete(o.sent.value)
      case Answered(Some(c)) =>
        if |c| > 0 && parse(c).Success? && !Nullish(parse(c).value) then
          o.response == Ok(200, map["description" := parse(c).value])
        else if |c| > 0 && parse(c).Success? then o.response == ServerError()
        else o.response == Fail(500, Str(DescriptionFailure))
      case _ => o.response == Fail(500, Str(DescriptionFailure))
  {
    var o := GenerateDescription(auth, body, properties, complete, parse, stringify);
    var result := Run(o.sent.value, complete, parse, Description, DescriptionFailure);
    assert PayloadKey(Description) == "description";
    if !Truthy(Get(result, "success")) {
      assert Get(result, "message") == Str(DescriptionFailure);
    }
  }

}

=== FILE: http.dfy ===
/** What every route handler shares: the JSON response it returns, the outcome
    of authenticating the caller, and the role rules. */
module Http {
  import opened Wrappers
  import opened Js

  /** `Response.json(body, { status })`; the status is 200 when none is given. */
  datatype Response = Response(status: int, body: Record)

  /** `{ success: false, message }` with the given status. */
  function Error(status: int, message: string): Response {
    Response(status, map["success" := Bool(false), "message" := Str(message)])
  }

  /** `{ success: false, message }` where the message is whatever value the handler passes on. */
  function Fail(status: int, message: Value): Response {
    Response(status, map["success" := Bool(false), "message" := message])
  }

  /** `{ success: true, ...fields }` with the given status. */
  function Ok(status: int, fields: Record): Response {
    Response(status, map["success" := Bool(true)] + fields)
  }

  /** Every handler's catch-all for an exception thrown while it runs. */
  function ServerError(): Response {
    Error(500, "Server error")
  }

  /** `Response.json` body field `key`. */
  function Field(r: Response, key: string): Value {
    Get(r.body, key)
  }

  /** A writing handler's response and the row it handed to the repository's
      `create` or `update`, if it got that far. */
  datatype Handled = Handled(response: Response, written: Option<Record>)

  /** The outcome of `authenticate`: the decoded token payload, or the reason it was refused. */
  datatype AuthResult = Authenticated(user: Value) | Unauthenticated(message: string)

  /** A query parameter as a handler tests it (`if (param)`): present and non-empty. */
  predicate Given(p: Option<string>) {
    p.Some? && p.value != ""
  }

  /** The first check of every authenticated handler: 401 with the refusal reason. */
  function Unauthorized(message: string): Response {
    Error(401, message)
  }

  /** `authResult.user.role`. */
  function RoleOf(user: Value): Value {
    Prop(user, "role")
  }

  /** `authResult.user.id`. */
  function IdOf(user: Value): Value {
    Prop(user, "id")
  }

  /** The role test the handlers write as `role === 'STAFF' || role === 'DIRECTOR'`. */
  predicate IsAdmin(role: Value) {
    role == Str("STAFF") || role == Str("DIRECTOR")
  }

  /** Admins and property managers (`'PM'`) may create and update maintenance requests. */
  predicate IsPropertyManager(role: Value) {
    IsAdmin(role) || role == Str("PM")
  }
}

=== FILE: inquiries.dfy ===
/** The inquiry routes: listing (scoped by role, filtered by client, property
    and status), reading, creating and updating inquiries. Admins act on any
    inquiry; everyone else only on the inquiries assigned to them. */
module Inquiries {
  import opened Wrappers
  import opened Js
  import opened Http
  import opened Store
  import Seqs
  import Merge
  import Access

  // ----------------------------------------------------------------- listing

  /** `inquiry.column === parseInt(param)`: a parameter that does not start
      with digits parses to `NaN` and matches nothing. */
  predicate MatchesId(row: Record, column: string, param: string) {
    StrictEquals(Get(row, column), ParseInt(param))
  }

  /** The rows the listing starts from, before the status filter. A non-admin
      gets the inquiries assigned to them, narrowed by every id given; an
      admin gets the inquiries of the client asked for, or failing that of
      the property asked for (the property is ignored when a client is
      given), or none. */
  predicate Scoped(caller: Value, clientId: Option<string>, propertyId: Option<string>, row: Record) {
    if IsAdmin(RoleOf(caller)) then
      (Given(clientId) && MatchesId(row, "client_id", clientId.value)) ||
      (!Given(clientId) && Given(propertyId) && MatchesId(row, "property_id", propertyId.value))
    else
      SqlEquals(Get(row, "assigned_user_id"), IdOf(caller)) &&
      (Given(clientId) ==> MatchesId(row, "client_id", clientId.value)) &&
      (Given(propertyId) ==> MatchesId(row, "property_id", propertyId.value))
  }

  /** Which inquiries the listing is meant to return. */
  predicate Listed(caller: Value, clientId: Option<string>, propertyId: Option<string>, status: Option<string>,
                   row: Record) {
    Scoped(caller, clientId, propertyId, row) && (Given(status) ==> Get(row, "status") == Str(status.value))
  }

  /** `rows.filter(inquiry => inquiry.column === parseInt(param))` when the
      parameter is given. */
  function NarrowById(rows: Table, column: string, param: Option<string>): (r: Table)
    ensures Seqs.IsSubsequence(r, rows)
    ensures forall row :: row in r <==> row in rows && (Given(param) ==> MatchesId(row, column, param.value))
  {
    if Given(param) then
      Seqs.FilterIsSubsequence(rows, row => MatchesId(row, column, param.value));
      Seqs.Filter(rows, row => MatchesId(row, column, param.value))
    else
      Seqs.SubsequenceRefl(rows);
      rows
  }

  /** The repository query (for an admin) or the assigned inquiries narrowed
      in memory (for anyone else). */
  function Candidates(caller: Value, clientId: Option<string>, propertyId: Option<string>, inquiries: Table): (rows: Table)
    ensures Seqs.IsSubsequence(rows, inquiries)
    ensures forall row :: row in rows <==> row in inquiries && Scoped(caller, clientId, propertyId, row)
  {
    if IsAdmin(RoleOf(caller)) then
      if Given(clientId) then Where(inquiries, "client_id", ParseInt(clientId.value))
      else if Given(propertyId) then Where(inquiries, "property_id", ParseInt(propertyId.value))
      else []
    else
      var own := Where(inquiries, "assigned_user_id", IdOf(caller));
      var byClient := NarrowById(own, "client_id", clientId);
      var byProperty := NarrowById(byClient, "property_id", propertyId);
      Seqs.SubsequenceTransitive(byClient, own, inquiries);
      Seqs.SubsequenceTransitive(byProperty, byClient, inquiries);
      byProperty
  }

  /** The listing: the candidates, then the status filter when a status is given. */
  function Listing(caller: Value, clientId: Option<string>, propertyId: Option<string>, status: Option<string>,
                   inquiries: Table): (rows: Table)
    ensures Seqs.IsSubsequence(rows, inquiries)
    ensures forall row :: row in rows <==> row in inquiries && Listed(caller, clientId, propertyId, status, row)
  {
    var candidates := Candidates(caller, clientId, propertyId, inquiries);
    if Given(status) then
      var p := (row: Record) => StrictEquals(Get(row, "status"), Str(status.value));
      Seqs.FilterIsSubsequence(candidates, p);
      Seqs.SubsequenceTransitive(Seqs.Filter(candidates, p), candidates, inquiries);
      Seqs.Filter(candidates, p)
    else candidates
  }

  /** `getInquiries`: 401, then the listing. */
  function GetInquiries(auth: AuthResult, clientId: Option<string>, propertyId: Option<string>, status: Option<string>,
                        inquiries: Table): (r: Response)
    ensures auth.Unauthenticated? ==> r == Unauthorized(auth.message)
    ensures auth.Authenticated? ==>
      r == Ok(200, map["inquiries" := Arr(Rows(Listing(auth.user, clientId, propertyId, status, inquiries)))])
  {
    match auth
    case Unauthenticated(message) => Unauthorized(message)
    case Authenticated(caller) =>
      Ok(200, map["inquiries" := Arr(Rows(Listing(caller, clientId, propertyId, status, inquiries)))])
  }

  /** Every inquiry listed to a non-admin is assigned to them and satisfies
      every filter asked for. */
  lemma ListedInquiriesMatch(caller: Value, clientId: Option<string>, propertyId: Option<string>,
                             status: Option<string>, inquiries: Table, i: int)
    requires !IsAdmin(RoleOf(caller))
    requires 0 <= i < |Listing(caller, clientId, propertyId, status, inquiries)|
    ensures var row := Listing(caller, clientId, propertyId, status, inquiries)[i];
      row in inquiries && StrictEquals(Get(row, "assigned_user_id"), IdOf(caller)) &&
      (Given(clientId) ==> Get(row, "client_id") == ParseInt(clientId.value)) &&
      (Given(propertyId) ==> Get(row, "property_id") == ParseInt(propertyId.value)) &&
      (Given(status) ==> Get(row, "status") == Str(status.value))
  {
    var rows := Listing(caller, clientId, propertyId, status, inquiries);
    assert rows[i] in rows;
  }

  /** For an admin a client filter takes precedence: the property filter is
      then ignored. */
  lemma ClientFilterPrecedes(caller: Value, clientId: string, p1: Option<string>, p2: Option<string>,
                             status: Option<string>, inquiries: Table)
    requires IsAdmin(RoleOf(caller)) && clientId != ""
    ensures GetInquiries(Authenticated(caller), Some(clientId), p1, status, inquiries) ==
            GetInquiries(Authenticated(caller), Some(clientId), p2, status, inquiries)
  {
  }

  // -------------------------------------------------------------- one inquiry

  /** 401, 404 for an unknown inquiry, then 403 unless the caller is an admin
      or the inquiry's assignee. */
  function Guard(auth: AuthResult, inquiryId: Value, inquiries: Table): Result<(Value, Record), Response> {
    Access.Guard(auth, inquiries, "inquiry_id", inquiryId, "assigned_user_id", "Inquiry not found")
  }

  /** `getInquiryById`: the checks, then the inquiry. */
  function GetInquiryById(auth: AuthResult, inquiryId: Value, inquiries: Table): (r: Response)
    ensures Guard(auth, inquiryId, inquiries).Failure? ==> r == Guard(auth, inquiryId, inquiries).error
    ensures r.status == 200 <==> Guard(auth, inquiryId, inquiries).Success?
    ensures r.status == 200 ==> Field(r, "inquiry") == Obj(FindFirst(inquiries, "inquiry_id", inquiryId).value)
  {
    match Guard(auth, inquiryId, inquiries)
    case Failure(refusal) => refusal
    case Success((_, row)) => Ok(200, map["inquiry" := Obj(row)])
  }

  /** The fields a create request copies from the body unchanged. */
  const CopiedFields: set<string> :=
    {"client_id", "property_id", "subject", "raw_email_body", "classification", "sub_category",
     "do_not_contact_flag"}

  /** The inquiry a create request describes: the body's fields, assigned to
      the caller unless a truthy assignee is given, `'OPEN'` and `'MEDIUM'`
      unless a truthy status and urgency are given, received at `now`. */
  function NewInquiry(body: Value, caller: Value, now: string): (q: Record)
    ensures q.Keys == CopiedFields + {"assigned_user_id", "status", "urgency_level", "received_timestamp"}
    ensures forall k :: k in CopiedFields ==> q[k] == Prop(body, k)
    ensures Truthy(Prop(body, "assigned_user_id")) ==> q["assigned_user_id"] == Prop(body, "assigned_user_id")
    ensures !Truthy(Prop(body, "assigned_user_id")) ==> q["assigned_user_id"] == IdOf(caller)
    ensures Truthy(Prop(body, "status")) ==> q["status"] == Prop(body, "status")
    ensures !Truthy(Prop(body, "status")) ==> q["status"] == Str("OPEN")
    ensures Truthy(Prop(body, "urgency_level")) ==> q["urgency_level"] == Prop(body, "urgency_level")
    ensures !Truthy(Prop(body, "urgency_level")) ==> q["urgency_level"] == Str("MEDIUM")
    ensures q["received_timestamp"] == Str(now)
  {
    map["client_id" := Prop(body, "client_id"), "property_id" := Prop(body, "property_id"),
        "subject" := Prop(body, "subject"), "raw_email_body" := Prop(body, "raw_email_body"),
        "classification" := Prop(body, "classification"), "sub_category" := Prop(body, "sub_category"),
        "assigned_user_id" := Or(Prop(body, "assigned_user_id"), IdOf(caller)),
        "do_not_contact_flag" := Prop(body, "do_not_contact_flag"),
        "status" := Or(Prop(body, "status"), Str("OPEN")),
        "urgency_level" := Or(Prop(body, "urgency_level"), Str("MEDIUM")),
        "received_timestamp" := Str(now)]
  }

  /** `createInquiry`: 401, an unreadable body, 400 without an email body,
      then the new inquiry is created and returned with its id. */
  function CreateInquiry(auth: AuthResult, body: Value, now: string, create: Record -> Value): (h: Handled)
    ensures auth.Unauthenticated? ==> h == Handled(Unauthorized(auth.message), None)
    ensures h.response.status == 400 <==>
      auth.Authenticated? && !Nullish(body) && !Truthy(Prop(body, "raw_email_body"))
    ensures h.written.Some? <==> auth.Authenticated? && !Nullish(body) && Truthy(Prop(body, "raw_email_body"))
    ensures h.written.Some? ==>
      h.written.value == NewInquiry(body, auth.user, now) && h.response.status == 201 &&
      Field(h.response, "inquiry") == Obj(h.written.value["inquiry_id" := create(h.written.value)])
  {
    match auth
    case Unauthenticated(message) => Handled(Unauthorized(message), None)
    case Authenticated(caller) =>
      if Nullish(body) then Handled(ServerError(), None)
      else if !Truthy(Prop(body, "raw_email_body")) then Handled(Error(400, "Email body is required"), None)
      else
        var q := NewInquiry(body, caller, now);
        Handled(Ok(201, map["message" := Str("Inquiry created successfully"),
                            "inquiry" := Obj(q["inquiry_id" := create(q)])]), Some(q))
  }

  /** An inquiry created without an assignee is assigned to its creator, who
      may therefore read and update it afterwards. */
  lemma CreatorMayEditUnassigned(caller: Value, body: Value, now: string)
    requires !Truthy(Prop(body, "assigned_user_id")) && IdOf(caller) != NaN
    ensures Access.MayEdit(caller, NewInquiry(body, caller, now), "assigned_user_id")
  {
  }

  // ------------------------------------------------------------------ update

  /** How `updateInquiry` merges the body into the stored inquiry. */
  function InquiryRules(): map<string, Merge.Rule> {
    map["client_id" := Merge.KeepOnUndefined, "property_id" := Merge.KeepOnUndefined,
        "subject" := Merge.KeepOnUndefined, "classification" := Merge.KeepOnFalsy,
        "sub_category" := Merge.KeepOnUndefined, "assigned_user_id" := Merge.KeepOnUndefined,
        "do_not_contact_flag" := Merge.KeepOnUndefined, "status" := Merge.KeepOnFalsy,
        "urgency_level" := Merge.KeepOnFalsy]
  }

  /** Classification, status and urgency fall back on any falsy input. */
  lemma InquiryMergeFalsy(existing: Record, body: Value, k: string)
    requires k in {"classification", "status", "urgency_level"}
    ensures Get(Merge.Apply(existing, body, InquiryRules()), k) == Or(Prop(body, k), Get(existing, k))
  {
  }

  /** The ids, subject, sub-category, assignee and do-not-contact flag fall
      back only on a missing input: `false` clears the flag, `null` the assignee. */
  lemma InquiryMergeUndefined(existing: Record, body: Value, k: string)
    requires k in {"client_id", "property_id", "subject", "sub_category", "assigned_user_id", "do_not_contact_flag"}
    ensures Get(Merge.Apply(existing, body, InquiryRules()), k) == IfDefined(Prop(body, k), Get(existing, k))
  {
  }

  /** The email body, the received time and the id are never changed by an update. */
  lemma InquiryMergeKeeps(existing: Record, body: Value, k: string)
    requires k !in InquiryRules()
    ensures Get(Merge.Apply(existing, body, InquiryRules()), k) == Get(existing, k)
  {
  }

  /** `updateInquiry`: the checks, an unreadable body, then the merged
      inquiry is handed to `update`; 500 if that reports failure. */
  function UpdateInquiry(auth: AuthResult, inquiryId: Value, body: Value, inquiries: Table,
                         update: Record -> bool): (h: Handled)
    ensures Guard(auth, inquiryId, inquiries).Failure? ==> h == Handled(Guard(auth, inquiryId, inquiries).error, None)
    ensures h.written.Some? <==> Guard(auth, inquiryId, inquiries).Success? && !Nullish(body)
    ensures h.written.Some? ==>
      h.written.value == Merge.Apply(Guard(auth, inquiryId, inquiries).value.1, body, InquiryRules()) &&
      (h.response.status == 200 <==> update(h.written.value))
    ensures h.written.Some? && h.response.status == 200 ==> Field(h.response, "inquiry") == Obj(h.written.value)
    ensures Guard(auth, inquiryId, inquiries).Success? && Nullish(body) ==> h.response == ServerError()
  {
    match Guard(auth, inquiryId, inquiries)
    case Failure(refusal) => Handled(refusal, None)
    case Success((_, existing)) =>
      if Nullish(body) then Handled(ServerError(), None)
      else
        var updated := Merge.Apply(existing, body, InquiryRules());
        if !update(updated) then Handled(Error(500, "Failed to update inquiry"), Some(updated))
        else Handled(Ok(200, map["message" := Str("Inquiry updated successfully"),
                                 "inquiry" := Obj(updated)]), Some(updated))
  }

  /** An assignee may hand an inquiry to someone else, after which they can
      no longer update it: the ownership check reads the stored assignee. */
  lemma ReassignmentLocksOut(caller: Value, existing: Record, body: Value, other: Value)
    requires !IsAdmin(RoleOf(caller)) && Prop(body, "assigned_user_id") == other
    requires other != Undefined && other != IdOf(caller)
    ensures !Access.MayEdit(caller, Merge.Apply(existing, body, InquiryRules()), "assigned_user_id")
  {
    InquiryMergeUndefined(existing, body, "assigned_user_id");
  }
}

=== FILE: inquiry_list.dfy ===
/** The inquiry list screen: a free-text search over the subject and the
    client's name, and a status filter, applied together. */
module InquiryList {
  import opened Text
  import Seqs
  import Search

  /** The fields of an inquiry the screen filters on. */
  datatype Inquiry = Inquiry(id: int, subject: string, clientName: string, status: string)

  /** The search box and the status drop-down; `""` means "all". */
  datatype Filters = Filters(search: string, status: string)

  const NoFilters := Filters("", "")

  predicate MatchesSearch(term: string, q: Inquiry) {
    term == "" || ContainsIgnoringCase(q.subject, term) || ContainsIgnoringCase(q.clientName, term)
  }

  /** An inquiry is shown iff it passes the search and the status drop-down. */
  predicate Keeps(f: Filters, q: Inquiry) {
    MatchesSearch(f.search, q) && Search.EmptyOrEqual(f.status, q.status)
  }

  /** `filteredInquiries`: the shown inquiries, in the order given. */
  function Filtered(qs: seq<Inquiry>, f: Filters): (r: seq<Inquiry>)
    ensures Seqs.IsSubsequence(r, qs)
    ensures forall q :: q in r <==> q in qs && Keeps(f, q)
  {
    Seqs.FilterIsSubsequence(qs, q => Keeps(f, q));
    Seqs.Filter(qs, q => Keeps(f, q))
  }

  /** With both controls at "all" the list is shown unchanged. */
  lemma NoFiltersKeepAll(qs: seq<Inquiry>)
    ensures Filtered(qs, NoFilters) == qs
  {
    Seqs.FilterAll(qs, q => Keeps(NoFilters, q));
  }

  /** Each inquiry is found by searching for its client's name. */
  lemma ClientNameFindsInquiry(qs: seq<Inquiry>, q: Inquiry)
    requires q in qs
    ensures q in Filtered(qs, Filters(q.clientName, ""))
  {
    Search.FieldFindsItself(q.clientName);
  }

  /** `g` narrows `f`: more typed in the search, or the status set where it was "all". */
  predicate Narrows(g: Filters, f: Filters) {
    Search.Refines(g.search, f.search) && Search.RefinesChoice(g.status, f.status)
  }

  /** Narrowing the controls never adds an inquiry nor reorders the list. */
  lemma NarrowingNeverAdds(qs: seq<Inquiry>, f: Filters, g: Filters)
    requires Narrows(g, f)
    ensures Seqs.IsSubsequence(Filtered(qs, g), Filtered(qs, f))
  {
    forall i | 0 <= i < |qs| && Keeps(g, qs[i])
      ensures Keeps(f, qs[i])
    {
      if f.search != "" {
        if ContainsIgnoringCase(qs[i].subject, g.search) {
          Search.NarrowerTermMatchesLess(qs[i].subject, f.search, g.search);
        } else {
          Search.NarrowerTermMatchesLess(qs[i].clientName, f.search, g.search);
        }
      }
    }
    Seqs.FilterMonotone(qs, q => Keeps(g, q), q => Keeps(f, q));
  }
}

=== FILE: js.dfy ===
/** JavaScript values as the route handlers and components see them: request
    bodies, database rows and mock objects are plain objects whose fields may be
    missing (`undefined`), `null`, or of any type. Truthiness, `||`, the
    `!== undefined` test, `String(v)`, the loose comparisons and `parseInt` are
    spelled out here, because the application's behaviour turns on them. */
module Js {
  import opened Wrappers
  import opened Text

  /** A JavaScript value. Numbers are whole numbers (`NaN` is its own case);
      objects are their own-property maps. */
  datatype Value =
    | Undefined
    | Null
    | NaN
    | Bool(b: bool)
    | Num(n: int)
    | Str(s: string)
    | Arr(items: seq<Value>)
    | Obj(fields: map<string, Value>)

  /** A plain object: a request body, a database row, a mock record. */
  type Record = map<string, Value>

  /** JavaScript truthiness: `false`, `0`, `NaN`, `""`, `null` and `undefined` are falsy. */
  predicate Truthy(v: Value) {
    match v
    case Undefined => false
    case Null => false
    case NaN => false
    case Bool(b) => b
    case Num(n) => n != 0
    case Str(s) => s != ""
    case Arr(_) => true
    case Obj(_) => true
  }

  /** `a || b`: the fallback replaces every falsy value. */
  function Or(a: Value, b: Value): Value {
    if Truthy(a) then a else b
  }

  /** `a !== undefined ? a : b`: the fallback replaces only `undefined`. */
  function IfDefined(a: Value, b: Value): Value {
    if a != Undefined then a else b
  }

  /** `obj.key` on a plain object: a missing key reads as `undefined`. */
  function Get(r: Record, key: string): Value {
    if key in r then r[key] else Undefined
  }

  predicate Nullish(v: Value) {
    v == Undefined || v == Null
  }

  /** `v.key` for a value that is not `null` or `undefined` (reading a field of
      those throws, and callers treat that case themselves). */
  function Prop(v: Value, key: string): Value {
    match v
    case Obj(m) => Get(m, key)
    case _ => Undefined
  }

  /** `a === b` on primitives: equal values of the same type, except that `NaN`
      equals nothing. */
  predicate StrictEquals(a: Value, b: Value) {
    a == b && a != NaN
  }

  /** `String(v)`, which is also what `${v}` inserts into a template literal. */
  function ToDisplay(v: Value): string
    decreases v
  {
    match v
    case Undefined => "undefined"
    case Null => "null"
    case NaN => "NaN"
    case Bool(b) => if b then "true" else "false"
    case Num(n) => IntToString(n)
    case Str(s) => s
    case Arr(items) =>
      Join(seq(|items|, i requires 0 <= i < |items| =>
        if Nullish(items[i]) then "" else ToDisplay(items[i])), ",")
    case Obj(_) => "[object Object]"
  }

  /** Each element of an array as `Array.prototype.join` renders it: `null` and
      `undefined` become the empty string, anything else its `String` form. */
  function Rendered(items: seq<Value>): (r: seq<string>)
    ensures |r| == |items|
    ensures forall i :: 0 <= i < |items| ==> r[i] == (if Nullish(items[i]) then "" else ToDisplay(items[i]))
  {
    seq(|items|, i requires 0 <= i < |items| => if Nullish(items[i]) then "" else ToDisplay(items[i]))
  }

  /** `items.join(sep)`. */
  function JoinValues(items: seq<Value>, sep: string): string {
    Join(Rendered(items), sep)
  }

  /** `String` of an array is its join with ",". */
  lemma ArrayDisplay(items: seq<Value>)
    ensures ToDisplay(Arr(items)) == JoinValues(items, ",")
  {
  }

  /** The array of the given strings. */
  function Strs(xs: seq<string>): (r: seq<Value>)
    ensures |r| == |xs| && forall i :: 0 <= i < |xs| ==> r[i] == Str(xs[i])
  {
    seq(|xs|, i requires 0 <= i < |xs| => Str(xs[i]))
  }

  /** Joining an array of strings joins the strings themselves. */
  lemma JoinStrs(xs: seq<string>, sep: string)
    ensures JoinValues(Strs(xs), sep) == Join(xs, sep)
  {
    assert Rendered(Strs(xs)) == xs;
  }

  /** `v.length` on a value that is not `null` or `undefined`: the element count
      of an array, the length of a string, an object's own `length` field, and
      `undefined` for everything else. */
  function LengthOf(v: Value): (r: Value)
    ensures v.Arr? ==> r == Num(|v.items|)
    ensures v.Str? ==> r == Num(|v.s|)
    ensures v.Num? || v.Bool? ==> r == Undefined
  {
    match v
    case Arr(items) => Num(|items|)
    case Str(s) => Num(|s|)
    case Obj(m) => Get(m, "length")
    case _ => Undefined
  }

  /** A JavaScript number as `Number()` produces it: a finite value or one of
      the two infinities. `NaN` is kept apart, as `None`. */
  datatype Numeric = Finite(x: real) | PosInf | NegInf

  /** `x > y` on numbers. */
  predicate NumericGreater(a: Numeric, b: Numeric) {
    match (a, b)
    case (PosInf, _) => !b.PosInf?
    case (_, NegInf) => !a.NegInf?
    case (Finite(x), Finite(y)) => x > y
    case _ => false
  }

  function Pow10(k: nat): (r: nat)
    ensures r >= 1
  {
    if k == 0 then 1 else 10 * Pow10(k - 1)
  }

  /** `m` times ten to the power `e`. */
  function Scaled(m: nat, e: int): real {
    if e >= 0 then (m * Pow10(e)) as real else (m as real) / (Pow10(-e) as real)
  }

  /** An exponent: an optional sign and at least one decimal digit. */
  function Exponent(s: string): Option<int> {
    var body := if |s| > 0 && (s[0] == '+' || s[0] == '-') then s[1..] else s;
    if body != "" && AllDigits(body) then
      var m: int := DigitsValue(body);
      Some(if |s| > 0 && s[0] == '-' then -m else m)
    else None
  }

  /** The part of a decimal literal before its exponent: digits with an
      optional fraction, at least one digit in all. It gives the value of all
      its digits together and the number of fraction digits. */
  function Mantissa(m: string): Option<(nat, nat)> {
    var d := FirstOf(m, '.', '.');
    var whole := m[..d];
    var fraction := if d < |m| then m[d + 1..] else "";
    if whole + fraction != "" && AllDigits(whole + fraction) then Some((DigitsValue(whole + fraction), |fraction|))
    else None
  }

  /** An unsigned decimal literal: a mantissa, then an optional exponent
      (`12`, `1.5`, `.5`, `3.`, `1e3`, `2.5E-1`). */
  function UnsignedDecimal(t: string): Option<real> {
    var k := FirstOf(t, 'e', 'E');
    var exponent := if k < |t| then Exponent(t[k + 1..]) else Some(0);
    var mantissa := Mantissa(t[..k]);
    if exponent.Some? && mantissa.Some? then Some(Scaled(mantissa.value.0, exponent.value - mantissa.value.1))
    else None
  }

  /** The radix a `0x`, `0o` or `0b` prefix selects (either letter case), or 0. */
  function PrefixRadix(t: string): nat {
    if |t| < 2 || t[0] != '0' then 0
    else if t[1] == 'x' || t[1] == 'X' then 16
    else if t[1] == 'o' || t[1] == 'O' then 8
    else if t[1] == 'b' || t[1] == 'B' then 2
    else 0
  }

  /** `Number(s)` for a string, `None` standing for `NaN`. Surrounding white
      space is ignored and the empty string is 0. An unsigned `0x`, `0o` or
      `0b` literal is read in its base; otherwise an optional sign is followed
      by `Infinity` or a decimal literal. */
  function StringToNumber(s: string): Option<Numeric> {
    var t := Trim(s);
    if t == "" then Some(Finite(0.0))
    else if PrefixRadix(t) != 0 then
      if |t| > 2 && AllRadixDigits(t[2..], PrefixRadix(t)) then Some(Finite(RadixValue(t[2..], PrefixRadix(t)) as real))
      else None
    else
      var neg := t[0] == '-';
      var body := if t[0] == '-' || t[0] == '+' then t[1..] else t;
      if body == "Infinity" then Some(if neg then NegInf else PosInf)
      else match UnsignedDecimal(body)
        case Some(x) => Some(Finite(if neg then -x else x))
        case None => None
  }

  /** The primitive a value is converted to before a comparison: an array or
      object becomes its `String` form, everything else is already primitive. */
  function ToPrimitive(v: Value): (r: Value)
    ensures !r.Arr? && !r.Obj?
    ensures v.Arr? || v.Obj? ==> r == Str(ToDisplay(v))
    ensures !v.Arr? && !v.Obj? ==> r == v
  {
    if v.Arr? || v.Obj? then Str(ToDisplay(v)) else v
  }

  /** `Number(v)`, with `None` for `NaN`. */
  function ToNumber(v: Value): Option<Numeric> {
    match v
    case Undefined => None
    case Null => Some(Finite(0.0))
    case NaN => None
    case Bool(b) => Some(Finite(if b then 1.0 else 0.0))
    case Num(n) => Some(Finite(n as real))
    case Str(s) => StringToNumber(s)
    case Arr(_) => StringToNumber(ToDisplay(v))
    case Obj(_) => StringToNumber(ToDisplay(v))
  }

  /** A run of decimal digits is a mantissa without fraction digits. */
  lemma MantissaOfDigits(d: string)
    requires d != "" && AllDigits(d)
    ensures Mantissa(d) == Some((DigitsValue(d), 0))
  {
    FirstOfNone(d, '.', '.');
    assert d[..|d|] == d;
    assert d + "" == d;
  }

  /** A run of decimal digits is an unsigned decimal literal worth its digits. */
  lemma UnsignedDecimalOfDigits(d: string)
    requires d != "" && AllDigits(d)
    ensures UnsignedDecimal(d) == Some(DigitsValue(d) as real)
  {
    FirstOfNone(d, 'e', 'E');
    assert d[..|d|] == d;
    MantissaOfDigits(d);
    ScaledByOne(DigitsValue(d));
  }

  lemma ScaledByOne(m: nat)
    ensures Scaled(m, 0) == m as real
  {
    assert Pow10(0) == 1;
  }

  /** `Number` reads a plain run of decimal digits as its value. */
  lemma NumberOfDigits(d: string)
    requires d != "" && AllDigits(d)
    ensures StringToNumber(d) == Some(Finite(DigitsValue(d) as real))
  {
    assert IsDigit(d[0]) && IsDigit(d[|d| - 1]);
    TrimOfUnspaced(d);
    if |d| >= 2 { assert IsDigit(d[1]); }
    assert PrefixRadix(d) == 0;
    assert d != "Infinity" by { assert "Infinity"[0] == 'I'; }
    UnsignedDecimalOfDigits(d);
  }

  /** `Number(String(n))` is `n`: an integer reads back as itself. */
  lemma NumberOfRendered(n: int)
    ensures StringToNumber(IntToString(n)) == Some(Finite(n as real))
  {
    if n >= 0 {
      assert IntToString(n) == NatToString(n);
      NatToStringRoundTrip(n);
      NumberOfDigits(NatToString(n));
    } else {
      var d := NatToString(-n);
      assert IntToString(n) == "-" + d;
      assert IsDigit(d[0]) && IsDigit(d[|d| - 1]);
      NatToStringRoundTrip(-n);
      UnsignedDecimalOfDigits(d);
      NumberOfNegative(d, (-n) as real);
    }
  }

  /** A minus sign before an unsigned decimal literal negates its value. */
  lemma NumberOfNegative(u: string, x: real)
    requires u != "" && IsDigit(u[0]) && IsDigit(u[|u| - 1]) && UnsignedDecimal(u) == Some(x)
    ensures StringToNumber("-" + u) == Some(Finite(-x))
  {
    var t := "-" + u;
    assert t[|t| - 1] == u[|u| - 1];
    TrimOfUnspaced(t);
    assert PrefixRadix(t) == 0;
    assert t[1..] == u;
    assert u != "Infinity" by { assert "Infinity"[0] == 'I'; }
  }

  /** An unsigned decimal literal that starts and ends with a digit is read by
      `Number` as its value. */
  lemma NumberOfUnsigned(t: string, x: real)
    requires t != "" && IsDigit(t[0]) && IsDigit(t[|t| - 1]) && PrefixRadix(t) == 0
    requires UnsignedDecimal(t) == Some(x)
    ensures StringToNumber(t) == Some(Finite(x))
  {
    TrimOfUnspaced(t);
    assert t != "Infinity" by { assert "Infinity"[0] == 'I'; }
  }

  /** `Number` reads an unsigned `0x` literal in base 16. */
  lemma NumberOfHex(h: string)
    requires h != "" && AllHexDigits(h)
    ensures StringToNumber("0x" + h) == Some(Finite(HexValue(h) as real))
  {
    var t := "0x" + h;
    assert t[|t| - 1] == h[|h| - 1] && IsHexDigit(h[|h| - 1]);
    TrimOfUnspaced(t);
    assert PrefixRadix(t) == 16;
    assert t[2..] == h;
    RadixSixteen(h);
  }

  /** An unsigned run of digits is an exponent worth its digits. */
  lemma ExponentOfDigits(e: string)
    requires e != "" && AllDigits(e)
    ensures Exponent(e) == Some(DigitsValue(e) as int)
  {
    assert IsDigit(e[0]);
  }

  /** In digits, `e`, digits, the first exponent letter follows the first digits. */
  lemma ExponentLetterAt(d: string, e: string)
    requires AllDigits(d)
    ensures FirstOf(d + "e" + e, 'e', 'E') == |d|
  {
    var t := d + "e" + e;
    assert t[|d|] == 'e';
    assert forall i :: 0 <= i < |d| ==> t[i] == d[i];
    FirstOfAt(t, 'e', 'E', |d|);
  }

  /** Digits, `e`, digits: an unsigned decimal literal worth the first digits
      times ten to the power of the second. */
  lemma UnsignedDecimalWithExponent(d: string, e: string)
    requires d != "" && AllDigits(d) && e != "" && AllDigits(e)
    ensures UnsignedDecimal(d + "e" + e) == Some(Scaled(DigitsValue(d), DigitsValue(e)))
  {
    var t := d + "e" + e;
    ExponentLetterAt(d, e);
    assert t[..|d|] == d;
    assert t[|d| + 1..] == e;
    ExponentOfDigits(e);
    MantissaOfDigits(d);
  }

  /** `Number` reads digits followed by `e` and an unsigned exponent as the
      digits' value times that power of ten. */
  lemma NumberOfExponent(d: string, e: string)
    requires d != "" && AllDigits(d) && e != "" && AllDigits(e)
    ensures StringToNumber(d + "e" + e) == Some(Finite((DigitsValue(d) * Pow10(DigitsValue(e))) as real))
  {
    var t := d + "e" + e;
    assert IsDigit(t[0]) && t[|t| - 1] == e[|e| - 1] && IsDigit(e[|e| - 1]);
    TrimOfUnspaced(t);
    if |d| >= 2 { assert t[1] == d[1] && IsDigit(d[1]); } else { assert t[1] == 'e'; }
    assert PrefixRadix(t) == 0;
    assert t != "Infinity" by { assert "Infinity"[0] == 'I'; }
    UnsignedDecimalWithExponent(d, e);
  }

  /** An array is compared as its `String` form: against a string it is a
      comparison of strings, so `["b"] > "a"`. */
  lemma ArrayComparedAsString()
    ensures Greater(Arr([Str("b")]), Str("a"))
  {
    assert ToDisplay(Arr([Str("b")])) == "b" by {
      assert Join(["b"], ",") == "b";
    }
    assert StrLess("a", "b");
  }

  /** Lexicographic order on strings, as `<` compares two strings. */
  predicate StrLess(a: string, b: string)
    decreases |a|
  {
    if |b| == 0 then false
    else if |a| == 0 then true
    else if a[0] != b[0] then a[0] < b[0]
    else StrLess(a[1..], b[1..])
  }

  /** `a > b`: both sides are made primitive; two strings compare
      lexicographically, anything else as numbers (false as soon as either
      side is `NaN`). */
  predicate Greater(a: Value, b: Value) {
    var pa := ToPrimitive(a);
    var pb := ToPrimitive(b);
    if pa.Str? && pb.Str? then StrLess(pb.s, pa.s)
    else
      var x := ToNumber(pa);
      var y := ToNumber(pb);
      x.Some? && y.Some? && NumericGreater(x.value, y.value)
  }

  /** `a >= b`, by the same rules. */
  predicate GreaterOrEqual(a: Value, b: Value) {
    var pa := ToPrimitive(a);
    var pb := ToPrimitive(b);
    if pa.Str? && pb.Str? then !StrLess(pa.s, pb.s)
    else
      var x := ToNumber(pa);
      var y := ToNumber(pb);
      x.Some? && y.Some? && (x.value == y.value || NumericGreater(x.value, y.value))
  }

  /** `parseInt(s)` without a radix: leading white space is skipped and an
      optional sign read; a `0x` or `0X` prefix selects hexadecimal, otherwise
      decimal; then the longest run of digits is read, and without any the
      result is `NaN`. */
  function ParseInt(s: string): (r: Value)
    ensures r.Num? || r == NaN
  {
    var t := TrimStart(s);
    var neg := |t| > 0 && t[0] == '-';
    var rest := if |t| > 0 && (t[0] == '-' || t[0] == '+') then t[1..] else t;
    if HasHexPrefix(rest) then
      var digits := LeadingHexDigits(rest[2..]);
      if digits == "" then NaN
      else
        var m: int := HexValue(digits);
        Num(if neg then -m else m)
    else
      var digits := LeadingDigits(rest);
      if digits == "" then NaN
      else
        var m: int := DigitsValue(digits);
        Num(if neg then -m else m)
  }

  predicate HasHexPrefix(s: string) {
    |s| >= 2 && s[0] == '0' && (s[1] == 'x' || s[1] == 'X')
  }

  /** `parseInt` reads a `0x` number in base 16. */
  lemma ParseIntOfHex(h: string)
    requires h != "" && AllHexDigits(h)
    ensures ParseInt("0x" + h) == Num(HexValue(h))
  {
    var s := "0x" + h;
    assert !IsSpace(s[0]);
    assert LeadingSpace(s) == 0;
    assert TrimStart(s) == s;
    assert s[2..] == h;
    LeadingHexDigitsOfHexDigits(h);
  }

  lemma HexTenValue()
    ensures HexValue("10") == 16
  {
    assert "10"[..1] == "1" && "1"[..0] == "";
  }

  lemma HexTen()
    ensures ParseInt("0x10") == Num(16)
  {
    assert "0x10" == "0x" + "10";
    HexTenValue();
    ParseIntOfHex("10");
  }

  /** `parseInt` reads back what `String` wrote for a natural number. */
  lemma ParseIntOfRendered(n: nat)
    ensures ParseInt(NatToString(n)) == Num(n)
  {
    var s := NatToString(n);
    assert !IsSpace(s[0]);
    assert LeadingSpace(s) == 0;
    assert TrimStart(s) == s;
    assert !HasHexPrefix(s);
    LeadingDigitsOfDigits(s);
    NatToStringRoundTrip(n);
  }

  /** `parseInt` stops at the first character that is not a digit (unless
      that character turns a lone `0` into a `0x` prefix). */
  lemma ParseIntStopsAtNonDigit(n: nat, tail: string)
    requires |tail| > 0 && !IsDigit(tail[0]) && tail[0] != 'x' && tail[0] != 'X'
    ensures ParseInt(NatToString(n) + tail) == Num(n)
  {
    var d := NatToString(n);
    var s := d + tail;
    assert s[0] == d[0] && !IsSpace(s[0]);
    assert TrimStart(s) == s;
    assert !HasHexPrefix(s) by {
      if |d| == 1 { assert s[1] == tail[0]; } else { assert s[1] == d[1]; }
    }
    assert s[|d|] == tail[0];
    LeadingDigitsPrefix(d, tail);
    NatToStringRoundTrip(n);
  }

  /** The same for any integer: a rendered negative number keeps its sign. */
  lemma ParseIntOfRenderedStops(n: int, tail: string)
    requires |tail| > 0 && !IsDigit(tail[0]) && tail[0] != 'x' && tail[0] != 'X'
    ensures ParseInt(IntToString(n) + tail) == Num(n)
  {
    if n >= 0 {
      ParseIntStopsAtNonDigit(n, tail);
    } else {
      var d := NatToString(-n);
      var s := "-" + d + tail;
      assert IntToString(n) + tail == s;
      assert TrimStart(s) == s;
      assert s[1..] == d + tail;
      assert !HasHexPrefix(d + tail) by {
        if |d| == 1 { assert (d + tail)[1] == tail[0]; } else { assert (d + tail)[1] == d[1]; }
      }
      LeadingDigitsPrefix(d, tail);
      NatToStringRoundTrip(-n);
    }
  }

  lemma {:induction false} LeadingDigitsPrefix(d: string, tail: string)
    requires AllDigits(d) && |tail| > 0 && !IsDigit(tail[0])
    ensures LeadingDigits(d + tail) == d
    decreases |d|
  {
    if |d| == 0 {
      assert d + tail == tail;
    } else {
      assert (d + tail)[1..] == d[1..] + tail;
      LeadingDigitsPrefix(d[1..], tail);
      assert [d[0]] + d[1..] == d;
    }
  }
}

=== FILE: maintenance.dfy ===
/** The maintenance routes. Only creation does real work; listing, reading and
    updating are stubs whose answers are fixed. Creating and updating are
    reserved for admins and property managers. */
module Maintenance {
  import opened Wrappers
  import opened Js
  import opened Http
  import opened Store

  /** `getMaintenanceRequests`: always the empty list once signed in. */
  function ListRequests(auth: AuthResult): (r: Response)
    ensures auth.Unauthenticated? ==> r == Unauthorized(auth.message)
    ensures auth.Authenticated? ==> r.status == 200 && Field(r, "maintenance_requests") == Arr([])
  {
    match auth
    case Unauthenticated(message) => Unauthorized(message)
    case Authenticated(_) => Ok(200, map["maintenance_requests" := Arr([])])
  }

  const NotFound := "Maintenance request not found"

  /** `getMaintenanceRequestById`: always 404 once signed in. */
  function GetRequestById(auth: AuthResult): (r: Response)
    ensures auth.Unauthenticated? ==> r == Unauthorized(auth.message)
    ensures auth.Authenticated? ==> r == Error(404, NotFound)
  {
    match auth
    case Unauthenticated(message) => Unauthorized(message)
    case Authenticated(_) => Error(404, NotFound)
  }

  /** The request `createMaintenanceRequest` builds: the ids as given,
      category PLUMBING and status OPEN unless given, and an assignment time
      exactly when a vendor is given. */
  function NewRequest(body: Value, now: string): (r: Record)
    ensures r.Keys == {"inquiry_id", "property_id", "vendor_id", "category", "status", "assigned_timestamp"}
    ensures r["category"] == Or(Prop(body, "category"), Str("PLUMBING"))
    ensures r["status"] == Or(Prop(body, "status"), Str("OPEN"))
    ensures r["assigned_timestamp"] != Undefined <==> Truthy(Prop(body, "vendor_id"))
    ensures Truthy(Prop(body, "vendor_id")) ==> r["assigned_timestamp"] == Str(now)
    ensures forall k :: k in {"inquiry_id", "property_id", "vendor_id"} ==> r[k] == Prop(body, k)
  {
    map["inquiry_id" := Prop(body, "inquiry_id"), "property_id" := Prop(body, "property_id"),
        "vendor_id" := Prop(body, "vendor_id"),
        "category" := Or(Prop(body, "category"), Str("PLUMBING")),
        "status" := Or(Prop(body, "status"), Str("OPEN")),
        "assigned_timestamp" := if Truthy(Prop(body, "vendor_id")) then Str(now) else Undefined]
  }

  /** `createMaintenanceRequest`: 401; 403 unless admin or property manager;
      an unreadable body; 400 without a property id; 404 for an unknown
      property; then 201 with the new request. Nothing is stored: the
      repository call is absent. */
  function CreateRequest(auth: AuthResult, body: Value, properties: Table, now: string): (r: Response)
    ensures auth.Unauthenticated? ==> r == Unauthorized(auth.message)
    ensures r.status == 403 <==> auth.Authenticated? && !IsPropertyManager(RoleOf(auth.user))
    ensures r.status == 400 <==>
      auth.Authenticated? && IsPropertyManager(RoleOf(auth.user)) && !Nullish(body) &&
      !Truthy(Prop(body, "property_id"))
    ensures r.status == 404 <==>
      auth.Authenticated? && IsPropertyManager(RoleOf(auth.user)) && !Nullish(body) &&
      Truthy(Prop(body, "property_id")) && FindFirst(properties, "property_id", Prop(body, "property_id")).None?
    ensures r.status == 201 ==> Field(r, "maintenance_request") == Obj(NewRequest(body, now))
  {
    match auth
    case Unauthenticated(message) => Unauthorized(message)
    case Authenticated(caller) =>
      if !IsPropertyManager(RoleOf(caller)) then
        Error(403, "Only property managers can create maintenance requests")
      else if Nullish(body) then ServerError()
      else if !Truthy(Prop(body, "property_id")) then Error(400, "Property ID is required")
      else if FindFirst(properties, "property_id", Prop(body, "property_id")).None? then
        Error(404, "Property not found")
      else Ok(201, map["message" := Str("Maintenance request created successfully"),
                       "maintenance_request" := Obj(NewRequest(body, now))])
  }

  /** Every signed-in property manager with a valid body and a known property
      gets a 201. */
  lemma CreateSucceeds(caller: Value, body: Value, properties: Table, now: string)
    requires IsPropertyManager(RoleOf(caller)) && !Nullish(body) && Truthy(Prop(body, "property_id"))
    requires FindFirst(properties, "property_id", Prop(body, "property_id")).Some?
    ensures CreateRequest(Authenticated(caller), body, properties, now).status == 201
  {
  }

  /** `updateMaintenanceRequest`: 401, 403 unless admin or property manager,
      and otherwise always 404. */
  function UpdateRequest(auth: AuthResult): (r: Response)
    ensures auth.Unauthenticated? ==> r == Unauthorized(auth.message)
    ensures auth.Authenticated? && !IsPropertyManager(RoleOf(auth.user)) ==> r.status == 403
    ensures auth.Authenticated? && IsPropertyManager(RoleOf(auth.user)) ==> r == Error(404, NotFound)
  {
    match auth
    case Unauthenticated(message) => Unauthorized(message)
    case Authenticated(caller) =>
      if !IsPropertyManager(RoleOf(caller)) then
        Error(403, "Only property managers can update maintenance requests")
      else Error(404, NotFound)
  }
}

=== FILE: maintenance_list.dfy ===
/** The maintenance list screen: a free-text search over the property address
    and, when the request has one, the vendor's name; and a status and a
    category filter, applied together. */
module MaintenanceList {
  import opened Wrappers
  import opened Text
  import Seqs
  import Search

  /** The fields of a maintenance request the screen filters on; a request
      with no vendor assigned has no vendor name. Statuses and categories are
      plain strings: the screen offers `IN_PROGRESS`, which the shared record
      types do not list. */
  datatype Request = Request(id: int, propertyAddress: string, vendorName: Option<string>,
                             status: string, category: string)

  /** The search box and the two drop-downs; `""` means "all". */
  datatype Filters = Filters(search: string, status: string, category: string)

  const NoFilters := Filters("", "", "")

  /** `request.vendor_name && …includes(…)`: a missing or empty vendor name never matches. */
  predicate VendorMatches(term: string, r: Request) {
    r.vendorName.Some? && r.vendorName.value != "" && ContainsIgnoringCase(r.vendorName.value, term)
  }

  predicate MatchesSearch(term: string, r: Request) {
    term == "" || ContainsIgnoringCase(r.propertyAddress, term) || VendorMatches(term, r)
  }

  /** A request is shown iff it passes the search and both drop-downs. */
  predicate Keeps(f: Filters, r: Request) {
    MatchesSearch(f.search, r) && Search.EmptyOrEqual(f.status, r.status) &&
    Search.EmptyOrEqual(f.category, r.category)
  }

  /** `filteredRequests`: the shown requests, in the order given. */
  function Filtered(rs: seq<Request>, f: Filters): (r: seq<Request>)
    ensures Seqs.IsSubsequence(r, rs)
    ensures forall x :: x in r <==> x in rs && Keeps(f, x)
  {
    Seqs.FilterIsSubsequence(rs, x => Keeps(f, x));
    Seqs.Filter(rs, x => Keeps(f, x))
  }

  /** With every control at "all" the list is shown unchanged. */
  lemma NoFiltersKeepAll(rs: seq<Request>)
    ensures Filtered(rs, NoFilters) == rs
  {
    Seqs.FilterAll(rs, x => Keeps(NoFilters, x));
  }

  /** A request is found by searching for its vendor's name, when it has one. */
  lemma VendorFindsRequest(rs: seq<Request>, r: Request)
    requires r in rs && r.vendorName.Some? && r.vendorName.value != ""
    ensures r in Filtered(rs, Filters(r.vendorName.value, "", ""))
  {
    Search.FieldFindsItself(r.vendorName.value);
  }

  /** Without a vendor, a non-empty search shows the request only through its address. */
  lemma NoVendorSearchesAddress(rs: seq<Request>, r: Request, term: string)
    requires r in rs && r.vendorName.None? && term != ""
    ensures r in Filtered(rs, Filters(term, "", "")) <==> ContainsIgnoringCase(r.propertyAddress, term)
  {
  }

  /** `g` narrows `f`: more typed in the search, or a drop-down set where it was "all". */
  predicate Narrows(g: Filters, f: Filters) {
    Search.Refines(g.search, f.search) && Search.RefinesChoice(g.status, f.status) &&
    Search.RefinesChoice(g.category, f.category)
  }

  /** Narrowing the controls never adds a request nor reorders the list. */
  lemma NarrowingNeverAdds(rs: seq<Request>, f: Filters, g: Filters)
    requires Narrows(g, f)
    ensures Seqs.IsSubsequence(Filtered(rs, g), Filtered(rs, f))
  {
    forall i | 0 <= i < |rs| && Keeps(g, rs[i])
      ensures Keeps(f, rs[i])
    {
      if f.search != "" {
        if ContainsIgnoringCase(rs[i].propertyAddress, g.search) {
          Search.NarrowerTermMatchesLess(rs[i].propertyAddress, f.search, g.search);
        } else {
          Search.NarrowerTermMatchesLess(rs[i].vendorName.value, f.search, g.search);
        }
      }
    }
    Seqs.FilterMonotone(rs, x => Keeps(g, x), x => Keeps(f, x));
  }
}

=== FILE: matchmaking.dfy ===
/** The matchmaking screen: a client list and a property list, each with its
    own search box; one client and one property selected by radio button; a
    "create match" action; and a three-line analysis of the selected pair
    (budget, suburb, bedrooms). */
module Matchmaking {
  import opened Wrappers
  import opened Js
  import opened Text
  import Seqs
  import Search

  /** A client as the screen reads one. The budget and the preferences object
      are whatever the record holds, possibly nothing. */
  datatype Client = Client(id: nat, fullName: string, email: string, budget: Value, preferences: Value)

  /** A property as the screen reads one. */
  datatype Listing = Listing(id: nat, address: string, suburb: string, price: Value, bedrooms: Value)

  // ------------------------------------------------------------------ search

  predicate ClientMatches(term: string, c: Client) {
    term == "" || ContainsIgnoringCase(c.fullName, term) || ContainsIgnoringCase(c.email, term)
  }

  predicate ListingMatches(term: string, p: Listing) {
    term == "" || ContainsIgnoringCase(p.address, term) || ContainsIgnoringCase(p.suburb, term)
  }

  /** `filteredClients`: the clients whose name or e-mail contains the term, in order. */
  function FilteredClients(cs: seq<Client>, term: string): (r: seq<Client>)
    ensures Seqs.IsSubsequence(r, cs)
    ensures forall c :: c in r <==> c in cs && ClientMatches(term, c)
  {
    Seqs.FilterIsSubsequence(cs, c => ClientMatches(term, c));
    Seqs.Filter(cs, c => ClientMatches(term, c))
  }

  /** `filteredProperties`: the properties whose address or suburb contains the term, in order. */
  function FilteredListings(ps: seq<Listing>, term: string): (r: seq<Listing>)
    ensures Seqs.IsSubsequence(r, ps)
    ensures forall p :: p in r <==> p in ps && ListingMatches(term, p)
  {
    Seqs.FilterIsSubsequence(ps, p => ListingMatches(term, p));
    Seqs.Filter(ps, p => ListingMatches(term, p))
  }

  /** An empty search box shows its whole list. */
  lemma EmptySearchShowsAll(cs: seq<Client>, ps: seq<Listing>)
    ensures FilteredClients(cs, "") == cs
    ensures FilteredListings(ps, "") == ps
  {
    Seqs.FilterAll(cs, c => ClientMatches("", c));
    Seqs.FilterAll(ps, p => ListingMatches("", p));
  }

  /** Typing more into a search box never adds to its list. */
  lemma NarrowerSearchShowsLess(cs: seq<Client>, ps: seq<Listing>, term: string, narrower: string)
    requires Search.Refines(narrower, term)
    ensures Seqs.IsSubsequence(FilteredClients(cs, narrower), FilteredClients(cs, term))
    ensures Seqs.IsSubsequence(FilteredListings(ps, narrower), FilteredListings(ps, term))
  {
    forall i | 0 <= i < |cs| && ClientMatches(narrower, cs[i])
      ensures ClientMatches(term, cs[i])
    {
      if term != "" {
        if ContainsIgnoringCase(cs[i].fullName, narrower) {
          Search.NarrowerTermMatchesLess(cs[i].fullName, term, narrower);
        } else {
          Search.NarrowerTermMatchesLess(cs[i].email, term, narrower);
        }
      }
    }
    Seqs.FilterMonotone(cs, c => ClientMatches(narrower, c), c => ClientMatches(term, c));
    forall i | 0 <= i < |ps| && ListingMatches(narrower, ps[i])
      ensures ListingMatches(term, ps[i])
    {
      if term != "" {
        if ContainsIgnoringCase(ps[i].address, narrower) {
          Search.NarrowerTermMatchesLess(ps[i].address, term, narrower);
        } else {
          Search.NarrowerTermMatchesLess(ps[i].suburb, term, narrower);
        }
      }
    }
    Seqs.FilterMonotone(ps, p => ListingMatches(narrower, p), p => ListingMatches(term, p));
  }

  // --------------------------------------------------------------- selection

  /** `clients.find(c => c.client_id.toString() === selectedClient)`. */
  function SelectedClient(cs: seq<Client>, selected: string): (r: Option<Client>)
    ensures r.None? <==> forall i :: 0 <= i < |cs| ==> NatToString(cs[i].id) != selected
    ensures r.Some? ==> r.value in cs && NatToString(r.value.id) == selected
  {
    Seqs.Find(cs, (c: Client) => NatToString(c.id) == selected)
  }

  /** `properties.find(p => p.property_id.toString() === selectedProperty)`. */
  function SelectedListing(ps: seq<Listing>, selected: string): (r: Option<Listing>)
    ensures r.None? <==> forall i :: 0 <= i < |ps| ==> NatToString(ps[i].id) != selected
    ensures r.Some? ==> r.value in ps && NatToString(r.value.id) == selected
  {
    Seqs.Find(ps, (p: Listing) => NatToString(p.id) == selected)
  }

  lemma NatToStringInjective(a: nat, b: nat)
    requires NatToString(a) == NatToString(b)
    ensures a == b
  {
    NatToStringRoundTrip(a);
    NatToStringRoundTrip(b);
  }

  predicate DistinctClientIds(cs: seq<Client>) {
    forall i, j :: 0 <= i < |cs| && 0 <= j < |cs| && cs[i].id == cs[j].id ==> i == j
  }

  predicate DistinctListingIds(ps: seq<Listing>) {
    forall i, j :: 0 <= i < |ps| && 0 <= j < |ps| && ps[i].id == ps[j].id ==> i == j
  }

  /** Clicking a client's radio button stores `String(client_id)`, which selects
      exactly that client when ids are distinct; likewise for properties. */
  lemma RadioSelectsItsRow(cs: seq<Client>, i: int, ps: seq<Listing>, j: int)
    requires DistinctClientIds(cs) && 0 <= i < |cs|
    requires DistinctListingIds(ps) && 0 <= j < |ps|
    ensures SelectedClient(cs, NatToString(cs[i].id)) == Some(cs[i])
    ensures SelectedListing(ps, NatToString(ps[j].id)) == Some(ps[j])
  {
    var c := SelectedClient(cs, NatToString(cs[i].id));
    assert !(NatToString(cs[i].id) != NatToString(cs[i].id));
    var k :| 0 <= k < |cs| && cs[k] == c.value && NatToString(cs[k].id) == NatToString(cs[i].id);
    NatToStringInjective(cs[k].id, cs[i].id);
    var p := SelectedListing(ps, NatToString(ps[j].id));
    assert !(NatToString(ps[j].id) != NatToString(ps[j].id));
    var m :| 0 <= m < |ps| && ps[m] == p.value && NatToString(ps[m].id) == NatToString(ps[j].id);
    NatToStringInjective(ps[m].id, ps[j].id);
  }

  // ------------------------------------------------------------ create match

  /** What `handleCreateMatch` does: the `onCreateMatch` call it makes, if any,
      and the match note afterwards. */
  datatype Created = Created(call: Option<(Value, Value)>, note: string)

  /** `handleCreateMatch`: with a client and a property selected, report both
      ids (read back with `parseInt`) and clear the note; otherwise do nothing. */
  function CreateMatch(selectedClient: string, selectedListing: string, note: string): (r: Created)
    ensures r.call.Some? <==> selectedClient != "" && selectedListing != ""
    ensures r.call.None? ==> r.note == note
    ensures r.call.Some? ==> r.note == ""
  {
    if selectedClient != "" && selectedListing != "" then
      Created(Some((ParseInt(selectedClient), ParseInt(selectedListing))), "")
    else Created(None, note)
  }

  /** After selecting a client and a property by their radio buttons, creating
      the match reports exactly their two ids. */
  lemma SelectedPairIsReported(c: Client, p: Listing, note: string)
    ensures CreateMatch(NatToString(c.id), NatToString(p.id), note) == Created(Some((Num(c.id), Num(p.id))), "")
  {
    ParseIntOfRendered(c.id);
    ParseIntOfRendered(p.id);
  }

  // ---------------------------------------------------------------- analysis

  /** `property?.price && client?.budget && property.price > client.budget`. */
  predicate AboveBudget(property: Option<Listing>, client: Option<Client>) {
    property.Some? && Truthy(property.value.price) && client.Some? && Truthy(client.value.budget) &&
    Greater(property.value.price, client.value.budget)
  }

  /** For non-zero numeric price and budget the verdict is the comparison. */
  lemma BudgetVerdictOnNumbers(p: Listing, c: Client, price: int, budget: int)
    requires p.price == Num(price) && c.budget == Num(budget) && price != 0 && budget != 0
    ensures AboveBudget(Some(p), Some(c)) <==> price > budget
  {
  }

  /** A missing (or zero) price or budget, or no selection, reads as "within budget". */
  lemma MissingFigureIsWithinBudget(property: Option<Listing>, client: Option<Client>)
    requires property.None? || client.None? || !Truthy(property.value.price) || !Truthy(client.value.budget)
    ensures !AboveBudget(property, client)
  {
  }

  /** `list.includes(x)`: membership for an array (strict equality), a substring
      test for a string, and no result (the call throws) for anything else. */
  function Includes(list: Value, x: string): (r: Option<bool>)
    ensures r.Some? <==> list.Arr? || list.Str?
    ensures list.Arr? ==> r == Some(Str(x) in list.items)
    ensures list.Str? ==> r == Some(Contains(list.s, x))
  {
    match list
    case Arr(items) => Some(Str(x) in items)
    case Str(s) => Some(Contains(s, x))
    case _ => None
  }

  /** `client?.preferences?.suburbs`. */
  function PreferredSuburbs(client: Option<Client>): Value {
    if client.Some? then Prop(client.value.preferences, "suburbs") else Undefined
  }

  /** The expression `property?.suburb && client?.preferences?.suburbs &&
      !…includes(property.suburb)` on its own; `None` when it throws because
      the suburb list is a value without `includes`. */
  function OutsidePreferredSuburbs(property: Option<Listing>, client: Option<Client>): (r: Option<bool>)
    ensures r.None? <==>
      (property.Some? && property.value.suburb != "" &&
       Truthy(PreferredSuburbs(client)) && !(PreferredSuburbs(client).Arr? || PreferredSuburbs(client).Str?))
  {
    var list := PreferredSuburbs(client);
    if property.Some? && property.value.suburb != "" && Truthy(list) then
      match Includes(list, property.value.suburb)
      case None => None
      case Some(found) => Some(!found)
    else Some(false)
  }

  /** The card's "Preferred suburbs" line, `client.preferences.suburbs.join(', ')`
      under a truthy list: `None` when the list has no `join` and the card
      fails to render, the empty string when the line is not shown. */
  function SuburbsLine(client: Option<Client>): (r: Option<string>)
    ensures r.None? <==> Truthy(PreferredSuburbs(client)) && !PreferredSuburbs(client).Arr?
    ensures PreferredSuburbs(client).Arr? ==>
      r == Some("Preferred suburbs: " + JoinValues(PreferredSuburbs(client).items, ", "))
  {
    var list := PreferredSuburbs(client);
    if !Truthy(list) then Some("")
    else if list.Arr? then Some("Preferred suburbs: " + JoinValues(list.items, ", "))
    else None
  }

  /** The suburb verdict as the Create Match card shows it: the card lists the
      client's suburbs before it reaches the verdict, so any truthy suburb list
      that is not an array breaks the card, a string included. */
  function SuburbVerdictShown(property: Option<Listing>, client: Option<Client>): (r: Option<bool>)
    ensures r.None? <==> Truthy(PreferredSuburbs(client)) && !PreferredSuburbs(client).Arr?
    ensures r.Some? ==> r == OutsidePreferredSuburbs(property, client)
  {
    if SuburbsLine(client).None? then None else OutsidePreferredSuburbs(property, client)
  }

  /** A suburb list written as one string answers `includes`, but has no
      `join`: the verdict alone would render, the card does not. */
  lemma TextSuburbListBreaksCard(p: Listing, c: Client, names: string)
    requires p.suburb != "" && names != "" && Prop(c.preferences, "suburbs") == Str(names)
    ensures OutsidePreferredSuburbs(Some(p), Some(c)).Some?
    ensures SuburbVerdictShown(Some(p), Some(c)).None?
  {
  }

  /** With a list of suburb names, the verdict is "not in the list". */
  lemma SuburbVerdictOnNames(p: Listing, c: Client, names: seq<string>)
    requires p.suburb != "" && Prop(c.preferences, "suburbs") == Arr(Strs(names))
    ensures OutsidePreferredSuburbs(Some(p), Some(c)) == Some(p.suburb !in names)
  {
    if p.suburb in names {
      var i :| 0 <= i < |names| && names[i] == p.suburb;
      assert Strs(names)[i] == Str(p.suburb);
    }
  }

  /** A client without a suburb list (or no client, or a property without a
      suburb) reads as "in one of the preferred suburbs". */
  lemma MissingSuburbListIsPreferred(property: Option<Listing>, client: Option<Client>)
    requires property.None? || property.value.suburb == "" || !Truthy(PreferredSuburbs(client))
    ensures OutsidePreferredSuburbs(property, client) == Some(false)
  {
  }

  /** `client?.preferences?.bedrooms`. */
  function PreferredBedrooms(client: Option<Client>): Value {
    if client.Some? then Prop(client.value.preferences, "bedrooms") else Undefined
  }

  /** `property?.bedrooms && client?.preferences?.bedrooms && property.bedrooms < …bedrooms`. */
  predicate FewerBedrooms(property: Option<Listing>, client: Option<Client>) {
    property.Some? && Truthy(property.value.bedrooms) && Truthy(PreferredBedrooms(client)) &&
    Greater(PreferredBedrooms(client), property.value.bedrooms)
  }

  /** For non-zero numeric counts the verdict is the comparison. */
  lemma BedroomVerdictOnNumbers(p: Listing, c: Client, has: int, wants: int)
    requires p.bedrooms == Num(has) && Prop(c.preferences, "bedrooms") == Num(wants) && has != 0 && wants != 0
    ensures FewerBedrooms(Some(p), Some(c)) <==> has < wants
  {
  }

  // ------------------------------------------------------- the screen's examples

  lemma HeldWithin(field: string, before: string, term: string, after: string)
    requires field == before + term + after
    ensures ContainsIgnoringCase(field, term)
  {
    Search.MiddleMatches(before, term, after);
  }

  lemma OnlySecondClientShown(a: Client, b: Client, term: string)
    requires !ClientMatches(term, a) && ClientMatches(term, b)
    ensures FilteredClients([a, b], term) == [b]
  {
    assert [a, b][1..] == [b];
  }

  lemma OnlySecondListingShown(a: Listing, b: Listing, term: string)
    requires !ListingMatches(term, a) && ListingMatches(term, b)
    ensures FilteredListings([a, b], term) == [b]
  {
    assert [a, b][1..] == [b];
  }

  function SampleClients(): seq<Client> {
    [Client(1, "John Doe", "john@example.com", Num(1000000),
            Obj(map["bedrooms" := Num(3), "bathrooms" := Num(2), "suburbs" := Arr([Str("Bondi"), Str("Surry Hills")])])),
     Client(2, "Jane Smith", "jane@example.com", Num(800000),
            Obj(map["bedrooms" := Num(2), "bathrooms" := Num(1), "suburbs" := Arr([Str("Paddington"), Str("Newtown")])]))]
  }

  function SampleListings(): seq<Listing> {
    [Listing(1, "123 Main St", "Bondi", Num(950000), Num(3)),
     Listing(2, "456 Park Ave", "Paddington", Num(850000), Num(2))]
  }

  lemma JohnDoeNameLacksJane()
    ensures !ContainsIgnoringCase(SampleClients()[0].fullName, "Jane")
  {
    Search.PairMissing(SampleClients()[0].fullName, "Jane", 0);
  }

  lemma JohnDoeEmailLacksJane()
    ensures !ContainsIgnoringCase(SampleClients()[0].email, "Jane")
  {
    Search.PairMissing(SampleClients()[0].email, "Jane", 0);
  }

  lemma JaneSmithHasJane()
    ensures ContainsIgnoringCase(SampleClients()[1].fullName, "Jane")
  {
    HeldWithin(SampleClients()[1].fullName, "", "Jane", " Smith");
  }

  lemma JohnDoeLacksJane()
    ensures !ClientMatches("Jane", SampleClients()[0])
  {
    JohnDoeNameLacksJane();
    JohnDoeEmailLacksJane();
  }

  /** Searching the clients for "Jane" shows only Jane Smith. */
  lemma SearchJane()
    ensures FilteredClients(SampleClients(), "Jane") == [SampleClients()[1]]
  {
    JohnDoeLacksJane();
    JaneSmithHasJane();
    OnlySecondClientShown(SampleClients()[0], SampleClients()[1], "Jane");
  }

  lemma MainStreetAddressLacksP()
    ensures !ContainsIgnoringCase(SampleListings()[0].address, "Park")
  {
    Search.LetterMissing(SampleListings()[0].address, "Park", 0);
  }

  lemma BondiLacksP()
    ensures !ContainsIgnoringCase(SampleListings()[0].suburb, "Park")
  {
    Search.LetterMissing(SampleListings()[0].suburb, "Park", 0);
  }

  lemma ParkAvenueHasPark()
    ensures ContainsIgnoringCase(SampleListings()[1].address, "Park")
  {
    HeldWithin(SampleListings()[1].address, "456 ", "Park", " Ave");
  }

  lemma MainStreetLacksPark()
    ensures !ListingMatches("Park", SampleListings()[0])
  {
    MainStreetAddressLacksP();
    BondiLacksP();
  }

  /** Searching the properties for "Park" shows only 456 Park Ave. */
  lemma SearchPark()
    ensures FilteredListings(SampleListings(), "Park") == [SampleListings()[1]]
  {
    MainStreetLacksPark();
    ParkAvenueHasPark();
    OnlySecondListingShown(SampleListings()[0], SampleListings()[1], "Park");
  }

  /** 123 Main St at 950,000 is within John Doe's budget of 1,000,000. */
  lemma MainStreetWithinJohnsBudget()
    ensures !AboveBudget(Some(SampleListings()[0]), Some(SampleClients()[0]))
  {
    BudgetVerdictOnNumbers(SampleListings()[0], SampleClients()[0], 950000, 1000000);
  }

  /** Selecting the first client and the first property and creating the match reports (1, 1). */
  lemma FirstRadiosReportOneOne()
    ensures CreateMatch(NatToString(SampleClients()[0].id), NatToString(SampleListings()[0].id), "") ==
      Created(Some((Num(1), Num(1))), "")
  {
    SelectedPairIsReported(SampleClients()[0], SampleListings()[0], "");
  }
}

=== FILE: merge.dfy ===
/** The partial-update merge the update handlers share: the stored row is
    spread, then each updatable field is taken from the request body or kept.
    Two fallback rules are in use, and they differ exactly on the falsy values
    other than `undefined`. */
module Merge {
  import opened Js

  /** `body.k || existing.k` keeps the stored value for every falsy input;
      `body.k !== undefined ? body.k : existing.k` only for a missing one. */
  datatype Rule = KeepOnFalsy | KeepOnUndefined

  function Pick(rule: Rule, given: Value, stored: Value): (v: Value)
    ensures v == given || v == stored
    ensures rule == KeepOnFalsy ==> (v == given <==> Truthy(given) || given == stored)
    ensures rule == KeepOnUndefined ==> (v == given <==> given != Undefined || given == stored)
  {
    match rule
    case KeepOnFalsy => Or(given, stored)
    case KeepOnUndefined => IfDefined(given, stored)
  }

  /** `{ ...existing, k: pick(body.k, existing.k) }` for every field `k` that
      has a rule. */
  function Apply(existing: Record, body: Value, rules: map<string, Rule>): (r: Record)
    ensures r.Keys == existing.Keys + rules.Keys
    ensures forall k :: k in existing && k !in rules ==> r[k] == existing[k]
    ensures forall k :: k in rules ==> r[k] == Pick(rules[k], Prop(body, k), Get(existing, k))
  {
    map k | k in existing.Keys + rules.Keys ::
      if k in rules then Pick(rules[k], Prop(body, k), Get(existing, k)) else existing[k]
  }

  /** A field outside the rules is never touched, whatever the body says. */
  lemma OtherFieldsUnchanged(existing: Record, body: Value, rules: map<string, Rule>, k: string)
    requires k !in rules
    ensures Get(Apply(existing, body, rules), k) == Get(existing, k)
  {
  }

  /** A body that mentions none of the fields changes nothing that can be read. */
  lemma EmptyBodyKeepsAll(existing: Record, body: Value, rules: map<string, Rule>, k: string)
    requires forall f :: f in rules ==> Prop(body, f) == Undefined
    ensures Get(Apply(existing, body, rules), k) == Get(existing, k)
  {
  }

  /** Applying the same update twice is applying it once. */
  lemma ApplyIdempotent(existing: Record, body: Value, rules: map<string, Rule>)
    ensures Apply(Apply(existing, body, rules), body, rules) == Apply(existing, body, rules)
  {
    var once := Apply(existing, body, rules);
    var twice := Apply(once, body, rules);
    assert twice.Keys == once.Keys;
    forall k | k in once.Keys
      ensures twice[k] == once[k]
    {
      if k in rules {
        assert Get(once, k) == once[k];
      }
    }
  }

  /** A truthy value in the body always wins, under either rule. */
  lemma TruthyInputWins(existing: Record, body: Value, rules: map<string, Rule>, k: string)
    requires k in rules && Truthy(Prop(body, k))
    ensures Get(Apply(existing, body, rules), k) == Prop(body, k)
  {
  }

  /** The two rules disagree exactly when the input is falsy but present, and
      differs from the stored value: `0`, `""`, `false`, `null` and `NaN`
      overwrite under one rule and are ignored under the other. */
  lemma RulesDiffer(given: Value, stored: Value)
    ensures Pick(KeepOnFalsy, given, stored) != Pick(KeepOnUndefined, given, stored) <==>
      !Truthy(given) && given != Undefined && given != stored
  {
  }
}

=== FILE: page.dfy ===
/** The dashboard page's state transitions: the social feed (like, comment,
    post), the maintenance and property mock records (status, vendor, edits),
    navigation between views, and what using a bot's response does. */
module Page {
  import opened Wrappers
  import opened Js
  import opened Text
  import Seqs
  import Social

  // ------------------------------------------------------------------ social

  datatype Comment = Comment(author: string, content: string, date: string)

  /** A feed post; `imageUrl` is `None` for `null`. */
  datatype Post = Post(id: int, author: string, date: string, content: string, imageUrl: Option<string>,
                       likes: int, liked: bool, comments: seq<Comment>)

  /** The post as the like button leaves it. */
  function Toggled(p: Post): (q: Post)
    ensures q.liked == !p.liked
    ensures q.likes == (if p.liked then p.likes - 1 else p.likes + 1)
    ensures q.(liked := p.liked, likes := p.likes) == p
  {
    p.(liked := !p.liked, likes := if p.liked then p.likes - 1 else p.likes + 1)
  }

  /** `handleLikePost`: every post with the id is toggled, the others are kept. */
  function LikePost(posts: seq<Post>, id: int): (r: seq<Post>)
    ensures |r| == |posts|
    ensures forall i :: 0 <= i < |posts| && posts[i].id == id ==> r[i] == Toggled(posts[i])
    ensures forall i :: 0 <= i < |posts| && posts[i].id != id ==> r[i] == posts[i]
  {
    seq(|posts|, i requires 0 <= i < |posts| => if posts[i].id == id then Toggled(posts[i]) else posts[i])
  }

  /** Liking twice restores the feed. */
  lemma LikeTwiceRestores(posts: seq<Post>, id: int)
    ensures LikePost(LikePost(posts, id), id) == posts
  {
  }

  /** The count without one's own like is unchanged by liking: the count moves
      with the `liked` flag, by exactly one. */
  lemma LikeKeepsOthersCount(posts: seq<Post>, id: int)
    ensures forall i :: 0 <= i < |posts| ==>
      LikePost(posts, id)[i].likes - (if LikePost(posts, id)[i].liked then 1 else 0) ==
      posts[i].likes - (if posts[i].liked then 1 else 0)
  {
  }

  /** `handleCommentPost`: one comment by "You" appended to every post with the
      id; nothing else changes. */
  function CommentPost(posts: seq<Post>, id: int, content: string, date: string): (r: seq<Post>)
    ensures |r| == |posts|
    ensures forall i :: 0 <= i < |posts| && posts[i].id != id ==> r[i] == posts[i]
    ensures forall i :: 0 <= i < |posts| && posts[i].id == id ==>
      r[i].(comments := posts[i].comments) == posts[i] &&
      |r[i].comments| == |posts[i].comments| + 1 &&
      r[i].comments[..|posts[i].comments|] == posts[i].comments &&
      r[i].comments[|posts[i].comments|] == Comment("You", content, date)
  {
    var c := Comment("You", content, date);
    var r := seq(|posts|, i requires 0 <= i < |posts| =>
      if posts[i].id == id then posts[i].(comments := posts[i].comments + [c]) else posts[i]);
    assert forall i :: 0 <= i < |posts| && posts[i].id == id ==>
      (posts[i].comments + [c])[..|posts[i].comments|] == posts[i].comments;
    r
  }

  /** Commenting adds exactly one comment to the feed when post ids are distinct
      and the id is present. */
  lemma CommentAddsOne(posts: seq<Post>, id: int, content: string, date: string, j: int)
    requires 0 <= j < |posts| && posts[j].id == id
    requires forall i :: 0 <= i < |posts| && i != j ==> posts[i].id != id
    ensures CommentPost(posts, id, content, date)[..j] == posts[..j]
    ensures CommentPost(posts, id, content, date)[j + 1..] == posts[j + 1..]
    ensures CommentPost(posts, id, content, date)[j].comments == posts[j].comments + [Comment("You", content, date)]
  {
    var r := CommentPost(posts, id, content, date);
    assert r[j].comments == r[j].comments[..|posts[j].comments|] + [r[j].comments[|posts[j].comments|]];
  }

  /** `handleCreatePost`: a new post by "You" with no likes and no comments,
      numbered one past the current count, goes in front. The date and the
      image's object URL come from the browser. */
  function CreatePost(posts: seq<Post>, content: string, image: Option<Social.Image>, date: string,
                      objectUrl: Social.Image -> string): (r: seq<Post>)
    ensures |r| == |posts| + 1 && r[1..] == posts
    ensures r[0].id == |posts| + 1 && r[0].author == "You" && r[0].content == content && r[0].date == date
    ensures r[0].likes == 0 && !r[0].liked && r[0].comments == []
    ensures r[0].imageUrl.Some? <==> image.Some?
  {
    var url := if image.Some? then Some(objectUrl(image.value)) else None;
    [Post(|posts| + 1, "You", date, content, url, 0, false, [])] + posts
  }

  function PostIds(posts: seq<Post>): set<int> {
    set i | 0 <= i < |posts| :: posts[i].id
  }

  /** The ids are exactly 1..n. */
  ghost predicate NumberedUpTo(ids: set<int>, n: nat) {
    forall k :: k in ids <==> 1 <= k <= n
  }

  /** Numbering by count stays collision-free as long as the feed is numbered
      1..n, as the page's initial feed is; creating a post keeps it so. */
  lemma CreateKeepsNumbering(posts: seq<Post>, content: string, image: Option<Social.Image>, date: string,
                             objectUrl: Social.Image -> string)
    requires NumberedUpTo(PostIds(posts), |posts|)
    ensures NumberedUpTo(PostIds(CreatePost(posts, content, image, date, objectUrl)), |posts| + 1)
    ensures |posts| + 1 !in PostIds(posts)
  {
    var r := CreatePost(posts, content, image, date, objectUrl);
    forall k | 1 <= k <= |posts| + 1
      ensures k in PostIds(r)
    {
      if k == |posts| + 1 {
        assert r[0].id == k;
      } else {
        assert k in PostIds(posts);
        var i :| 0 <= i < |posts| && posts[i].id == k;
        assert r[i + 1] == posts[i];
      }
    }
    forall k | k in PostIds(r)
      ensures 1 <= k <= |posts| + 1
    {
      var i :| 0 <= i < |r| && r[i].id == k;
      if i > 0 {
        assert r[i] == posts[i - 1];
        assert k in PostIds(posts);
      }
    }
  }

  // --------------------------------------------------------- records by id

  /** `record.<column> === id`. */
  predicate HasId(row: Record, column: string, id: int) {
    StrictEquals(Get(row, column), Num(id))
  }

  /** `handleUpdateRequestStatus`: every request with the id gets the status. */
  function UpdateRequestStatus(requests: seq<Record>, id: int, status: string): (r: seq<Record>)
    ensures |r| == |requests|
    ensures forall i :: 0 <= i < |requests| && !HasId(requests[i], "request_id", id) ==> r[i] == requests[i]
    ensures forall i :: 0 <= i < |requests| && HasId(requests[i], "request_id", id) ==>
      Get(r[i], "status") == Str(status) && r[i].Keys == requests[i].Keys + {"status"} &&
      forall k :: k in requests[i] && k != "status" ==> r[i][k] == requests[i][k]
  {
    seq(|requests|, i requires 0 <= i < |requests| =>
      if HasId(requests[i], "request_id", id) then requests[i]["status" := Str(status)] else requests[i])
  }

  /** The last status set on a request is the one it keeps. */
  lemma LastStatusWins(requests: seq<Record>, id: int, s1: string, s2: string)
    ensures UpdateRequestStatus(UpdateRequestStatus(requests, id, s1), id, s2) == UpdateRequestStatus(requests, id, s2)
  {
    var a := UpdateRequestStatus(UpdateRequestStatus(requests, id, s1), id, s2);
    var b := UpdateRequestStatus(requests, id, s2);
    forall i | 0 <= i < |requests|
      ensures a[i] == b[i]
    {
      if HasId(requests[i], "request_id", id) {
        assert a[i] == requests[i]["status" := Str(s1)]["status" := Str(s2)];
      }
    }
  }

  /** `{...property, ...data}` when the property has the id: the data's fields
      win, every other field is kept. */
  function UpdateProperty(properties: seq<Record>, id: int, data: Record): (r: seq<Record>)
    ensures |r| == |properties|
    ensures forall i :: 0 <= i < |properties| && !HasId(properties[i], "property_id", id) ==> r[i] == properties[i]
    ensures forall i :: 0 <= i < |properties| && HasId(properties[i], "property_id", id) ==>
      r[i].Keys == properties[i].Keys + data.Keys &&
      (forall k :: k in data ==> r[i][k] == data[k]) &&
      (forall k :: k in properties[i] && k !in data ==> r[i][k] == properties[i][k])
  {
    seq(|properties|, i requires 0 <= i < |properties| =>
      if HasId(properties[i], "property_id", id) then properties[i] + data else properties[i])
  }

  /** Applying the same edit twice is applying it once, as long as the edit
      does not renumber the property. */
  lemma UpdatePropertyIdempotent(properties: seq<Record>, id: int, data: Record)
    requires "property_id" !in data
    ensures UpdateProperty(UpdateProperty(properties, id, data), id, data) == UpdateProperty(properties, id, data)
  {
    var once := UpdateProperty(properties, id, data);
    forall i | 0 <= i < |properties|
      ensures UpdateProperty(once, id, data)[i] == once[i]
    {
      if HasId(properties[i], "property_id", id) {
        assert Get(once[i], "property_id") == Get(properties[i], "property_id");
        assert once[i] + data == once[i];
      }
    }
  }

  /** `vendor?.<key>`. */
  function VendorField(vendor: Option<Record>, key: string): Value {
    if vendor.Some? then Get(vendor.value, key) else Undefined
  }

  /** `vendors.find(v => v.vendor_id === vendorId)`. */
  function FindVendor(vendors: seq<Record>, vendorId: int): Option<Record> {
    Seqs.Find(vendors, (v: Record) => HasId(v, "vendor_id", vendorId))
  }

  /** A request with a vendor assigned: the vendor's id, and the given
      vendor's name, phone and e-mail (`undefined` without one); every other
      field kept. */
  function Assigned(row: Record, vendor: Option<Record>, vendorId: int): (r: Record)
    ensures Get(r, "vendor_id") == Num(vendorId)
    ensures Get(r, "vendor_name") == VendorField(vendor, "name")
    ensures Get(r, "vendor_phone") == VendorField(vendor, "phone")
    ensures Get(r, "vendor_email") == VendorField(vendor, "email")
    ensures forall k :: k !in {"vendor_id", "vendor_name", "vendor_phone", "vendor_email"} ==> Get(r, k) == Get(row, k)
  {
    row["vendor_id" := Num(vendorId)]["vendor_name" := VendorField(vendor, "name")]
       ["vendor_phone" := VendorField(vendor, "phone")]["vendor_email" := VendorField(vendor, "email")]
  }

  /** `handleAssignVendor`: the request with the id gets the first vendor with
      the vendor id (if any); the other requests are kept. */
  function AssignVendor(requests: seq<Record>, vendors: seq<Record>, id: int, vendorId: int): (r: seq<Record>)
    ensures |r| == |requests|
    ensures forall i :: 0 <= i < |requests| && !HasId(requests[i], "request_id", id) ==> r[i] == requests[i]
    ensures forall i :: 0 <= i < |requests| && HasId(requests[i], "request_id", id) ==>
      r[i] == Assigned(requests[i], FindVendor(vendors, vendorId), vendorId)
  {
    var vendor := FindVendor(vendors, vendorId);
    seq(|requests|, i requires 0 <= i < |requests| =>
      if HasId(requests[i], "request_id", id) then Assigned(requests[i], vendor, vendorId) else requests[i])
  }

  /** With distinct vendor ids, the assigned contact details are those of the
      chosen vendor. */
  lemma AssignedVendorDetails(requests: seq<Record>, vendors: seq<Record>, id: int, j: int, i: int)
    requires 0 <= j < |vendors| && Get(vendors[j], "vendor_id").Num?
    requires forall a :: 0 <= a < |vendors| && a != j ==> Get(vendors[a], "vendor_id") != Get(vendors[j], "vendor_id")
    requires 0 <= i < |requests| && HasId(requests[i], "request_id", id)
    ensures var row := AssignVendor(requests, vendors, id, Get(vendors[j], "vendor_id").n)[i];
      Get(row, "vendor_name") == Get(vendors[j], "name") && Get(row, "vendor_phone") == Get(vendors[j], "phone") &&
      Get(row, "vendor_email") == Get(vendors[j], "email")
  {
    var v := FindVendor(vendors, Get(vendors[j], "vendor_id").n);
    assert HasId(vendors[j], "vendor_id", Get(vendors[j], "vendor_id").n);
    var k :| 0 <= k < |vendors| && vendors[k] == v.value && HasId(vendors[k], "vendor_id", Get(vendors[j], "vendor_id").n);
    assert k == j;
  }

  /** An unknown vendor id still sets `vendor_id`, and blanks the contact details. */
  lemma UnknownVendorBlanksDetails(requests: seq<Record>, vendors: seq<Record>, id: int, vendorId: int, i: int)
    requires forall a :: 0 <= a < |vendors| ==> Get(vendors[a], "vendor_id") != Num(vendorId)
    requires 0 <= i < |requests| && HasId(requests[i], "request_id", id)
    ensures var row := AssignVendor(requests, vendors, id, vendorId)[i];
      Get(row, "vendor_id") == Num(vendorId) && Get(row, "vendor_name") == Undefined &&
      Get(row, "vendor_phone") == Undefined && Get(row, "vendor_email") == Undefined
  {
  }

  // -------------------------------------------------------------- navigation

  /** The page's view and selected item: `null`, a number, or `NaN` when the
      address bar's id did not parse. */
  datatype View = View(name: string, selected: Value)

  /** A view change and the address it pushes. */
  datatype Navigation = Navigation(view: View, url: string)

  /** `handleViewChange`: switch view, select the id if one is given and clear
      the selection otherwise, and push `/?view=…[&id=…]`. */
  function ViewChange(name: string, id: Option<int>): (n: Navigation)
    ensures n.view.name == name
    ensures n.view.selected == (if id.Some? then Num(id.value) else Null)
    ensures IsPrefix("/?view=" + name, n.url)
    ensures id.None? ==> n.url == "/?view=" + name
    ensures id.Some? ==> n.url == "/?view=" + name + "&id=" + IntToString(id.value)
  {
    if id.Some? then Navigation(View(name, Num(id.value)), "/?view=" + name + "&id=" + IntToString(id.value))
    else Navigation(View(name, Null), "/?view=" + name)
  }

  /** The navigation effect as written: `const { view, id } = router.query`.
      Destructuring a `null` or `undefined` query throws (`None`); otherwise a
      truthy `view` switches the view and a truthy `id` is read with `parseInt`. */
  function QueryEffectAsWritten(v: View, router: Value): (r: Option<View>)
    ensures r.None? <==> Nullish(Prop(router, "query"))
    ensures r.Some? && Truthy(Prop(Prop(router, "query"), "view")) ==>
      r.value.name == ToDisplay(Prop(Prop(router, "query"), "view"))
    ensures r.Some? && Truthy(Prop(Prop(router, "query"), "id")) ==>
      r.value.selected == ParseInt(ToDisplay(Prop(Prop(router, "query"), "id")))
    ensures r.Some? && !Truthy(Prop(Prop(router, "query"), "view")) ==> r.value.name == v.name
    ensures r.Some? && !Truthy(Prop(Prop(router, "query"), "id")) ==> r.value.selected == v.selected
  {
    var query := Prop(router, "query");
    if Nullish(query) then None
    else
      var view := Prop(query, "view");
      var id := Prop(query, "id");
      var named := if Truthy(view) then v.(name := ToDisplay(view)) else v;
      Some(if Truthy(id) then named.(selected := ParseInt(ToDisplay(id))) else named)
  }

  /** The defect: the page takes its router from `next/navigation`, whose
      router object has methods (`push`, `replace`, `refresh`, `back`,
      `forward`, `prefetch`) but no `query`; reading the query from it throws
      as soon as the page mounts, whatever the view. */
  lemma MountThrows(v: View, router: Value)
    requires router.Obj? && "query" !in router.fields
    ensures QueryEffectAsWritten(v, router).None?
  {
  }

  /** `URLSearchParams.get(key)` over `k=v` pairs: the value of the first pair
      named `key` (everything after its first `=`), or nothing. */
  function PairValue(pairs: seq<string>, key: string): (r: Option<string>)
    ensures r.Some? <==> exists i :: 0 <= i < |pairs| && Split(pairs[i], '=')[0] == key
    ensures r.Some? ==>
      exists i :: 0 <= i < |pairs| && Split(pairs[i], '=')[0] == key && r.value == Join(Split(pairs[i], '=')[1..], "=") &&
        forall j :: 0 <= j < i ==> Split(pairs[j], '=')[0] != key
    decreases |pairs|
  {
    if |pairs| == 0 then None
    else
      var parts := Split(pairs[0], '=');
      if parts[0] == key then Some(Join(parts[1..], "="))
      else
        var r := PairValue(pairs[1..], key);
        assert forall i :: 1 <= i < |pairs| ==> pairs[i] == pairs[1..][i - 1];
        r
  }

  /** A query parameter of an address `/?k=v&k=v…`, as the page's search
      parameters give it; percent-escapes are not decoded. */
  function QueryParam(url: string, key: string): (r: Option<string>)
    ensures !IsPrefix("/?", url) ==> r.None?
    ensures IsPrefix("/?", url) ==> r == PairValue(Split(url[2..], '&'), key)
  {
    if IsPrefix("/?", url) then PairValue(Split(url[2..], '&'), key) else None
  }

  /** The intended effect of the address's `view` and `id` parameters: a
      non-empty `view` switches the view, a non-empty `id` is read with
      `parseInt`; absent or empty ones change nothing. */
  function QueryEffect(v: View, view: Option<string>, id: Option<string>): (r: View)
    ensures view.Some? && view.value != "" ==> r.name == view.value
    ensures !(view.Some? && view.value != "") ==> r.name == v.name
    ensures id.Some? && id.value != "" ==> r.selected == ParseInt(id.value)
    ensures !(id.Some? && id.value != "") ==> r.selected == v.selected
  {
    var named := if view.Some? && view.value != "" then v.(name := view.value) else v;
    if id.Some? && id.value != "" then named.(selected := ParseInt(id.value)) else named
  }

  /** A `k=v` pair splits back into its name and value. */
  lemma PairSplits(k: string, v: string)
    requires '=' !in k && '=' !in v
    ensures Split(k + "=" + v, '=') == [k, v]
    ensures Join(Split(k + "=" + v, '=')[1..], "=") == v
  {
    assert Join([k, v], "=") == k + "=" + v;
    SplitJoined([k, v], '=');
    assert [k, v][1..] == [v];
  }

  /** The pairs of the address a view change with an id pushes. */
  lemma PushedPairs(name: string, d: string)
    requires '&' !in name && '=' !in name && AllDigits(d)
    ensures var url := "/?view=" + name + "&id=" + d;
      IsPrefix("/?", url) && Split(url[2..], '&') == ["view=" + name, "id=" + d]
  {
    var url := "/?view=" + name + "&id=" + d;
    var a, b := "view=" + name, "id=" + d;
    assert url == "/?" + (a + "&" + b);
    assert url[2..] == a + "&" + b;
    assert Join([a, b], "&") == a + "&" + b;
    assert '&' !in a by {
      forall i | 0 <= i < |a| ensures a[i] != '&' {
        if i >= 5 { assert a[i] == name[i - 5]; }
      }
    }
    assert '&' !in b by {
      forall i | 0 <= i < |b| ensures b[i] != '&' {
        if i >= 3 { assert b[i] == d[i - 3]; }
      }
    }
    SplitJoined([a, b], '&');
  }

  /** Reading back the address a view change with an id pushed (a view name
      free of `&` and `=`, a non-negative id) leaves the page where the view
      change put it. */
  lemma ReadBackWithId(name: string, id: nat)
    requires name != "" && '&' !in name && '=' !in name
    ensures var n := ViewChange(name, Some(id));
      QueryEffect(n.view, QueryParam(n.url, "view"), QueryParam(n.url, "id")) == n.view
  {
    var n := ViewChange(name, Some(id));
    var d := NatToString(id);
    assert IntToString(id) == d;
    PushedPairs(name, d);
    var pairs := Split(n.url[2..], '&');
    assert '=' !in d by {
      forall i | 0 <= i < |d| ensures d[i] != '=' { assert IsDigit(d[i]); }
    }
    assert "view=" + name == "view" + "=" + name;
    assert "id=" + d == "id" + "=" + d;
    PairSplits("view", name);
    PairSplits("id", d);
    assert Split(pairs[0], '=')[0] == "view";
    assert PairValue(pairs, "view") == Some(name);
    assert pairs[1..] == ["id=" + d];
    assert Split(pairs[1..][0], '=')[0] == "id";
    assert PairValue(pairs[1..], "id") == Some(d);
    assert "view" != "id" by { assert |"view"| != |"id"|; }
    assert PairValue(pairs, "id") == Some(d);
    ParseIntOfRendered(id);
  }

  /** Reading back the address a view change without an id pushed switches to
      that view and keeps the cleared selection. */
  lemma ReadBackWithoutId(name: string)
    requires name != "" && '&' !in name && '=' !in name
    ensures var n := ViewChange(name, None);
      QueryEffect(n.view, QueryParam(n.url, "view"), QueryParam(n.url, "id")) == n.view
  {
    var n := ViewChange(name, None);
    var a := "view=" + name;
    assert n.url == "/?" + a && n.url[2..] == a;
    assert '&' !in a by {
      forall i | 0 <= i < |a| ensures a[i] != '&' {
        if i >= 5 { assert a[i] == name[i - 5]; }
      }
    }
    SplitNoSeparator(a, '&');
    assert a == "view" + "=" + name;
    PairSplits("view", name);
    assert Split(a, '=')[0] == "view";
    assert PairValue([a], "view") == Some(name);
    assert "view" != "id" by { assert |"view"| != |"id"|; }
    assert PairValue([a], "id") == None;
  }

  // -------------------------------------------------------------- bot usage

  /** What using a bot's response does: nothing, a navigation (possibly after
      editing a property), or a `TypeError` when the description is missing. */
  datatype Used = Stays | Goes(nav: Navigation, properties: seq<Record>) | Throws

  /** `response.description.description_text`, or `None` when that throws. */
  function DescriptionText(response: Value): (r: Option<Value>)
    ensures r.None? <==> Nullish(response) || Nullish(Prop(response, "description"))
  {
    if Nullish(response) || Nullish(Prop(response, "description")) then None
    else Some(Prop(Prop(response, "description"), "description_text"))
  }

  /** `handleUseBotResponse`. The selection is `null`, a number or `NaN`, so
      "truthy" is "a non-zero number". */
  function UseBotResponse(v: View, properties: seq<Record>, response: Value): (r: Used)
    ensures v.name in {"bot-sales", "bot-lease"} ==> r == Goes(ViewChange("inquiries", None), properties)
    ensures v.name == "bot-case-study" ==> r == Goes(ViewChange("matchmaking", None), properties)
    ensures v.name == "bot-description" && !Truthy(v.selected) ==> r == Goes(ViewChange("properties", None), properties)
    ensures v.name !in {"bot-sales", "bot-lease", "bot-case-study", "bot-description"} ==> r == Stays
    ensures r.Throws? <==>
      (v.name == "bot-description" && Truthy(v.selected) && v.selected.Num? && DescriptionText(response).None?)
  {
    if v.name == "bot-sales" || v.name == "bot-lease" then Goes(ViewChange("inquiries", None), properties)
    else if v.name == "bot-case-study" then Goes(ViewChange("matchmaking", None), properties)
    else if v.name == "bot-description" then
      if Truthy(v.selected) && v.selected.Num? then
        match DescriptionText(response)
        case None => Throws
        case Some(text) =>
          Goes(ViewChange("property-detail", Some(v.selected.n)),
               UpdateProperty(properties, v.selected.n, map["description" := text]))
      else Goes(ViewChange("properties", None), properties)
    else Stays
  }

  /** Using a description for a selected property opens that property, whose
      description is now the generated text; the other properties are untouched. */
  lemma DescriptionOpensUpdatedProperty(n: int, properties: seq<Record>, response: Value, i: int)
    requires n != 0 && DescriptionText(response).Some?
    requires 0 <= i < |properties|
    ensures var r := UseBotResponse(View("bot-description", Num(n)), properties, response);
      r.Goes? && r.nav.view == View("property-detail", Num(n)) &&
      (HasId(properties[i], "property_id", n) ==> Get(r.properties[i], "description") == DescriptionText(response).value) &&
      (!HasId(properties[i], "property_id", n) ==> r.properties[i] == properties[i])
  {
  }

  /** Property 0 is never updated this way: a selected id of 0 is falsy, and
      the page goes back to the property list. */
  lemma SelectedZeroGoesToList(properties: seq<Record>, response: Value)
    ensures UseBotResponse(View("bot-description", Num(0)), properties, response) ==
      Goes(ViewChange("properties", None), properties)
  {
  }
}

=== FILE: properties.dfy ===
/** The property routes: listing (scoped by role, filtered by status and
    suburb), reading, creating and updating properties, and recording a new
    description for one. Admins act on any property; everyone else only on the
    properties they listed. */
module Properties {
  import opened Wrappers
  import opened Js
  import opened Text
  import opened Http
  import opened Store
  import Seqs
  import Merge
  import Access

  // ----------------------------------------------------------------- listing

  /** The suburb test `property.suburb.toLowerCase().includes(term.toLowerCase())`. */
  predicate InSuburb(row: Record, term: string) {
    Get(row, "suburb").Str? && ContainsIgnoringCase(Get(row, "suburb").s, term)
  }

  /** The rows before the suburb filter: a non-admin's own listings with the
      status asked for, or, for an admin, the rows with the status asked for. */
  predicate Scoped(caller: Value, status: Option<string>, row: Record) {
    (if IsAdmin(RoleOf(caller)) then Given(status)
     else SqlEquals(Get(row, "listed_by_user_id"), IdOf(caller))) &&
    (Given(status) ==> Get(row, "status") == Str(status.value))
  }

  /** Which properties the listing is meant to return. An admin who gives no
      status sees none. */
  predicate Listed(caller: Value, status: Option<string>, suburb: Option<string>, row: Record) {
    Scoped(caller, status, row) && (Given(suburb) ==> InSuburb(row, suburb.value))
  }

  /** The suburb filter over `rows`; it fails (the handler throws) as soon as
      one of them has a suburb that is not a string. */
  function SuburbFilter(rows: Table, term: string): (r: Option<Table>)
    ensures r.None? <==> exists i :: 0 <= i < |rows| && !Get(rows[i], "suburb").Str?
    ensures r.Some? ==> Seqs.IsSubsequence(r.value, rows)
    ensures r.Some? ==> forall row :: row in r.value <==> row in rows && InSuburb(row, term)
  {
    if forall i :: 0 <= i < |rows| ==> Get(rows[i], "suburb").Str? then
      Seqs.FilterIsSubsequence(rows, row => InSuburb(row, term));
      Some(Seqs.Filter(rows, row => InSuburb(row, term)))
    else None
  }

  /** The rows `getProperties` scans before the suburb filter. */
  function Candidates(caller: Value, status: Option<string>, properties: Table): (rows: Table)
    ensures Seqs.IsSubsequence(rows, properties)
    ensures forall row :: row in rows <==> row in properties && Scoped(caller, status, row)
  {
    if IsAdmin(RoleOf(caller)) then
      if Given(status) then Where(properties, "status", Str(status.value))
      else []
    else
      var own := Where(properties, "listed_by_user_id", IdOf(caller));
      if Given(status) then
        var p := (row: Record) => StrictEquals(Get(row, "status"), Str(status.value));
        Seqs.FilterIsSubsequence(own, p);
        Seqs.SubsequenceTransitive(Seqs.Filter(own, p), own, properties);
        Seqs.Filter(own, p)
      else own
  }

  /** The listing: the candidates, then the suburb filter when a suburb is given. */
  function Listing(caller: Value, status: Option<string>, suburb: Option<string>, properties: Table): (r: Option<Table>)
    ensures r.None? <==>
      Given(suburb) && exists row :: row in properties && Scoped(caller, status, row) && !Get(row, "suburb").Str?
    ensures r.Some? ==> Seqs.IsSubsequence(r.value, properties)
    ensures r.Some? ==> forall row :: row in r.value <==> row in properties && Listed(caller, status, suburb, row)
  {
    var rows := Candidates(caller, status, properties);
    if Given(suburb) then
      var r := SuburbFilter(rows, suburb.value);
      if r.Some? then
        Seqs.SubsequenceTransitive(r.value, rows, properties);
        r
      else
        var i :| 0 <= i < |rows| && !Get(rows[i], "suburb").Str?;
        assert rows[i] in rows;
        r
    else Some(rows)
  }

  /** `getProperties`: 401, then the listing; a suburb that is not a string on
      a scanned row makes it a 500. */
  function GetProperties(auth: AuthResult, status: Option<string>, suburb: Option<string>, properties: Table): (r: Response)
    ensures auth.Unauthenticated? ==> r == Unauthorized(auth.message)
    ensures auth.Authenticated? ==>
      match Listing(auth.user, status, suburb, properties)
      case None => r == ServerError()
      case Some(rows) => r == Ok(200, map["properties" := Arr(Rows(rows))])
  {
    match auth
    case Unauthenticated(message) => Unauthorized(message)
    case Authenticated(caller) =>
      match Listing(caller, status, suburb, properties)
      case None => ServerError()
      case Some(rows) => Ok(200, map["properties" := Arr(Rows(rows))])
  }

  /** Every property a listing returns satisfies the filters asked for, is
      scoped to the caller, and the listing keeps the table's order. */
  lemma ListedPropertiesMatch(caller: Value, status: Option<string>, suburb: Option<string>,
                              properties: Table, i: int)
    requires var r := Field(GetProperties(Authenticated(caller), status, suburb, properties), "properties");
      r.Arr? && 0 <= i < |r.items|
    ensures var v := Field(GetProperties(Authenticated(caller), status, suburb, properties), "properties").items[i];
      v.Obj? && v.fields in properties && Listed(caller, status, suburb, v.fields)
  {
    var rows := Listing(caller, status, suburb, properties).value;
    assert rows[i] in rows;
  }

  /** An admin who asks for no status gets an empty list, whatever the table holds. */
  lemma AdminWithoutStatusSeesNothing(caller: Value, status: Option<string>, suburb: Option<string>,
                                      properties: Table)
    requires IsAdmin(RoleOf(caller)) && !Given(status)
    ensures GetProperties(Authenticated(caller), status, suburb, properties) == Ok(200, map["properties" := Arr([])])
  {
  }

  // -------------------------------------------------------------- one property

  /** `getPropertyById`: 401, then 404 when no property has the id, then the
      property's row. Any signed-in caller may read any property. */
  function GetPropertyById(auth: AuthResult, propertyId: Value, properties: Table): (r: Response)
    ensures auth.Unauthenticated? ==> r == Unauthorized(auth.message)
    ensures auth.Authenticated? && r.status != 200 ==> r == Error(404, "Property not found")
    ensures r.status == 200 <==>
      auth.Authenticated? && exists i :: 0 <= i < |properties| && SqlEquals(Get(properties[i], "property_id"), propertyId)
    ensures r.status == 200 ==>
      Field(r, "property").Obj? && Field(r, "property").fields in properties &&
      SqlEquals(Get(Field(r, "property").fields, "property_id"), propertyId)
  {
    Access.Fetch(auth, properties, "property_id", propertyId, "Property not found", "property")
  }

  /** The property a create request describes: the address fields and
      features as given, the caller as lister, and `'FOR_SALE'` unless a
      truthy status is given. */
  function NewProperty(body: Value, caller: Value): (p: Record)
    ensures p.Keys == {"address_line_1", "address_line_2", "suburb", "state", "postal_code",
                       "listed_by_user_id", "status", "property_features_json"}
    ensures p["listed_by_user_id"] == IdOf(caller)
    ensures p["status"] == (if Truthy(Prop(body, "status")) then Prop(body, "status") else Str("FOR_SALE"))
    ensures forall k :: k in p && k != "listed_by_user_id" && k != "status" ==> p[k] == Prop(body, k)
  {
    map["address_line_1" := Prop(body, "address_line_1"), "address_line_2" := Prop(body, "address_line_2"),
        "suburb" := Prop(body, "suburb"), "state" := Prop(body, "state"),
        "postal_code" := Prop(body, "postal_code"), "listed_by_user_id" := IdOf(caller),
        "status" := Or(Prop(body, "status"), Str("FOR_SALE")),
        "property_features_json" := Prop(body, "property_features_json")]
  }

  /** The three fields a new property must have. */
  predicate HasAddress(body: Value) {
    Truthy(Prop(body, "address_line_1")) && Truthy(Prop(body, "suburb")) && Truthy(Prop(body, "state"))
  }

  /** `createProperty`: 401, an unreadable body, 400 without address line,
      suburb and state, then the new property is created and returned with
      the id the repository gave it. */
  function CreateProperty(auth: AuthResult, body: Value, create: Record -> Value): (h: Handled)
    ensures auth.Unauthenticated? ==> h == Handled(Unauthorized(auth.message), None)
    ensures h.response.status == 400 <==> auth.Authenticated? && !Nullish(body) && !HasAddress(body)
    ensures h.written.Some? <==> auth.Authenticated? && !Nullish(body) && HasAddress(body)
    ensures h.written.Some? ==>
      h.written.value == NewProperty(body, auth.user) && h.response.status == 201 &&
      Field(h.response, "property") == Obj(h.written.value["property_id" := create(h.written.value)])
  {
    match auth
    case Unauthenticated(message) => Handled(Unauthorized(message), None)
    case Authenticated(caller) =>
      if Nullish(body) then Handled(ServerError(), None)
      else if !HasAddress(body) then Handled(Error(400, "Address, suburb, and state are required"), None)
      else
        var p := NewProperty(body, caller);
        Handled(Ok(201, map["message" := Str("Property created successfully"),
                            "property" := Obj(p["property_id" := create(p)])]), Some(p))
  }

  /** A property created by a non-admin is one they may later update, and
      one their own unfiltered listing returns. */
  lemma CreatorOwnsProperty(caller: Value, body: Value)
    requires !IsAdmin(RoleOf(caller)) && IdOf(caller) != Null && IdOf(caller) != Undefined &&
             IdOf(caller) != NaN
    ensures Access.MayEdit(caller, NewProperty(body, caller), "listed_by_user_id")
    ensures Listed(caller, None, None, NewProperty(body, caller))
  {
  }

  // ------------------------------------------------------------------ update

  /** How `updateProperty` merges the body into the stored property. */
  function PropertyRules(): map<string, Merge.Rule> {
    map["address_line_1" := Merge.KeepOnFalsy, "address_line_2" := Merge.KeepOnUndefined,
        "suburb" := Merge.KeepOnFalsy, "state" := Merge.KeepOnFalsy,
        "postal_code" := Merge.KeepOnUndefined, "status" := Merge.KeepOnFalsy,
        "property_features_json" := Merge.KeepOnUndefined]
  }

  /** The address line, suburb, state and status fall back on any falsy input. */
  lemma PropertyMergeFalsy(existing: Record, body: Value, k: string)
    requires k in {"address_line_1", "suburb", "state", "status"}
    ensures Get(Merge.Apply(existing, body, PropertyRules()), k) == Or(Prop(body, k), Get(existing, k))
  {
  }

  /** The second address line, the postcode and the features fall back only
      on a missing input: `null`, `""` or `0` overwrite them. */
  lemma PropertyMergeUndefined(existing: Record, body: Value, k: string)
    requires k in {"address_line_2", "postal_code", "property_features_json"}
    ensures Get(Merge.Apply(existing, body, PropertyRules()), k) == IfDefined(Prop(body, k), Get(existing, k))
  {
  }

  /** The lister, the id and every other stored field are never changed by the body. */
  lemma PropertyMergeKeeps(existing: Record, body: Value, k: string)
    requires k !in PropertyRules()
    ensures Get(Merge.Apply(existing, body, PropertyRules()), k) == Get(existing, k)
  {
  }

  /** The checks `updateProperty` and `createPropertyDescription` share: 401,
      404 for an unknown property, then 403 unless the caller is an admin or
      the property's lister. */
  function Guard(auth: AuthResult, propertyId: Value, properties: Table): Result<(Value, Record), Response> {
    Access.Guard(auth, properties, "property_id", propertyId, "listed_by_user_id", "Property not found")
  }

  /** `updateProperty`: the shared checks, an unreadable body, then the merged
      property is handed to `update`; 500 if that reports failure. */
  function UpdateProperty(auth: AuthResult, propertyId: Value, body: Value, properties: Table,
                          update: Record -> bool): (h: Handled)
    ensures Guard(auth, propertyId, properties).Failure? ==>
      h == Handled(Guard(auth, propertyId, properties).error, None)
    ensures h.written.Some? <==> Guard(auth, propertyId, properties).Success? && !Nullish(body)
    ensures h.written.Some? ==>
      h.written.value == Merge.Apply(Guard(auth, propertyId, properties).value.1, body, PropertyRules()) &&
      (h.response.status == 200 <==> update(h.written.value))
    ensures h.written.Some? && h.response.status == 200 ==> Field(h.response, "property") == Obj(h.written.value)
    ensures Guard(auth, propertyId, properties).Success? && Nullish(body) ==> h.response == ServerError()
  {
    match Guard(auth, propertyId, properties)
    case Failure(refusal) => Handled(refusal, None)
    case Success((_, existing)) =>
      if Nullish(body) then Handled(ServerError(), None)
      else
        var updated := Merge.Apply(existing, body, PropertyRules());
        if !update(updated) then Handled(Error(500, "Failed to update property"), Some(updated))
        else Handled(Ok(200, map["message" := Str("Property updated successfully"),
                                 "property" := Obj(updated)]), Some(updated))
  }

  /** Existence is checked before ownership: an unknown property is a 404
      for every caller, whatever their role. */
  lemma UnknownPropertyIsNotFound(auth: AuthResult, propertyId: Value, body: Value, properties: Table,
                                  update: Record -> bool)
    requires auth.Authenticated? && FindFirst(properties, "property_id", propertyId).None?
    ensures UpdateProperty(auth, propertyId, body, properties, update).response == Error(404, "Property not found")
  {
  }

  /** An update never moves a property to another lister. */
  lemma UpdateKeepsOwner(auth: AuthResult, propertyId: Value, body: Value, properties: Table,
                         update: Record -> bool)
    requires UpdateProperty(auth, propertyId, body, properties, update).written.Some?
    ensures var h := UpdateProperty(auth, propertyId, body, properties, update);
      Get(h.written.value, "listed_by_user_id") ==
      Get(FindFirst(properties, "property_id", propertyId).value, "listed_by_user_id")
  {
    PropertyMergeKeeps(FindFirst(properties, "property_id", propertyId).value, body, "listed_by_user_id");
  }

  // ------------------------------------------------------------- description

  /** The description a request records: the route's property, the text, the
      caller as author, and the current-version flag `true` unless given. */
  function NewDescription(propertyId: Value, body: Value, caller: Value): (d: Record)
    ensures d.Keys == {"property_id", "description_text", "created_by_user_id", "is_current_version"}
    ensures d["property_id"] == propertyId && d["created_by_user_id"] == IdOf(caller)
    ensures d["description_text"] == Prop(body, "description_text")
    ensures Prop(body, "is_current_version") == Undefined ==> d["is_current_version"] == Bool(true)
    ensures Prop(body, "is_current_version") != Undefined ==> d["is_current_version"] == Prop(body, "is_current_version")
  {
    map["property_id" := propertyId, "description_text" := Prop(body, "description_text"),
        "created_by_user_id" := IdOf(caller),
        "is_current_version" := IfDefined(Prop(body, "is_current_version"), Bool(true))]
  }

  /** `createPropertyDescription`: the shared checks, an unreadable body, 400
      without a text, then 201 with the description. The description is not
      stored: the repository has no method for it. */
  function CreatePropertyDescription(auth: AuthResult, propertyId: Value, body: Value, properties: Table): (r: Response)
    ensures Guard(auth, propertyId, properties).Failure? ==> r == Guard(auth, propertyId, properties).error
    ensures r.status == 400 <==>
      Guard(auth, propertyId, properties).Success? && !Nullish(body) && !Truthy(Prop(body, "description_text"))
    ensures r.status == 201 <==>
      Guard(auth, propertyId, properties).Success? && !Nullish(body) && Truthy(Prop(body, "description_text"))
    ensures r.status == 201 ==> Field(r, "description") == Obj(NewDescription(propertyId, body, auth.user))
  {
    match Guard(auth, propertyId, properties)
    case Failure(refusal) => refusal
    case Success((caller, _)) =>
      if Nullish(body) then ServerError()
      else if !Truthy(Prop(body, "description_text")) then Error(400, "Description text is required")
      else Ok(201, map["message" := Str("Property description created successfully"),
                       "description" := Obj(NewDescription(propertyId, body, caller))])
  }
}

=== FILE: property_list.dfy ===
/** The property list screen: a free-text search over address and suburb, a
    status filter and a suburb filter, applied together; and the suburb
    options, each suburb once. */
module PropertyList {
  import opened Text
  import Seqs
  import Search

  /** The fields of a listed property the screen filters on. */
  datatype Property = Property(id: int, address: string, suburb: string, status: string)

  /** The search box and the two drop-downs; `""` means "all". */
  datatype Filters = Filters(search: string, status: string, suburb: string)

  const NoFilters := Filters("", "", "")

  predicate MatchesSearch(term: string, p: Property) {
    term == "" || ContainsIgnoringCase(p.address, term) || ContainsIgnoringCase(p.suburb, term)
  }

  /** A property is shown iff it passes the search and both drop-downs. */
  predicate Keeps(f: Filters, p: Property) {
    MatchesSearch(f.search, p) && Search.EmptyOrEqual(f.status, p.status) && Search.EmptyOrEqual(f.suburb, p.suburb)
  }

  /** `filteredProperties`: the shown properties, in the order given. */
  function Filtered(ps: seq<Property>, f: Filters): (r: seq<Property>)
    ensures Seqs.IsSubsequence(r, ps)
    ensures forall p :: p in r <==> p in ps && Keeps(f, p)
  {
    Seqs.FilterIsSubsequence(ps, p => Keeps(f, p));
    Seqs.Filter(ps, p => Keeps(f, p))
  }

  /** With every control at "all" the list is shown unchanged. */
  lemma NoFiltersKeepAll(ps: seq<Property>)
    ensures Filtered(ps, NoFilters) == ps
  {
    Seqs.FilterAll(ps, p => Keeps(NoFilters, p));
  }

  /** Each property is found by searching for its own address. */
  lemma AddressFindsProperty(ps: seq<Property>, p: Property)
    requires p in ps
    ensures p in Filtered(ps, Filters(p.address, "", ""))
  {
    Search.FieldFindsItself(p.address);
  }

  /** `g` narrows `f`: more typed in the search, or a drop-down set where it was "all". */
  predicate Narrows(g: Filters, f: Filters) {
    Search.Refines(g.search, f.search) && Search.RefinesChoice(g.status, f.status) &&
    Search.RefinesChoice(g.suburb, f.suburb)
  }

  /** Narrowing the controls never adds a property nor reorders the list. */
  lemma NarrowingNeverAdds(ps: seq<Property>, f: Filters, g: Filters)
    requires Narrows(g, f)
    ensures Seqs.IsSubsequence(Filtered(ps, g), Filtered(ps, f))
  {
    forall i | 0 <= i < |ps| && Keeps(g, ps[i])
      ensures Keeps(f, ps[i])
    {
      if f.search != "" {
        if ContainsIgnoringCase(ps[i].address, g.search) {
          Search.NarrowerTermMatchesLess(ps[i].address, f.search, g.search);
        } else {
          Search.NarrowerTermMatchesLess(ps[i].suburb, f.search, g.search);
        }
      }
    }
    Seqs.FilterMonotone(ps, p => Keeps(g, p), p => Keeps(f, p));
  }

  function SuburbColumn(ps: seq<Property>): (r: seq<string>)
    ensures |r| == |ps| && forall i :: 0 <= i < |ps| ==> r[i] == ps[i].suburb
  {
    seq(|ps|, i requires 0 <= i < |ps| => ps[i].suburb)
  }

  /** `[...new Set(properties.map(p => p.suburb))]`: every suburb of the list,
      each once. */
  function Suburbs(ps: seq<Property>): (r: seq<string>)
    ensures forall i, j :: 0 <= i < j < |r| ==> r[i] != r[j]
    ensures forall s :: s in r <==> exists i :: 0 <= i < |ps| && ps[i].suburb == s
  {
    var column := SuburbColumn(ps);
    var r := Seqs.Distinct(column);
    assert forall s :: s in r ==> s in column;
    assert forall i :: 0 <= i < |ps| ==> column[i] in r;
    r
  }

  /** The suburb options come in the order the suburbs first appear in the list. */
  lemma SuburbsInFirstOccurrenceOrder(ps: seq<Property>)
    ensures forall i, j :: 0 <= i < j < |Suburbs(ps)| ==>
      Seqs.FirstIndex(SuburbColumn(ps), Suburbs(ps)[i]) < Seqs.FirstIndex(SuburbColumn(ps), Suburbs(ps)[j])
  {
    Seqs.DistinctFirstOccurrenceOrder(SuburbColumn(ps));
  }

  /** A property whose address and suburb both lack one of the term's
      letters, in either case, is hidden by a search for it. */
  lemma LetterMissingHides(term: string, p: Property, k: int)
    requires 0 <= k < |term|
    requires forall i :: 0 <= i < |p.address| ==> LowerChar(p.address[i]) != LowerChar(term[k])
    requires forall i :: 0 <= i < |p.suburb| ==> LowerChar(p.suburb[i]) != LowerChar(term[k])
    ensures !Keeps(Filters(term, "", ""), p)
  {
    Search.LetterMissing(p.address, term, k);
    Search.LetterMissing(p.suburb, term, k);
  }

  /** A property whose suburb starts with the term is found by a search for it. */
  lemma SuburbPrefixFinds(term: string, rest: string, p: Property)
    requires p.suburb == term + rest
    ensures Keeps(Filters(term, "", ""), p)
  {
    Search.PrefixMatches(term, rest);
  }

  lemma OnlySecondShown(a: Property, b: Property, f: Filters)
    requires !Keeps(f, a) && Keeps(f, b)
    ensures Filtered([a, b], f) == [b]
  {
    assert [a, b][1..] == [b];
  }

  lemma NoneShown(a: Property, b: Property, f: Filters)
    requires !Keeps(f, a) && !Keeps(f, b)
    ensures Filtered([a, b], f) == []
  {
    var r := Filtered([a, b], f);
    assert forall i :: 0 <= i < |r| ==> r[i] in r;
  }

  // ---------------------------------------------------- the screen's examples

  function Sample(): seq<Property> {
    [Property(1, "123 Main St", "Bondi", "FOR_SALE"), Property(2, "456 Park Ave", "Surry Hills", "FOR_RENT")]
  }

  lemma MainStreetLacksY()
    ensures !Keeps(Filters("Surry", "", ""), Sample()[0])
  {
    LetterMissingHides("Surry", Sample()[0], 4);
  }

  lemma SurryHillsStartsWithSurry()
    ensures Keeps(Filters("Surry", "", ""), Sample()[1])
  {
    SuburbPrefixFinds("Surry", " Hills", Sample()[1]);
  }

  /** Searching "Surry" shows only the Surry Hills property. */
  lemma SearchSurry()
    ensures Filtered(Sample(), Filters("Surry", "", "")) == [Sample()[1]]
  {
    MainStreetLacksY();
    SurryHillsStartsWithSurry();
    OnlySecondShown(Sample()[0], Sample()[1], Filters("Surry", "", ""));
  }

  /** The status filter `FOR_RENT` shows only the rental. */
  lemma StatusForRent()
    ensures Filtered(Sample(), Filters("", "FOR_RENT", "")) == [Sample()[1]]
  {
  }

  lemma NoSampleHasX(i: int)
    requires 0 <= i < 2
    ensures !Keeps(Filters("nonexistent", "", ""), Sample()[i])
  {
    LetterMissingHides("nonexistent", Sample()[i], 4);
  }

  /** A term no property contains shows nothing. */
  lemma SearchNonexistent()
    ensures Filtered(Sample(), Filters("nonexistent", "", "")) == []
  {
    NoSampleHasX(0);
    NoSampleHasX(1);
    NoneShown(Sample()[0], Sample()[1], Filters("nonexistent", "", ""));
  }
}

=== FILE: search.dfy ===
/** The search and filter idiom the list screens share: a free-text term
    matched case-insensitively against some fields, and drop-down filters that
    are either empty (show everything) or must match exactly. */
module Search {
  import opened Text

  /** `filter === '' || value === filter`. */
  predicate EmptyOrEqual(filter: string, value: string) {
    filter == "" || value == filter
  }

  /** The term is a refinement of `term`: it was empty, or more was typed after it. */
  predicate Refines(narrower: string, term: string) {
    term == "" || IsPrefix(term, narrower)
  }

  /** A drop-down setting is a refinement: it was "all", or it is unchanged. */
  predicate RefinesChoice(narrower: string, choice: string) {
    choice == "" || narrower == choice
  }

  lemma {:induction false} LowerAppend(a: string, b: string)
    ensures Lower(a + b) == Lower(a) + Lower(b)
  {
    var ab, la, lb := Lower(a + b), Lower(a), Lower(b);
    forall i | 0 <= i < |ab|
      ensures ab[i] == (la + lb)[i]
    {
      if i < |a| {
        assert ab[i] == LowerChar(a[i]) == la[i];
      } else {
        assert ab[i] == LowerChar(b[i - |a|]) == lb[i - |a|];
      }
    }
    assert ab == la + lb;
  }

  /** Typing more never lets a field match that did not match before. */
  lemma NarrowerTermMatchesLess(field: string, term: string, narrower: string)
    requires term != "" && Refines(narrower, term) && ContainsIgnoringCase(field, narrower)
    ensures ContainsIgnoringCase(field, term)
  {
    var more := narrower[|term|..];
    assert term + more == narrower;
    LowerAppend(term, more);
    ContainsSelf(Lower(term));
    ContainsAppend(Lower(term), Lower(more), Lower(term));
    ContainsTransitive(Lower(field), Lower(narrower), Lower(term));
  }

  /** Every field is found by searching for itself, in any letter case. */
  lemma FieldFindsItself(field: string)
    ensures ContainsIgnoringCase(field, field)
  {
    ContainsSelf(Lower(field));
  }

  /** A field that lacks one of the term's letters, in either case, does not match it. */
  lemma LetterMissing(field: string, term: string, k: int)
    requires 0 <= k < |term| && forall i :: 0 <= i < |field| ==> LowerChar(field[i]) != LowerChar(term[k])
    ensures !ContainsIgnoringCase(field, term)
  {
    ContainsNeedsChar(Lower(field), Lower(term), k);
  }

  /** A field in which two consecutive letters of the term, in either case,
      never stand side by side does not match it. */
  lemma PairMissing(field: string, term: string, k: int)
    requires 0 <= k && k + 1 < |term|
    requires forall i :: 0 <= i < |field| - 1 ==>
      !(LowerChar(field[i]) == LowerChar(term[k]) && LowerChar(field[i + 1]) == LowerChar(term[k + 1]))
    ensures !ContainsIgnoringCase(field, term)
  {
    ContainsNeedsPair(Lower(field), Lower(term), k);
  }

  /** A field that starts with the term matches it. */
  lemma PrefixMatches(term: string, rest: string)
    ensures ContainsIgnoringCase(term + rest, term)
  {
    LowerAppend(term, rest);
    assert IsPrefix(Lower(term), Lower(term) + Lower(rest));
  }

  /** A field that holds the term somewhere matches it. */
  lemma MiddleMatches(before: string, term: string, after: string)
    ensures ContainsIgnoringCase(before + term + after, term)
  {
    LowerAppend(before, term);
    LowerAppend(before + term, after);
    ContainsInMiddle(Lower(before), Lower(term), Lower(after));
  }
}

=== FILE: seqs.dfy ===
/** Order-preserving filtering and first-occurrence de-duplication over sequences:
    the shape of every `array.filter(...)` and `[...new Set(...)]` in the
    application. */
module Seqs {
  import opened Wrappers

  /** `a` can be obtained from `b` by deleting elements (the order is kept). */
  predicate IsSubsequence<T(==)>(a: seq<T>, b: seq<T>)
    decreases |b|
  {
    if |a| == 0 then true
    else if |b| == 0 then false
    else if a[0] == b[0] then IsSubsequence(a[1..], b[1..])
    else IsSubsequence(a, b[1..])
  }

  /** `Array.prototype.filter`: the elements of `s` that satisfy `p`, in order. */
  function Filter<T>(s: seq<T>, p: T -> bool): (r: seq<T>)
    ensures |r| <= |s|
    ensures forall x :: x in r ==> x in s && p(x)
    ensures forall x :: x in s && p(x) ==> x in r
  {
    if |s| == 0 then []
    else if p(s[0]) then [s[0]] + Filter(s[1..], p)
    else Filter(s[1..], p)
  }

  /** Filtering keeps every kept element as often as it occurs: a matching
      row listed twice in the table is listed twice in the result. */
  lemma {:induction false} FilterMultiplicity<T>(s: seq<T>, p: T -> bool)
    ensures forall x :: multiset(Filter(s, p))[x] == (if p(x) then multiset(s)[x] else 0)
    decreases |s|
  {
    if |s| > 0 {
      FilterMultiplicity(s[1..], p);
      assert s == [s[0]] + s[1..];
      assert multiset(s) == multiset{s[0]} + multiset(s[1..]);
      if p(s[0]) {
        assert multiset(Filter(s, p)) == multiset{s[0]} + multiset(Filter(s[1..], p));
      }
    }
  }

  lemma {:induction false} SubsequenceRefl<T>(s: seq<T>)
    ensures IsSubsequence(s, s)
    decreases |s|
  {
    if |s| > 0 {
      SubsequenceRefl(s[1..]);
    }
  }

  /** A subsequence of `b` is also a subsequence of `b` with one more element in front. */
  lemma {:induction false} SubsequenceCons<T>(a: seq<T>, x: T, b: seq<T>)
    requires IsSubsequence(a, b)
    ensures IsSubsequence(a, [x] + b)
    decreases |b|, 1
  {
    var xb := [x] + b;
    assert xb[1..] == b;
    if |a| > 0 && a[0] == x {
      SubsequenceTail(a, b);
    }
  }

  /** Dropping the first element of a subsequence keeps it a subsequence. */
  lemma {:induction false} SubsequenceTail<T>(a: seq<T>, b: seq<T>)
    requires |a| > 0 && IsSubsequence(a, b)
    ensures IsSubsequence(a[1..], b)
    decreases |b|, 0
  {
    assert |b| > 0;
    if a[0] == b[0] {
      SubsequenceCons(a[1..], b[0], b[1..]);
      assert [b[0]] + b[1..] == b;
    } else {
      SubsequenceTail(a, b[1..]);
      SubsequenceCons(a[1..], b[0], b[1..]);
      assert [b[0]] + b[1..] == b;
    }
  }

  /** A subsequence of a subsequence is a subsequence: filters applied one
      after another keep the order of the table they started from. */
  lemma {:induction false} SubsequenceTransitive<T>(a: seq<T>, b: seq<T>, c: seq<T>)
    requires IsSubsequence(a, b) && IsSubsequence(b, c)
    ensures IsSubsequence(a, c)
    decreases |c|
  {
    if |a| > 0 {
      if b[0] == c[0] && a[0] == b[0] {
        SubsequenceTransitive(a[1..], b[1..], c[1..]);
      } else {
        if b[0] == c[0] {
          SubsequenceTransitive(a, b[1..], c[1..]);
        } else {
          SubsequenceTransitive(a, b, c[1..]);
        }
        if a[0] == c[0] {
          SubsequenceTail(a, c[1..]);
        }
      }
    }
  }

  /** Filtering keeps the relative order: the result is a subsequence of the input. */
  lemma {:induction false} FilterIsSubsequence<T>(s: seq<T>, p: T -> bool)
    ensures IsSubsequence(Filter(s, p), s)
    decreases |s|
  {
    if |s| > 0 {
      FilterIsSubsequence(s[1..], p);
      if !p(s[0]) {
        SubsequenceCons(Filter(s[1..], p), s[0], s[1..]);
        assert [s[0]] + s[1..] == s;
      }
    }
  }

  /** Filtering with a predicate that holds everywhere on `s` is the identity. */
  lemma {:induction false} FilterAll<T>(s: seq<T>, p: T -> bool)
    requires forall i :: 0 <= i < |s| ==> p(s[i])
    ensures Filter(s, p) == s
    decreases |s|
  {
    if |s| > 0 {
      FilterAll(s[1..], p);
      assert [s[0]] + s[1..] == s;
    }
  }

  /** A stronger predicate keeps a subsequence of what a weaker one keeps:
      adding a conjunct to a filter never adds elements nor reorders them. */
  lemma {:induction false} FilterMonotone<T>(s: seq<T>, p: T -> bool, q: T -> bool)
    requires forall i :: 0 <= i < |s| && p(s[i]) ==> q(s[i])
    ensures IsSubsequence(Filter(s, p), Filter(s, q))
    decreases |s|
  {
    if |s| > 0 {
      FilterMonotone(s[1..], p, q);
      if q(s[0]) && !p(s[0]) {
        SubsequenceCons(Filter(s[1..], p), s[0], Filter(s[1..], q));
      }
    }
  }

  /** Filtering twice is filtering once with the conjunction, which is how the
      route handlers apply one optional filter after another. */
  lemma {:induction false} FilterFilter<T>(s: seq<T>, p: T -> bool, q: T -> bool, pq: T -> bool)
    requires forall x :: pq(x) == (p(x) && q(x))
    ensures Filter(Filter(s, p), q) == Filter(s, pq)
    decreases |s|
  {
    if |s| > 0 {
      FilterFilter(s[1..], p, q, pq);
    }
  }

  /** The list `[...new Set(s)]`: the distinct elements of `s`, each where it first occurs. */
  function Distinct<T(==)>(s: seq<T>): (r: seq<T>)
    ensures forall i :: 0 <= i < |r| ==> r[i] in s
    ensures forall i :: 0 <= i < |s| ==> s[i] in r
    ensures forall i, j :: 0 <= i < j < |r| ==> r[i] != r[j]
    decreases |s|
  {
    if |s| == 0 then []
    else
      var d := Distinct(s[..|s| - 1]);
      assert s == s[..|s| - 1] + [s[|s| - 1]];
      if s[|s| - 1] in d then d else d + [s[|s| - 1]]
  }

  /** Index of the first occurrence of `x` in `s`. */
  function FirstIndex<T(==)>(s: seq<T>, x: T): (k: nat)
    requires x in s
    ensures k < |s| && s[k] == x && x !in s[..k]
  {
    if s[0] == x then 0
    else
      assert s == [s[0]] + s[1..];
      1 + FirstIndex(s[1..], x)
  }

  lemma {:induction false} FirstIndexPrefix<T>(s: seq<T>, n: nat, x: T)
    requires n <= |s| && x in s[..n]
    ensures FirstIndex(s[..n], x) == FirstIndex(s, x)
    decreases n
  {
    if s[0] != x {
      assert s[..n] == [s[0]] + s[1..][..n - 1];
      assert s[..n][1..] == s[1..][..n - 1];
      FirstIndexPrefix(s[1..], n - 1, x);
    }
  }

  /** The de-duplicated list is ordered by first occurrence in the input. */
  lemma {:induction false} DistinctFirstOccurrenceOrder<T>(s: seq<T>)
    ensures forall i, j :: 0 <= i < j < |Distinct(s)| ==>
      FirstIndex(s, Distinct(s)[i]) < FirstIndex(s, Distinct(s)[j])
    decreases |s|
  {
    if |s| > 0 {
      var n := |s| - 1;
      var pre := s[..n];
      var d := Distinct(pre);
      DistinctFirstOccurrenceOrder(pre);
      assert s == pre + [s[n]];
      forall i | 0 <= i < |d|
        ensures FirstIndex(s, d[i]) == FirstIndex(pre, d[i])
      {
        FirstIndexPrefix(s, n, d[i]);
      }
      if s[n] !in d {
        assert s[n] !in pre;
        assert FirstIndex(s, s[n]) == n;
        var r := d + [s[n]];
        forall i, j | 0 <= i < j < |r|
          ensures FirstIndex(s, r[i]) < FirstIndex(s, r[j])
        {
          if j == |d| {
            assert r[i] == d[i];
            assert FirstIndex(pre, d[i]) < n;
          } else {
            assert r[i] == d[i] && r[j] == d[j];
          }
        }
      }
    }
  }

  /** The position of the first element of `s` that satisfies `p`, or `|s|`
      when there is none. */
  function FindIndex<T>(s: seq<T>, p: T -> bool): (k: nat)
    ensures k <= |s| && (k < |s| ==> p(s[k]))
    ensures forall i :: 0 <= i < k ==> !p(s[i])
    decreases |s|
  {
    if |s| == 0 || p(s[0]) then 0
    else
      var k := FindIndex(s[1..], p);
      assert forall i :: 1 <= i < |s| ==> s[i] == s[1..][i - 1];
      k + 1
  }

  /** `Array.prototype.find`: the first element of `s` that satisfies `p`, if any. */
  function Find<T>(s: seq<T>, p: T -> bool): (r: Option<T>)
    ensures r.None? <==> forall i :: 0 <= i < |s| ==> !p(s[i])
    ensures r.Some? ==>
      (exists k :: 0 <= k < |s| && s[k] == r.value && p(s[k]) && forall i :: 0 <= i < k ==> !p(s[i]))
  {
    var k := FindIndex(s, p);
    if k < |s| then Some(s[k]) else None
  }
}

=== FILE: social.dfy ===
/** The social feed screen's own state: the new-post composer, the per-post
    comment drafts, and the like and comment count labels. Posting, liking and
    commenting themselves are reported to the page through callbacks. */
module Social {
  import opened Wrappers
  import opened Text
  import opened Js

  /** A picked image file; the screen only passes it on. */
  datatype Image = Image(name: string)

  /** The composer: the typed text, the picked image and its preview. */
  datatype Composer = Composer(content: string, image: Option<Image>, preview: Option<string>)

  const EmptyComposer := Composer("", None, None)

  /** An `onCreatePost(content, image)` call. */
  datatype PostCall = PostCall(content: string, image: Option<Image>)

  /** What pressing "Post" does: the callback made, if any, and the composer afterwards. */
  datatype Posted = Posted(call: Option<PostCall>, composer: Composer)

  /** `handleCreatePost`: only text that is not all white space is posted, as
      typed (untrimmed) and with the image if one was picked; the composer is
      then cleared. Otherwise nothing happens. */
  function CreatePost(c: Composer): (r: Posted)
    ensures r.call.Some? <==> !Blank(c.content)
    ensures r.call.Some? ==> r.call.value == PostCall(c.content, c.image) && r.composer == EmptyComposer
    ensures r.call.None? ==> r.composer == c
  {
    if Trim(c.content) != "" then Posted(Some(PostCall(c.content, c.image)), EmptyComposer)
    else Posted(None, c)
  }

  /** Pressing "Post" again straight after a post sends nothing. */
  lemma PostingTwiceSendsOnce(c: Composer)
    ensures CreatePost(CreatePost(c).composer).call.None?
  {
  }

  /** Text that starts with a visible character is posted. */
  lemma VisibleTextIsPosted(first: char, rest: string, image: Option<Image>)
    requires !IsSpace(first)
    ensures CreatePost(Composer([first] + rest, image, None)).call == Some(PostCall([first] + rest, image))
  {
    assert ([first] + rest)[0] == first;
  }

  lemma NewPostExample()
    ensures CreatePost(Composer("This is a new post", None, None)).call ==
      Some(PostCall("This is a new post", None))
  {
    VisibleTextIsPosted('T', "his is a new post", None);
  }

  // ---------------------------------------------------------- comment drafts

  /** `handleCommentChange`: the draft of one post replaced, every other draft kept. */
  function EditDraft(drafts: map<int, string>, postId: int, text: string): (r: map<int, string>)
    ensures postId in r && r[postId] == text
    ensures forall k :: k != postId ==> (k in r <==> k in drafts) && (k in drafts ==> r[k] == drafts[k])
  {
    drafts[postId := text]
  }

  /** An `onCommentPost(postId, text)` call. */
  datatype CommentCall = CommentCall(postId: int, text: string)

  datatype Commented = Commented(call: Option<CommentCall>, drafts: map<int, string>)

  /** `handleSubmitComment`: a post's draft is sent, untrimmed, only if it exists
      and is not all white space; only that draft is then reset to `""`. */
  function SubmitComment(drafts: map<int, string>, postId: int): (r: Commented)
    ensures r.call.Some? <==> postId in drafts && !Blank(drafts[postId])
    ensures r.call.Some? ==> r.call.value == CommentCall(postId, drafts[postId])
    ensures r.call.Some? ==> r.drafts == EditDraft(drafts, postId, "")
    ensures r.call.None? ==> r.drafts == drafts
  {
    if postId in drafts && Trim(drafts[postId]) != "" then
      Commented(Some(CommentCall(postId, drafts[postId])), drafts[postId := ""])
    else Commented(None, drafts)
  }

  /** Typing a visible comment under a post and submitting it sends exactly that
      text for that post, empties its draft and leaves every other draft alone;
      submitting again sends nothing. */
  lemma TypeThenSubmit(drafts: map<int, string>, postId: int, text: string)
    requires !Blank(text)
    ensures var r := SubmitComment(EditDraft(drafts, postId, text), postId);
      r.call == Some(CommentCall(postId, text)) &&
      r.drafts[postId] == "" &&
      (forall k :: k != postId && k in drafts ==> k in r.drafts && r.drafts[k] == drafts[k]) &&
      SubmitComment(r.drafts, postId).call.None?
  {
  }

  /** A post nobody has typed under has nothing to submit. */
  lemma UntouchedPostSendsNothing(drafts: map<int, string>, postId: int)
    requires postId !in drafts
    ensures SubmitComment(drafts, postId) == Commented(None, drafts)
  {
  }

  // ------------------------------------------------------------------ labels

  /** `{count} {count === 1 ? noun : noun + 's'}` as rendered text. The count
      may be negative: a post that starts liked with no likes shows "-1 Likes"
      once unliked. */
  function CountLabel(count: int, noun: string): (r: string)
    ensures ParseInt(r) == Num(count)
    ensures IsPrefix(IntToString(count) + " " + noun, r)
    ensures |r| == |IntToString(count)| + 1 + |noun| + (if count == 1 then 0 else 1)
  {
    var word := if count == 1 then noun else noun + "s";
    ParseIntOfRenderedStops(count, " " + word);
    assert IntToString(count) + " " + word == IntToString(count) + (" " + word);
    assert (IntToString(count) + " " + word)[..|IntToString(count) + " " + noun|] == IntToString(count) + " " + noun;
    IntToString(count) + " " + word
  }

  /** The label ends in "s" exactly when the count is not one. */
  lemma PluralUnlessOne(count: int, noun: string)
    requires noun != "" && noun[|noun| - 1] != 's'
    ensures var r := CountLabel(count, noun); r[|r| - 1] == 's' <==> count != 1
  {
  }

  lemma FiveLikes()
    ensures CountLabel(5, "Like") == "5 Likes"
  {
  }

  lemma OneComment()
    ensures CountLabel(1, "Comment") == "1 Comment"
  {
  }

  lemma MinusOneLikes()
    ensures CountLabel(-1, "Like") == "-1 Likes"
  {
    assert NatToString(1) == "1";
  }

  lemma NoComments()
    ensures CountLabel(0, "Comment") == "0 Comments"
  {
  }
}

=== FILE: store.dfy ===
/** The persistence collaborator. Each table is the sequence of its rows in the
    order the database scans them; the repository queries the handlers use are
    `SELECT * FROM t WHERE column = ?`, either all matching rows (`.all()`) or the
    first one (`.first()`, which for a primary key is the only one). */
module Store {
  import opened Wrappers
  import opened Js
  import Seqs

  type Table = seq<Record>

  /** SQL `column = ?`: a NULL never equals anything, and neither does a bound
      `undefined` or `NaN` parameter. */
  predicate SqlEquals(cell: Value, key: Value) {
    key != Null && key != Undefined && key != NaN && cell == key
  }

  /** `SELECT * FROM t WHERE column = key`, every match in scan order. */
  function Where(t: Table, column: string, key: Value): (rows: Table)
    ensures Seqs.IsSubsequence(rows, t)
    ensures forall row :: row in rows <==> row in t && SqlEquals(Get(row, column), key)
  {
    Seqs.FilterIsSubsequence(t, row => SqlEquals(Get(row, column), key));
    Seqs.Filter(t, row => SqlEquals(Get(row, column), key))
  }

  /** `SELECT * FROM t WHERE column = key` with `.first()`: the first match, or nothing. */
  function FindFirst(t: Table, column: string, key: Value): (r: Option<Record>)
    ensures r.Some? ==> r.value in t && SqlEquals(Get(r.value, column), key)
    ensures r.None? <==> forall i :: 0 <= i < |t| ==> !SqlEquals(Get(t[i], column), key)
    decreases |t|
  {
    if |t| == 0 then None
    else if SqlEquals(Get(t[0], column), key) then Some(t[0])
    else
      var r := FindFirst(t[1..], column, key);
      assert forall i :: 1 <= i < |t| ==> t[i] == t[1..][i - 1];
      r
  }

  /** The rows as the JSON array a handler returns. */
  function Rows(t: Table): (r: seq<Value>)
    ensures |r| == |t|
    ensures forall i :: 0 <= i < |t| ==> r[i] == Obj(t[i])
  {
    seq(|t|, i requires 0 <= i < |t| => Obj(t[i]))
  }
}

=== FILE: teams.dfy ===
/** The team routes: anyone signed in may list and read teams; only admins
    create and update them. */
module Teams {
  import opened Wrappers
  import opened Js
  import opened Http
  import opened Store
  import Merge
  import Access

  /** `getTeams`: every team, in the order the table holds them. */
  function GetTeams(auth: AuthResult, teams: Table): (r: Response)
    ensures auth.Unauthenticated? ==> r == Unauthorized(auth.message)
    ensures auth.Authenticated? ==>
      r.status == 200 && Field(r, "teams").Arr? && |Field(r, "teams").items| == |teams| &&
      forall i :: 0 <= i < |teams| ==> Field(r, "teams").items[i] == Obj(teams[i])
  {
    match auth
    case Unauthenticated(message) => Unauthorized(message)
    case Authenticated(_) => Ok(200, map["teams" := Arr(Rows(teams))])
  }

  /** `getTeamById`: 401, then 404 when no team has the id, then that team's row. */
  function GetTeamById(auth: AuthResult, teamId: Value, teams: Table): (r: Response)
    ensures auth.Unauthenticated? ==> r == Unauthorized(auth.message)
    ensures auth.Authenticated? && r.status != 200 ==> r == Error(404, "Team not found")
    ensures r.status == 200 <==>
      auth.Authenticated? && exists i :: 0 <= i < |teams| && SqlEquals(Get(teams[i], "team_id"), teamId)
    ensures r.status == 200 ==> Field(r, "team").Obj? && Field(r, "team").fields in teams
  {
    Access.Fetch(auth, teams, "team_id", teamId, "Team not found", "team")
  }

  /** `createTeam`: 401, 403 for a non-admin, an unreadable body, 400 without a
      team name, then the new team `{ team_name, company_name }` is created and
      returned with its id. */
  function CreateTeam(auth: AuthResult, body: Value, create: Record -> Value): (h: Handled)
    ensures auth.Unauthenticated? ==> h == Handled(Unauthorized(auth.message), None)
    ensures auth.Authenticated? && !IsAdmin(RoleOf(auth.user)) ==> h == Handled(Error(403, "Unauthorized"), None)
    ensures h.response.status == 400 <==>
      auth.Authenticated? && IsAdmin(RoleOf(auth.user)) && !Nullish(body) && !Truthy(Prop(body, "team_name"))
    ensures h.written.Some? <==>
      auth.Authenticated? && IsAdmin(RoleOf(auth.user)) && !Nullish(body) && Truthy(Prop(body, "team_name"))
    ensures h.written.Some? ==>
      h.written.value == map["team_name" := Prop(body, "team_name"), "company_name" := Prop(body, "company_name")] &&
      h.response.status == 201 &&
      Field(h.response, "team") == Obj(h.written.value["team_id" := create(h.written.value)])
  {
    match auth
    case Unauthenticated(message) => Handled(Unauthorized(message), None)
    case Authenticated(caller) =>
      if !IsAdmin(RoleOf(caller)) then Handled(Error(403, "Unauthorized"), None)
      else if Nullish(body) then Handled(ServerError(), None)
      else if !Truthy(Prop(body, "team_name")) then Handled(Error(400, "Team name is required"), None)
      else
        var team := map["team_name" := Prop(body, "team_name"), "company_name" := Prop(body, "company_name")];
        Handled(Ok(201, map["message" := Str("Team created successfully"),
                            "team" := Obj(team["team_id" := create(team)])]), Some(team))
  }

  /** How `updateTeam` merges the body into the stored team. */
  function TeamRules(): map<string, Merge.Rule> {
    map["team_name" := Merge.KeepOnFalsy, "company_name" := Merge.KeepOnUndefined]
  }

  /** The team merge: the name falls back on any falsy input, the company
      only on a missing one, and nothing else changes. */
  lemma TeamMerge(existing: Record, body: Value)
    ensures var t := Merge.Apply(existing, body, TeamRules());
      Get(t, "team_name") == Or(Prop(body, "team_name"), Get(existing, "team_name")) &&
      Get(t, "company_name") == IfDefined(Prop(body, "company_name"), Get(existing, "company_name")) &&
      forall k :: k != "team_name" && k != "company_name" ==> Get(t, k) == Get(existing, k)
  {
  }

  /** `updateTeam`: 401, 403 for a non-admin, 404 for an unknown team (only
      after the role check), an unreadable body, then the merged team is
      handed to `update`; 500 if that reports failure. */
  function UpdateTeam(auth: AuthResult, teamId: Value, body: Value, teams: Table,
                      update: Record -> bool): (h: Handled)
    ensures auth.Unauthenticated? ==> h == Handled(Unauthorized(auth.message), None)
    ensures auth.Authenticated? && !IsAdmin(RoleOf(auth.user)) ==> h == Handled(Error(403, "Unauthorized"), None)
    ensures h.response.status == 404 <==>
      auth.Authenticated? && IsAdmin(RoleOf(auth.user)) && FindFirst(teams, "team_id", teamId).None?
    ensures h.written.Some? <==>
      auth.Authenticated? && IsAdmin(RoleOf(auth.user)) && FindFirst(teams, "team_id", teamId).Some? &&
      !Nullish(body)
    ensures h.written.Some? ==>
      h.written.value == Merge.Apply(FindFirst(teams, "team_id", teamId).value, body, TeamRules()) &&
      (h.response.status == 200 <==> update(h.written.value))
    ensures h.written.Some? && h.response.status == 200 ==> Field(h.response, "team") == Obj(h.written.value)
    ensures (auth.Authenticated? && IsAdmin(RoleOf(auth.user)) && FindFirst(teams, "team_id", teamId).Some? &&
             Nullish(body)) ==> h.response == ServerError()
  {
    match auth
    case Unauthenticated(message) => Handled(Unauthorized(message), None)
    case Authenticated(caller) =>
      if !IsAdmin(RoleOf(caller)) then Handled(Error(403, "Unauthorized"), None)
      else match FindFirst(teams, "team_id", teamId)
        case None => Handled(Error(404, "Team not found"), None)
        case Some(existing) =>
          if Nullish(body) then Handled(ServerError(), None)
          else
            var updated := Merge.Apply(existing, body, TeamRules());
            if !update(updated) then Handled(Error(500, "Failed to update team"), Some(updated))
            else Handled(Ok(200, map["message" := Str("Team updated successfully"), "team" := Obj(updated)]),
                         Some(updated))
  }

  /** A non-admin is refused before the team is looked up: the answer is the
      same whether or not the team exists. */
  lemma RoleCheckPrecedesLookup(caller: Value, teamId: Value, body: Value, teams: Table, other: Table,
                                update: Record -> bool)
    requires !IsAdmin(RoleOf(caller))
    ensures UpdateTeam(Authenticated(caller), teamId, body, teams, update) ==
            UpdateTeam(Authenticated(caller), teamId, body, other, update)
  {
  }
}

=== FILE: text.dfy ===
/** The string operations the application leans on, with JavaScript's meaning:
    `includes`, `toLowerCase`, `trim`, `split` on one character, `join`, and
    decimal rendering and reading of whole numbers. */
module Text {

  // ---------------------------------------------------------------- includes

  predicate IsPrefix(p: string, s: string) {
    |p| <= |s| && s[..|p|] == p
  }

  /** `s.includes(part)`: `part` occurs somewhere in `s` (the empty string occurs everywhere). */
  predicate Contains(s: string, part: string)
    decreases |s|
  {
    IsPrefix(part, s) || (|s| > 0 && Contains(s[1..], part))
  }

  /** Whatever surrounds `x`, the whole contains it. */
  lemma {:induction false} ContainsInMiddle(a: string, x: string, b: string)
    ensures Contains(a + x + b, x)
    decreases |a|
  {
    if |a| == 0 {
      assert a + x + b == x + b;
      assert (x + b)[..|x|] == x;
    } else {
      ContainsInMiddle(a[1..], x, b);
      assert (a + x + b)[1..] == a[1..] + x + b;
    }
  }

  /** Containment is inherited by every longer string built around the container. */
  lemma {:induction false} ContainsWithin(a: string, s: string, b: string, part: string)
    requires Contains(s, part)
    ensures Contains(a + s + b, part)
    decreases |a|, |s|
  {
    if |a| > 0 {
      ContainsWithin(a[1..], s, b, part);
      assert (a + s + b)[1..] == a[1..] + s + b;
    } else if IsPrefix(part, s) {
      assert (s + b)[..|part|] == s[..|part|];
      assert a + s + b == s + b;
    } else {
      ContainsWithin([], s[1..], b, part);
      assert a + s + b == [s[0]] + (s[1..] + b);
      assert ([] + s[1..] + b) == s[1..] + b;
    }
  }

  lemma ContainsSelf(s: string)
    ensures Contains(s, s)
  {
    assert s[..|s|] == s;
  }

  lemma ContainsAppend(s: string, t: string, part: string)
    requires Contains(s, part)
    ensures Contains(s + t, part)
  {
    ContainsWithin([], s, t, part);
    assert [] + s + t == s + t;
  }

  lemma ContainsPrepend(t: string, s: string, part: string)
    requires Contains(s, part)
    ensures Contains(t + s, part)
  {
    ContainsWithin(t, s, [], part);
    assert t + s + [] == t + s;
  }

  /** A string inside a part of `s` is inside `s`. */
  lemma {:induction false} ContainsTransitive(s: string, t: string, part: string)
    requires Contains(s, t) && Contains(t, part)
    ensures Contains(s, part)
    decreases |s|
  {
    if IsPrefix(t, s) {
      ContainsAppend(t, s[|t|..], part);
      assert t + s[|t|..] == s;
    } else {
      ContainsTransitive(s[1..], t, part);
      ContainsPrepend([s[0]], s[1..], part);
      assert [s[0]] + s[1..] == s;
    }
  }

  /** A string that lacks one of the characters of `part` does not contain it. */
  lemma {:induction false} ContainsNeedsChar(s: string, part: string, k: int)
    requires 0 <= k < |part| && forall i :: 0 <= i < |s| ==> s[i] != part[k]
    ensures !Contains(s, part)
    decreases |s|
  {
    if |part| <= |s| {
      assert s[..|part|][k] == s[k];
    }
    if |s| > 0 {
      ContainsNeedsChar(s[1..], part, k);
    }
  }

  /** A string in which two consecutive characters of `part` never occur side
      by side does not contain it. */
  lemma {:induction false} ContainsNeedsPair(s: string, part: string, k: int)
    requires 0 <= k && k + 1 < |part|
    requires forall i :: 0 <= i < |s| - 1 ==> !(s[i] == part[k] && s[i + 1] == part[k + 1])
    ensures !Contains(s, part)
    decreases |s|
  {
    if |part| <= |s| {
      assert s[..|part|][k] == s[k] && s[..|part|][k + 1] == s[k + 1];
    }
    if |s| > 0 {
      ContainsNeedsPair(s[1..], part, k);
    }
  }

  /** Two strings that differ only in one middle part have equal middle parts. */
  lemma CancelAround(a: string, x: string, y: string, b: string)
    requires a + x + b == a + y + b
    ensures x == y
  {
    assert |x| == |y|;
    assert (a + x + b)[|a|..|a| + |x|] == x;
    assert (a + y + b)[|a|..|a| + |y|] == y;
  }

  // ------------------------------------------------------------ toLowerCase

  /** Lower-casing of one character; only the ASCII letters are folded. */
  function LowerChar(c: char): char {
    if 'A' <= c <= 'Z' then (c as int + 32) as char else c
  }

  /** `s.toLowerCase()`. */
  function Lower(s: string): (r: string)
    ensures |r| == |s|
    ensures forall i :: 0 <= i < |s| ==> r[i] == LowerChar(s[i])
  {
    if |s| == 0 then "" else [LowerChar(s[0])] + Lower(s[1..])
  }

  /** `s.toLowerCase().includes(term.toLowerCase())`. */
  predicate ContainsIgnoringCase(s: string, term: string) {
    Contains(Lower(s), Lower(term))
  }

  // ------------------------------------------------------------------- trim

  /** The characters ECMAScript's `String.prototype.trim` strips: WhiteSpace and LineTerminator. */
  predicate IsSpace(c: char) {
    var n := c as int;
    n == 0x09 || n == 0x0A || n == 0x0B || n == 0x0C || n == 0x0D || n == 0x20 ||
    n == 0xA0 || n == 0x1680 || (0x2000 <= n <= 0x200A) || n == 0x2028 || n == 0x2029 ||
    n == 0x202F || n == 0x205F || n == 0x3000 || n == 0xFEFF
  }

  /** Every character is white space (true of the empty string). */
  predicate Blank(s: string) {
    forall i :: 0 <= i < |s| ==> IsSpace(s[i])
  }

  /** Number of leading white-space characters. */
  function LeadingSpace(s: string): (k: nat)
    ensures k <= |s| && Blank(s[..k])
    ensures k < |s| ==> !IsSpace(s[k])
    decreases |s|
  {
    if |s| > 0 && IsSpace(s[0]) then 1 + LeadingSpace(s[1..]) else 0
  }

  /** Length of `s` once its trailing white space is removed. */
  function TrailingCut(s: string): (k: nat)
    ensures k <= |s| && Blank(s[k..])
    ensures k > 0 ==> !IsSpace(s[k - 1])
    decreases |s|
  {
    if |s| > 0 && IsSpace(s[|s| - 1]) then TrailingCut(s[..|s| - 1]) else |s|
  }

  /** `s.trimStart()`. */
  function TrimStart(s: string): string {
    s[LeadingSpace(s)..]
  }

  /** `s.trim()`: the slice of `s` between its leading and its trailing white space. */
  function Trim(s: string): (r: string)
    ensures |r| <= |s|
    ensures |r| > 0 ==> !IsSpace(r[0]) && !IsSpace(r[|r| - 1])
    ensures r == "" <==> Blank(s)
  {
    var i := LeadingSpace(s);
    var t := s[i..];
    var j := TrailingCut(t);
    if i == |s| then
      assert s[..i] == s;
      ""
    else
      assert !IsSpace(t[0]);
      assert j > 0 && !IsSpace(s[i]);
      t[..j]
  }

  /** A string without white space at either end is its own trim. */
  lemma TrimOfUnspaced(t: string)
    requires t != "" && !IsSpace(t[0]) && !IsSpace(t[|t| - 1])
    ensures Trim(t) == t
  {
    assert LeadingSpace(t) == 0;
    assert t[0..] == t;
    assert TrailingCut(t) == |t|;
    assert t[..|t|] == t;
  }

  // ------------------------------------------------------------ split / join

  /** `s.split(sep)` for a one-character separator: always at least one piece. */
  function Split(s: string, sep: char): (r: seq<string>)
    ensures |r| >= 1
    ensures forall i :: 0 <= i < |r| ==> sep !in r[i]
    decreases |s|
  {
    if |s| == 0 then [""]
    else
      var rest := Split(s[1..], sep);
      if s[0] == sep then [""] + rest
      else [[s[0]] + rest[0]] + rest[1..]
  }

  /** `xs.join(sep)`. */
  function Join(xs: seq<string>, sep: string): string
    decreases |xs|
  {
    if |xs| == 0 then ""
    else if |xs| == 1 then xs[0]
    else xs[0] + sep + Join(xs[1..], sep)
  }

  lemma {:induction false} JoinConsHead(c: char, xs: seq<string>, sep: string)
    requires |xs| >= 1
    ensures Join([[c] + xs[0]] + xs[1..], sep) == [c] + Join(xs, sep)
  {
    var ys := [[c] + xs[0]] + xs[1..];
    assert ys[1..] == xs[1..];
  }

  /** Splitting on a character and joining the pieces with it gives the string back. */
  lemma {:induction false} SplitJoin(s: string, sep: char)
    ensures Join(Split(s, sep), [sep]) == s
    decreases |s|
  {
    if |s| > 0 {
      var rest := Split(s[1..], sep);
      SplitJoin(s[1..], sep);
      if s[0] == sep {
        assert ([""] + rest)[1..] == rest;
        assert s == [sep] + s[1..];
      } else {
        JoinConsHead(s[0], rest, [sep]);
        assert s == [s[0]] + s[1..];
      }
    }
  }

  /** With a non-empty separator, a join is empty exactly when there is nothing,
      or one empty piece, to join. */
  lemma {:induction false} JoinEmpty(xs: seq<string>, sep: string)
    requires sep != ""
    ensures Join(xs, sep) == "" <==> |xs| == 0 || (|xs| == 1 && xs[0] == "")
  {
    if |xs| >= 2 {
      assert |Join(xs, sep)| >= |sep|;
    }
  }

  lemma {:induction false} SplitNoSeparator(w: string, sep: char)
    requires sep !in w
    ensures Split(w, sep) == [w]
    decreases |w|
  {
    if |w| > 0 {
      SplitNoSeparator(w[1..], sep);
      assert [w[0]] + w[1..] == w;
    }
  }

  /** A leading piece free of the separator comes out of the split whole. */
  lemma {:induction false} SplitAfterPiece(w: string, rest: string, sep: char)
    requires sep !in w
    ensures Split(w + [sep] + rest, sep) == [w] + Split(rest, sep)
    decreases |w|
  {
    var s := w + [sep] + rest;
    if |w| == 0 {
      assert s == [sep] + rest;
      assert s[1..] == rest;
    } else {
      assert s[1..] == w[1..] + [sep] + rest;
      SplitAfterPiece(w[1..], rest, sep);
      assert [w[0]] + w[1..] == w;
    }
  }

  /** Joining separator-free pieces with a character and splitting on it gives the pieces back. */
  lemma {:induction false} SplitJoined(xs: seq<string>, sep: char)
    requires |xs| >= 1 && forall i :: 0 <= i < |xs| ==> sep !in xs[i]
    ensures Split(Join(xs, [sep]), sep) == xs
    decreases |xs|
  {
    if |xs| == 1 {
      SplitNoSeparator(xs[0], sep);
    } else {
      SplitJoined(xs[1..], sep);
      SplitAfterPiece(xs[0], Join(xs[1..], [sep]), sep);
      assert xs[0] + [sep] + Join(xs[1..], [sep]) == Join(xs, [sep]);
      assert [xs[0]] + xs[1..] == xs;
    }
  }

  // ----------------------------------------------------------------- numbers

  predicate IsDigit(c: char) {
    '0' <= c <= '9'
  }

  predicate AllDigits(s: string) {
    forall i :: 0 <= i < |s| ==> IsDigit(s[i])
  }

  function DigitChar(d: nat): (c: char)
    requires d < 10
    ensures IsDigit(c) && c as int - '0' as int == d
  {
    ('0' as int + d) as char
  }

  /** The number a string of decimal digits denotes (0 for the empty string). */
  function DigitsValue(s: string): nat
    requires AllDigits(s)
    decreases |s|
  {
    if |s| == 0 then 0 else DigitsValue(s[..|s| - 1]) * 10 + (s[|s| - 1] as int - '0' as int)
  }

  /** Decimal rendering of a natural number, as `String(n)` produces it. */
  function NatToString(n: nat): (r: string)
    ensures |r| >= 1 && AllDigits(r)
    ensures |r| > 1 ==> r[0] != '0'
    decreases n
  {
    if n < 10 then [DigitChar(n)] else NatToString(n / 10) + [DigitChar(n % 10)]
  }

  /** Reading back a rendered number gives the number. */
  lemma {:induction false} NatToStringRoundTrip(n: nat)
    ensures DigitsValue(NatToString(n)) == n
    decreases n
  {
    if n >= 10 {
      NatToStringRoundTrip(n / 10);
      var r := NatToString(n);
      assert r[..|r| - 1] == NatToString(n / 10);
    }
  }

  /** `String(i)` for a whole number. */
  function IntToString(i: int): string {
    if i < 0 then "-" + NatToString(-i) else NatToString(i)
  }

  /** The longest prefix of `s` made of decimal digits. */
  function LeadingDigits(s: string): (r: string)
    ensures IsPrefix(r, s) && AllDigits(r)
    ensures |r| < |s| ==> !IsDigit(s[|r|])
    decreases |s|
  {
    if |s| > 0 && IsDigit(s[0]) then [s[0]] + LeadingDigits(s[1..]) else ""
  }

  lemma {:induction false} LeadingDigitsOfDigits(s: string)
    requires AllDigits(s)
    ensures LeadingDigits(s) == s
    decreases |s|
  {
    if |s| > 0 {
      LeadingDigitsOfDigits(s[1..]);
      assert [s[0]] + s[1..] == s;
    }
  }

  predicate IsHexDigit(c: char) {
    IsDigit(c) || 'a' <= c <= 'f' || 'A' <= c <= 'F'
  }

  predicate AllHexDigits(s: string) {
    forall i :: 0 <= i < |s| ==> IsHexDigit(s[i])
  }

  function HexDigitValue(c: char): (d: nat)
    requires IsHexDigit(c)
    ensures d < 16
  {
    if IsDigit(c) then c as int - '0' as int
    else if 'a' <= c <= 'f' then c as int - 'a' as int + 10
    else c as int - 'A' as int + 10
  }

  /** The number a string of hexadecimal digits denotes (0 for the empty string). */
  function HexValue(s: string): nat
    requires AllHexDigits(s)
    decreases |s|
  {
    if |s| == 0 then 0 else HexValue(s[..|s| - 1]) * 16 + HexDigitValue(s[|s| - 1])
  }

  /** A digit in base 2, 8, 10 or 16. */
  predicate IsRadixDigit(c: char, radix: nat) {
    IsHexDigit(c) && HexDigitValue(c) < radix
  }

  predicate AllRadixDigits(s: string, radix: nat) {
    forall i :: 0 <= i < |s| ==> IsRadixDigit(s[i], radix)
  }

  /** The number a string of base-`radix` digits denotes (0 for the empty string). */
  function RadixValue(s: string, radix: nat): nat
    requires AllRadixDigits(s, radix)
    decreases |s|
  {
    if |s| == 0 then 0 else RadixValue(s[..|s| - 1], radix) * radix + HexDigitValue(s[|s| - 1])
  }

  /** `FirstOf` finds the first `a` or `b`. */
  lemma FirstOfAt(s: string, a: char, b: char, k: nat)
    requires k < |s| && (s[k] == a || s[k] == b)
    requires forall i :: 0 <= i < k ==> s[i] != a && s[i] != b
    ensures FirstOf(s, a, b) == k
  {
  }

  /** Without `a` or `b`, `FirstOf` is the length. */
  lemma FirstOfNone(s: string, a: char, b: char)
    requires forall i :: 0 <= i < |s| ==> s[i] != a && s[i] != b
    ensures FirstOf(s, a, b) == |s|
  {
  }

  /** Hexadecimal digits are the base-16 digits, with the same value. */
  lemma {:induction false} RadixSixteen(s: string)
    requires AllHexDigits(s)
    ensures AllRadixDigits(s, 16) && RadixValue(s, 16) == HexValue(s)
    decreases |s|
  {
    if |s| > 0 {
      RadixSixteen(s[..|s| - 1]);
    }
  }

  /** The position of the first `a` or `b` in `s`, or `|s|` when there is none. */
  function FirstOf(s: string, a: char, b: char): (k: nat)
    ensures k <= |s| && (k < |s| ==> s[k] == a || s[k] == b)
    ensures forall i :: 0 <= i < k ==> s[i] != a && s[i] != b
    decreases |s|
  {
    if |s| == 0 || s[0] == a || s[0] == b then 0
    else
      var k := FirstOf(s[1..], a, b);
      assert forall i :: 1 <= i < |s| ==> s[i] == s[1..][i - 1];
      k + 1
  }

  /** The longest prefix of `s` made of hexadecimal digits. */
  function LeadingHexDigits(s: string): (r: string)
    ensures IsPrefix(r, s) && AllHexDigits(r)
    ensures |r| < |s| ==> !IsHexDigit(s[|r|])
    decreases |s|
  {
    if |s| > 0 && IsHexDigit(s[0]) then [s[0]] + LeadingHexDigits(s[1..]) else ""
  }

  lemma {:induction false} LeadingHexDigitsOfHexDigits(s: string)
    requires AllHexDigits(s)
    ensures LeadingHexDigits(s) == s
    decreases |s|
  {
    if |s| > 0 {
      LeadingHexDigitsOfHexDigits(s[1..]);
      assert [s[0]] + s[1..] == s;
    }
  }
}

=== FILE: users.dfy ===
/** The user routes: listing a team's users (admins only), reading and
    updating one user (admins, or the user themself). Users leave the server
    only through the password-free profile projection. */
module Users {
  import opened Wrappers
  import opened Js
  import opened Text
  import opened Http
  import opened Store
  import Merge
  import Seqs

  // ----------------------------------------------------------------- profile

  const ProfileKeys: set<string> :=
    {"id", "email", "full_name", "role", "team_id", "phone_number", "subscription_plan"}

  /** The user object the routes return: the row's identity and contact
      fields, with `user_id` renamed `id`, and nothing else. */
  function PublicProfile(row: Record): (r: Record)
    ensures r.Keys == ProfileKeys
    ensures "password_hash" !in r
    ensures r["id"] == Get(row, "user_id")
    ensures forall k :: k in ProfileKeys && k != "id" ==> r[k] == Get(row, k)
  {
    map["id" := Get(row, "user_id"), "email" := Get(row, "email"), "full_name" := Get(row, "full_name"),
        "role" := Get(row, "role"), "team_id" := Get(row, "team_id"),
        "phone_number" := Get(row, "phone_number"), "subscription_plan" := Get(row, "subscription_plan")]
  }

  /** The profile does not depend on anything outside the seven fields it
      copies: in particular a change of password is invisible in it. */
  lemma ProfileIgnoresOtherFields(row: Record, k: string, v: Value)
    requires k !in ProfileKeys - {"id"} + {"user_id"}
    ensures PublicProfile(row[k := v]) == PublicProfile(row)
  {
  }

  /** `users.map(user => ({ id: user.user_id, ... }))`. */
  function Profiles(rows: seq<Record>): (r: seq<Value>)
    ensures |r| == |rows|
    ensures forall i :: 0 <= i < |rows| ==> r[i] == Obj(PublicProfile(rows[i]))
  {
    seq(|rows|, i requires 0 <= i < |rows| => Obj(PublicProfile(rows[i])))
  }

  // ------------------------------------------------------------------- access

  /** Admins may read and update any user; everyone else only themself, by
      strict equality of their token's `id` and the route's user id. */
  predicate MayAccess(caller: Value, userId: Value) {
    IsAdmin(RoleOf(caller)) || StrictEquals(IdOf(caller), userId)
  }

  /** `getUsers`: 401, then 403 for a non-admin, then the users of the team in
      the `team_id` query parameter (read with `parseInt`), or none without it. */
  function GetUsers(auth: AuthResult, teamParam: Option<string>, users: Table): (r: Response)
    ensures auth.Unauthenticated? ==> r == Unauthorized(auth.message)
    ensures auth.Authenticated? && !IsAdmin(RoleOf(auth.user)) ==> r == Error(403, "Unauthorized")
    ensures auth.Authenticated? && IsAdmin(RoleOf(auth.user)) ==>
      r.status == 200 && Field(r, "success") == Bool(true) &&
      Field(r, "users") == Arr(Profiles(TeamMembers(teamParam, users)))
  {
    match auth
    case Unauthenticated(message) => Unauthorized(message)
    case Authenticated(caller) =>
      if !IsAdmin(RoleOf(caller)) then Error(403, "Unauthorized")
      else Ok(200, map["users" := Arr(Profiles(TeamMembers(teamParam, users)))])
  }

  /** The rows listed for a `team_id` query parameter: every user of that
      team, in table order; none without a (non-empty) parameter. */
  function TeamMembers(teamParam: Option<string>, users: Table): (rows: Table)
    ensures !Given(teamParam) ==> rows == []
    ensures Seqs.IsSubsequence(rows, users)
    ensures forall row :: row in rows ==>
      row in users && Given(teamParam) && SqlEquals(Get(row, "team_id"), ParseInt(teamParam.value))
    ensures Given(teamParam) ==> forall row :: row in users && SqlEquals(Get(row, "team_id"), ParseInt(teamParam.value)) ==>
      row in rows
  {
    if Given(teamParam) then Where(users, "team_id", ParseInt(teamParam.value)) else []
  }

  /** A listed user belongs to the requested team, and the listing carries no
      password hash. */
  lemma ListedUsersBelongToTeam(caller: Value, team: nat, users: Table, i: int)
    requires IsAdmin(RoleOf(caller))
    requires var listed := Field(GetUsers(Authenticated(caller), Some(NatToString(team)), users), "users");
      listed.Arr? && 0 <= i < |listed.items|
    ensures var v := Field(GetUsers(Authenticated(caller), Some(NatToString(team)), users), "users").items[i];
      v.Obj? && Get(v.fields, "team_id") == Num(team) && "password_hash" !in v.fields
  {
    ParseIntOfRendered(team);
    var rows := TeamMembers(Some(NatToString(team)), users);
    assert rows[i] in rows;
  }

  /** Every stored user of the requested team is listed, by their profile. */
  lemma TeamUserIsListed(caller: Value, team: nat, users: Table, row: Record)
    requires IsAdmin(RoleOf(caller))
    requires row in users && Get(row, "team_id") == Num(team)
    ensures var listed := Field(GetUsers(Authenticated(caller), Some(NatToString(team)), users), "users");
      listed.Arr? && Obj(PublicProfile(row)) in listed.items
  {
    ParseIntOfRendered(team);
    var rows := TeamMembers(Some(NatToString(team)), users);
    assert row in rows;
    var i :| 0 <= i < |rows| && rows[i] == row;
    assert Profiles(rows)[i] == Obj(PublicProfile(row));
  }

  /** `getUserById`: 401, then 403 unless the caller may access the user
      (decided before any lookup), then 404, then the profile. */
  function GetUserById(auth: AuthResult, userId: Value, users: Table): (r: Response)
    ensures auth.Unauthenticated? ==> r == Unauthorized(auth.message)
    ensures r.status == 403 <==> auth.Authenticated? && !MayAccess(auth.user, userId)
    ensures r.status == 404 <==>
      auth.Authenticated? && MayAccess(auth.user, userId) && FindFirst(users, "user_id", userId).None?
    ensures r.status == 200 ==>
      r == Ok(200, map["user" := Obj(PublicProfile(FindFirst(users, "user_id", userId).value))])
  {
    match auth
    case Unauthenticated(message) => Unauthorized(message)
    case Authenticated(caller) =>
      if !MayAccess(caller, userId) then Error(403, "Unauthorized")
      else match FindFirst(users, "user_id", userId)
        case None => Error(404, "User not found")
        case Some(row) => Ok(200, map["user" := Obj(PublicProfile(row))])
  }

  // ------------------------------------------------------------------ update

  /** How `updateUser` merges the body into the stored user. */
  function UserRules(): map<string, Merge.Rule> {
    map["full_name" := Merge.KeepOnFalsy, "phone_number" := Merge.KeepOnUndefined,
        "subscription_plan" := Merge.KeepOnUndefined, "team_id" := Merge.KeepOnUndefined]
  }

  /** The updated user as written: the merge, then the role from the body if
      it is truthy and the caller is an admin. The team is not guarded. */
  function MergeUser(existing: Record, body: Value, callerRole: Value): (r: Record)
    ensures Get(r, "role") ==
      (if Truthy(Prop(body, "role")) && IsAdmin(callerRole) then Prop(body, "role") else Get(existing, "role"))
    ensures forall k :: k != "role" && k !in UserRules() ==> Get(r, k) == Get(existing, k)
    ensures Get(r, "full_name") == Or(Prop(body, "full_name"), Get(existing, "full_name"))
    ensures forall k :: k in {"phone_number", "subscription_plan", "team_id"} ==>
      Get(r, k) == IfDefined(Prop(body, k), Get(existing, k))
  {
    var merged := Merge.Apply(existing, body, UserRules());
    if Truthy(Prop(body, "role")) && IsAdmin(callerRole) then merged["role" := Prop(body, "role")]
    else merged
  }

  /** The defect: a caller who is not an admin moves themself to another team. */
  lemma NonAdminChangesTeam()
    ensures var existing := map["user_id" := Num(7), "role" := Str("AGENT"), "team_id" := Num(1)];
      var body := Obj(map["team_id" := Num(2)]);
      !IsAdmin(Str("AGENT")) && Get(MergeUser(existing, body, Str("AGENT")), "team_id") == Num(2)
  {
  }

  /** The updated user as the route's comment says it should be: only admins
      change the role or the team. */
  function MergeUserIntended(existing: Record, body: Value, callerRole: Value): (r: Record)
    ensures !IsAdmin(callerRole) ==>
      Get(r, "role") == Get(existing, "role") && Get(r, "team_id") == Get(existing, "team_id")
    ensures IsAdmin(callerRole) ==>
      Get(r, "team_id") == IfDefined(Prop(body, "team_id"), Get(existing, "team_id")) &&
      Get(r, "role") == Or(Prop(body, "role"), Get(existing, "role"))
    ensures forall k :: k != "team_id" ==> Get(r, k) == Get(MergeUser(existing, body, callerRole), k)
  {
    var written := MergeUser(existing, body, callerRole);
    if IsAdmin(callerRole) then written
    else written["team_id" := Get(existing, "team_id")]
  }

  /** `updateUser`: 401, 403 unless the caller may access the user, 404, then
      the body is read (an unreadable one is a 500), the merged user handed to
      `update`, and 500 if that reports failure. */
  function UpdateUser(auth: AuthResult, userId: Value, body: Value, users: Table,
                      update: Record -> bool): (h: Handled)
    ensures auth.Unauthenticated? ==> h == Handled(Unauthorized(auth.message), None)
    ensures h.response.status == 403 <==> auth.Authenticated? && !MayAccess(auth.user, userId)
    ensures h.response.status == 404 <==>
      auth.Authenticated? && MayAccess(auth.user, userId) && FindFirst(users, "user_id", userId).None?
    ensures h.written.Some? <==>
      auth.Authenticated? && MayAccess(auth.user, userId) && FindFirst(users, "user_id", userId).Some? &&
      !Nullish(body)
    ensures h.written.Some? ==>
      h.written.value == MergeUser(FindFirst(users, "user_id", userId).value, body, RoleOf(auth.user)) &&
      (h.response.status == 200 <==> update(h.written.value)) &&
      (h.response.status == 200 ==> Field(h.response, "user") == Obj(PublicProfile(h.written.value)))
    ensures (auth.Authenticated? && MayAccess(auth.user, userId) && FindFirst(users, "user_id", userId).Some? &&
             Nullish(body)) ==> h.response == ServerError()
  {
    match auth
    case Unauthenticated(message) => Handled(Unauthorized(message), None)
    case Authenticated(caller) =>
      if !MayAccess(caller, userId) then Handled(Error(403, "Unauthorized"), None)
      else match FindFirst(users, "user_id", userId)
        case None => Handled(Error(404, "User not found"), None)
        case Some(existing) =>
          if Nullish(body) then Handled(ServerError(), None)
          else
            var updated := MergeUser(existing, body, RoleOf(caller));
            if !update(updated) then Handled(Error(500, "Failed to update user"), Some(updated))
            else Handled(Ok(200, map["message" := Str("User updated successfully"),
                                     "user" := Obj(PublicProfile(updated))]), Some(updated))
  }
}

=== FILE: wrappers.dfy ===
/** Option and Result, the two failure-carrying shapes the rest of the model uses:
    `Option` for a lookup that may find nothing (a repository `findById`, an
    `Array.prototype.find`), `Result` for a call that may throw (`JSON.parse`). */
module Wrappers {

  datatype Option<+T> = None | Some(value: T) {

    /** The value, or `default` when there is none. */
    function GetOr(default: T): T {
      match this
      case Some(v) => v
      case None => default
    }
  }

  datatype Result<+R, +E> = Success(value: R) | Failure(error: E)
}
